=== FILE: README.md ===
# Reverb metrics and application registry, modelled in Dafny

This project models two parts of a Laravel-based WebSocket server (a Reverb host) and proves
properties about them.

**The metrics pipeline.** This part covers:
- the label-keyed counter and gauge stores, both the in-memory one and the Redis-backed one;
- the lifecycle-event collector and the event listener that feeds it;
- the channel-type classifier and the per-scrape aggregation done by the metrics endpoint;
- the Prometheus text exporter, which writes exposition format version 0.0.4.

**The file-backed application registry.** This part covers:
- the provider, a cache of the JSON apps file driven by a clock and a TTL;
- the admin API controller and the validator for application updates;
- the two authentication middlewares: one for the metrics endpoint, one for the admin API.

Everything is a pure function over immutable values. Each call receives the clock (`now`), the state of the apps file, the per-app poll results and the outcome of each disk write as explicit inputs.

| file | module | models |
|---|---|---|
| wrappers.dfy | Wrappers | `Option` and `Result` |
| text.dfy | Text | PHP truthiness of strings, `trim` blankness, decimal integer text |
| json.dfy | Json | decoded JSON values, `??`, `array_merge` on string-keyed arrays |
| labels.dfy | Labels | label sets, `ksort`, the identity key of a sample |
| samples.dfy | Samples | an insertion-ordered PHP array of samples |
| memory_store.dfy | MemoryStore | `InMemoryMetricsStore` |
| collector.dfy | Collector | `ReverbMetricsCollector` |
| exporter.dfy | Exporter | `PrometheusExporter` |
| redis_store.dfy | RedisStore | `RedisMetricsStore` over an abstract key/value and key/set store |
| channels.dfy | Channels | channel-type classification and the per-type channel tally |
| listener.dfy | Listener | `ReverbMetricsListener` |
| metrics_endpoint.dfy | MetricsEndpoint | `MetricsController` |
| file_provider.dfy | FileProvider | `FileApplicationProvider` |
| update_request.dfy | UpdateRequest | `UpdateAppRequest` rules and its key-uniqueness hook |
| app_api.dfy | AppApi | `Api\AppController` |
| gate.dfy, metrics_auth.dfy, api_token_auth.dfy | Gate, MetricsAuth, ApiTokenAuth | the two middlewares |

Some behaviours of the code are easy to miss, and the model keeps them as written:
- **Counters render as `untyped`.** The exporter's registry lists only gauge names. Every counter therefore renders as `untyped` with "No description available" (`Exporter.CollectorCountersAreUntyped`), not as a `counter`.
- **A failed `addApp` save leaves the record in memory.** `addApp` appends to the cached list in place before saving. If the save fails, the record stays in memory but is not in the file (`FileProvider.FailedAddStillListed`). `updateApp` and `deleteApp` build new lists, so a failed save leaves their snapshot unchanged.
- **`updateApp` replaces the record.** It replaces the whole record with `['id' => id] + data`. The field-level merge happens in the controller (`AppApi.MergeUpdate`).
- **A failed refresh still advances the check time.** A refresh whose reload fails still moves `lastChecked` forward and propagates the error. The next call within the TTL does not retry.
- **Nothing rejects a negative counter increment.** The counter only increases for non-negative deltas.

## Model

| member | source | states |
|---|---|---|
| Labels.SortIgnoresOrder | app/Metrics/InMemoryMetricsStore.php:122 | Sorting two permutations of a label set by key gives the same sequence, because keys are unique and the sort is stable. |
| Labels.Digest | app/Metrics/InMemoryMetricsStore.php:123-128 | The digest of sorted labels is a non-empty rendering that ends in `}`. |
| Labels.SortPair | app/Metrics/InMemoryMetricsStore.php:126 | `ksort` keeps two labels that are already in key order. |
| Labels.DigestPair | app/Metrics/InMemoryMetricsStore.php:126-128 | The digest of two labels is their JSON object with the keys in the given order. |
| Labels.IdentityKey | app/Metrics/InMemoryMetricsStore.php:120-129 | The identity key is the bare name for empty labels. Otherwise it is `name:` followed by more text. |
| Labels.IdentityIgnoresOrder | app/Metrics/InMemoryMetricsStore.php:120-129 | Label sets that are permutations of each other address the same sample. |
| Labels.NamesApartKeysApart | app/Metrics/InMemoryMetricsStore.php:120-129 | Two metric names that differ at a position within both get different identity keys, whatever the labels. |
| Samples.Put | app/Metrics/InMemoryMetricsStore.php:32-36 | Assigning to a PHP array key keeps an existing key's position and appends a new key at the end. |
| Samples.Snapshot | app/Metrics/InMemoryMetricsStore.php:91-104 | `array_values` lists every stored sample once, in insertion order. |
| MemoryStore.Increment | app/Metrics/InMemoryMetricsStore.php:28-37 | The counter at the identity key grows by the delta from an implicit 0. A new sample records the given name and labels; an existing one keeps its original name and labels. The gauges and every other counter are unchanged. A non-negative delta never decreases any counter. |
| MemoryStore.Gauge | app/Metrics/InMemoryMetricsStore.php:44-48 | The gauge sample at the key becomes exactly (name, labels, value). Nothing else changes. |
| MemoryStore.IncrementGauge | app/Metrics/InMemoryMetricsStore.php:55-64 | The gauge grows by the delta from an implicit 0. Name and labels are kept or created as for counters. Nothing else changes. |
| MemoryStore.DecrementGauge | app/Metrics/InMemoryMetricsStore.php:71-84 | The gauge becomes the current value (implicitly 0) minus the delta, floored at 0. Nothing else changes. |
| MemoryStore.GetCounters | app/Metrics/InMemoryMetricsStore.php:91-94 | The list holds exactly the stored counter samples, one per key. |
| MemoryStore.GetGauges | app/Metrics/InMemoryMetricsStore.php:101-104 | The list holds exactly the stored gauge samples, one per key. |
| MemoryStore.Clear | app/Metrics/InMemoryMetricsStore.php:109-113 | After `clear`, both listings are empty. |
| MemoryStore.RepeatedIncrement | app/Metrics/InMemoryMetricsStore.php:28-37 | n default increments add exactly n. |
| MemoryStore.IncrementsAccumulate | app/Metrics/InMemoryMetricsStore.php:28-37 | Increments by x and then by y through permuted labels add x + y to one sample. A sample created this way keeps the first call's labels. |
| MemoryStore.PermutedIncrementKeepsSample | app/Metrics/InMemoryMetricsStore.php:32-36 | Incrementing an existing sample through permuted labels changes only its value. |
| MemoryStore.GaugeLastWriteWins | app/Metrics/InMemoryMetricsStore.php:44-48 | Two writes to the same gauge leave the same store as the second write alone. |
| MemoryStore.GaugeUpDownRestores | app/Metrics/InMemoryMetricsStore.php:55-84 | Raising a non-negative gauge by d and then lowering it by d restores its value. |
| Collector.ConnectionOpened | app/Metrics/ReverbMetricsCollector.php:16-20 | Adds 1 to `reverb_connections_created_total{app_id}` and 1 to the `reverb_connections_total{app_id}` gauge. No other sample changes. |
| Collector.ConnectionClosed | app/Metrics/ReverbMetricsCollector.php:25-29 | Adds 1 to `reverb_connections_closed_total{app_id,reason}`, where reason defaults to `normal`. Lowers the connections gauge by 1, floored at 0. No other sample changes. |
| Collector.MessageReceived | app/Metrics/ReverbMetricsCollector.php:34-37 | Exactly one counter, keyed by `{app_id,channel_type}`, grows by 1. The channel type defaults to `public`. |
| Collector.MessageSent | app/Metrics/ReverbMetricsCollector.php:42-45 | The same, for the messages-sent counter. |
| Collector.ChannelCreated | app/Metrics/ReverbMetricsCollector.php:50-53 | `reverb_channels_active{app_id,type}` grows by 1. Nothing else changes. |
| Collector.ChannelRemoved | app/Metrics/ReverbMetricsCollector.php:58-61 | That gauge becomes max(0, value − 1), with a missing gauge read as 0. Nothing else changes. |
| Collector.SubscriptionCreated | app/Metrics/ReverbMetricsCollector.php:66-69 | Exactly one subscriptions counter grows by 1. |
| Collector.SetServerInfo | app/Metrics/ReverbMetricsCollector.php:74-77 | `reverb_server_info{instance,version}` is set to 1. Nothing else changes. |
| Collector.OpenThenCloseRestores | app/Metrics/ReverbMetricsCollector.php:16-29 | Opening and then closing a connection restores the app's connections gauge. |
| Exporter.DefinitionOf | app/Metrics/PrometheusExporter.php:14-43 | Registered names are gauges. Any other name gets the `untyped` fallback. |
| Exporter.FormatMetricHeader | app/Metrics/PrometheusExporter.php:87-101 | Two lines split at a newline: `# HELP name help`, then `# TYPE name type`, from the registry entry or the `untyped` fallback. |
| Exporter.FormatValue | app/Metrics/PrometheusExporter.php:125-139 | An integer value renders as non-empty text that reads back as the value. |
| Exporter.EscapeLabel | app/Metrics/PrometheusExporter.php:144-151 | The three passes act per character: a backslash, a double quote or a newline becomes its two-character escape, and every other character is kept. |
| Exporter.FormatLabel | app/Metrics/PrometheusExporter.php:115-117 | A label part is the key, `="`, the escaped value and `"`, and the quoted text reads back as the label value. |
| Exporter.FormatMetricLine | app/Metrics/PrometheusExporter.php:108-120 | A sample line starts with the name and ends with a space and the value's text. Without labels nothing else comes between them. With labels, the text between `{` and `} ` is exactly the labels' `k="v"` parts (`Exporter.LabelParts`), in stored order, joined by commas. |
| Exporter.Render | app/Metrics/PrometheusExporter.php:58-75 | A header line starts with `# HELP ` and the name; a sample line starts with its name and has more after it. |
| Exporter.CollectorCountersAreUntyped | app/Metrics/PrometheusExporter.php:87-100 | Every counter name the collector uses falls back to `untyped` and "No description available". |
| Exporter.EscapeLabelRoundTrip | app/Metrics/PrometheusExporter.php:144-151 | Escaping works per character: unescaping gives back the label value, and the escaped text has no raw newline. |
| Exporter.Lines | app/Metrics/PrometheusExporter.php:52-75 | The output lines carry every counter sample and then every gauge sample, in store order, one value line each. Each name gets exactly one header. A header comes before its name's first value line and is directly followed by a value line of that name. |
| Exporter.Rendered | app/Metrics/PrometheusExporter.php:108-120 | Every rendered line is non-empty text. |
| Exporter.TextOfLines | app/Metrics/PrometheusExporter.php:77-81 | When every sample line follows its header, filtering out falsy lines removes nothing, and the text starts with `# HELP ` and so differs from the no-metrics comment. |
| Exporter.OutputStartsWithHelp | app/Metrics/PrometheusExporter.php:55-81 | A non-empty rendering starts with a `# HELP ` line. |
| Exporter.Export | app/Metrics/PrometheusExporter.php:52-82 | With no samples, the output is exactly `# No metrics collected yet\n`. Otherwise it is the rendered lines joined by newlines, with one trailing newline, starting with `# HELP `. |
| Exporter.ExportStore | app/Metrics/PrometheusExporter.php:52-82 | An empty store renders as exactly `# No metrics collected yet\n`. Otherwise the text is the store's counter samples and then its gauge samples, as the store lists them, rendered as lines and joined by newlines with one trailing newline; it starts with `# HELP `. |
| Text.IntRoundTrip | app/Metrics/PrometheusExporter.php:125-138 | The decimal text an integer value renders as reads back as that integer. |
| RedisStore.LabelHash | app/Metrics/RedisMetricsStore.php:183-192 | The hash is `default` for empty labels, otherwise a digest. Either way it ends in `t` or `}`, never in the `s` of `:labels`. |
| RedisStore.Increment | app/Metrics/RedisMetricsStore.php:26-34 | Read back through `getCounters`, the counter at its key shows the old value (absent read as 0) plus the delta, with the name and labels of this call, and no other listed counter changes. In a store whose tracker sets hold only keys of their own type, the gauge listing is unchanged and that property is kept. |
| RedisStore.Gauge | app/Metrics/RedisMetricsStore.php:41-49 | Read back through `getGauges`, the gauge at its key shows exactly the given value, name and labels, and no other listed gauge changes. In a store whose tracker sets hold only keys of their own type, the counter listing is unchanged and that property is kept. |
| RedisStore.IncrementGauge | app/Metrics/RedisMetricsStore.php:56-64 | Read back through `getGauges`, the gauge at its key shows the old value (absent read as 0) plus the delta, with this call's name and labels, and no other listed gauge changes. In a store whose tracker sets hold only keys of their own type, the counter listing is unchanged. |
| RedisStore.DecrementGauge | app/Metrics/RedisMetricsStore.php:71-82 | Read back through `getGauges`, the gauge shows max(0, current − delta), with a missing current value read as 0, and this call's name and labels. No other listed gauge changes, and in a store whose tracker sets hold only keys of their own type the counters are unchanged. |
| RedisStore.SampleAt | app/Metrics/RedisMetricsStore.php:137-150 | One listed entry: the stored value, and the name and labels of the `:labels` record, falling back to `""` and `[]`. |
| RedisStore.GetMetrics | app/Metrics/RedisMetricsStore.php:131-154 | A key is listed exactly when it is tracked and has a value. It is listed with that value and with the name and labels of its `:labels` record, or with `""` and `[]` when that record is missing. |
| RedisStore.Clear | app/Metrics/RedisMetricsStore.php:107-124 | Every tracked key, its `:labels` companion and both tracker sets (`counter_keys`, `gauge_keys`) are gone, so both listings are empty. Keys that were never tracked are untouched. |
| RedisStore.WriteReadBack | app/Metrics/RedisMetricsStore.php:26-34 | The three writes every writer makes (value, `:labels` record, tracker set) read back through `getMetrics` (lines 131-154) as exactly the written sample, and leave every other listed key of that type as it was. |
| RedisStore.WriteKeepsSound | app/Metrics/RedisMetricsStore.php:161-166 | When every tracked key starts with its own type's prefix, a write keeps it so, because the tracked value key is built with that prefix. |
| RedisStore.WriteLeavesOtherKind | app/Metrics/RedisMetricsStore.php:131-154 | In such a store, a write of one type leaves the listing of the other type unchanged. |
| RedisStore.KeyIgnoresOrder | app/Metrics/RedisMetricsStore.php:161-192 | Permuted label sets share a storage key. |
| RedisStore.KeyStartsWithType | app/Metrics/RedisMetricsStore.php:161-166 | A storage key starts with `prefix + type + ":"`. |
| RedisStore.KindsNeverShareKey | app/Metrics/RedisMetricsStore.php:161-166 | A counter and a gauge never share a storage key. |
| RedisStore.ValueKeyIsNotLabelsKey | app/Metrics/RedisMetricsStore.php:161-176 | No value key is also a labels key. |
| RedisStore.TrackerKeyIsDistinct | app/Metrics/RedisMetricsStore.php:161-176 | The tracker sets' keys are neither value keys nor labels keys. |
| Channels.TypeNamesDiffer | app/Http/Controllers/MetricsController.php:177-192 | The four type names are pairwise different. |
| Channels.Classify | app/Http/Controllers/MetricsController.php:177-192 | The prefix that marks the returned type starts the channel name. |
| Channels.ClassifyIsLongestMatch | app/Http/Controllers/MetricsController.php:177-192 | The class of a channel name is the type with the longest matching prefix (`private-encrypted-`, then `private-`, then `presence-`). A name with none of these is `public`. |
| Channels.Classified | app/Http/Controllers/MetricsController.php:134-146 | Classifying a list keeps its length and classifies each name. |
| Channels.TallyCountsEachType | app/Http/Controllers/MetricsController.php:134-146 | Each type's bucket counts exactly the channels of that type. |
| Channels.TallyCountsAll | app/Http/Controllers/MetricsController.php:134-146 | The four buckets sum to the number of channels. |
| Listener.EveryEventIsSubscribed | app/Listeners/ReverbMetricsListener.php:126-135 | Exactly five events are subscribed, each handled event kind has one handler, and no two kinds share one. |
| Listener.MessageChannelType | app/Listeners/ReverbMetricsListener.php:106-119 | A decoded payload with a channel is classified by that channel. A malformed payload, or one without a channel, gives `public`. |
| Listener.ChannelAppId | app/Listeners/ReverbMetricsListener.php:47-70 | A channel event is attributed to the first connection's app, or to `unknown` when the channel has no connections. |
| Listener.Handle | app/Listeners/ReverbMetricsListener.php:21-81 | Each event makes its one recorder call: message counters are keyed by the payload's channel type, channel gauges by the first connection's app and the channel's type (up by 1, or down to max(0, value − 1)), and a pruned connection is closed with reason `pruned`: its closed counter grows by 1 and the app's connection gauge drops to max(0, value − 1), nothing else changing. |
| Listener.NoEventCountsConnections | app/Listeners/ReverbMetricsListener.php:126-135 | No subscribed event touches the connections-created counter. |
| Listener.NoEventOpensConnections | app/Listeners/ReverbMetricsListener.php:76-135 | No subscribed event raises the connections gauge. The only exception is the 0 floor lifting a negative value. |
| MetricsEndpoint.FetchAppMetrics | app/Http/Controllers/MetricsController.php:117-152 | An app's result exists exactly when its poll answered with a truthy connections reply. A missing count reads as 0. The channel tally counts every listed channel once, by type. |
| MetricsEndpoint.ChannelKeyShape | app/Http/Controllers/MetricsController.php:89-95 | The per-type channel gauge of an app is keyed by the app id and the type name. |
| MetricsEndpoint.ChannelKeysApart | app/Http/Controllers/MetricsController.php:89-95 | Different channel types of one app use different gauges. |
| MetricsEndpoint.ChannelGauges | app/Http/Controllers/MetricsController.php:89-96 | Each listed type's gauge holds that type's tally. Every other gauge is unchanged. |
| MetricsEndpoint.AppGauges | app/Http/Controllers/MetricsController.php:80-96 | An app's connection gauge and four channel gauges hold its result. Every other gauge is unchanged. |
| MetricsEndpoint.AppGaugesStayPerApp | app/Http/Controllers/MetricsController.php:80-96 | Writing one app's gauges never touches a gauge outside the per-app names. |
| MetricsEndpoint.ScanAllFlag | app/Http/Controllers/MetricsController.php:70-103 | The loop over apps skips those without a result and never stops early: afterwards the server counts as up exactly when some app answered. |
| MetricsEndpoint.ScanAllTotals | app/Http/Controllers/MetricsController.php:70-103 | After the loop, the running totals are the connections and the listed channels summed over the apps that answered. |
| MetricsEndpoint.ScanAllKeepsOthers | app/Http/Controllers/MetricsController.php:70-103 | The loop leaves the counters alone and writes only per-app gauges. When no app answered, it writes nothing. |
| MetricsEndpoint.ScanAll | app/Http/Controllers/MetricsController.php:70-100 | The loop over the apps leaves every counter as it was. |
| MetricsEndpoint.AddReverbMetrics | app/Http/Controllers/MetricsController.php:68-110 | `reverb_up` is 1 exactly when some app answered. Only then are the two totals set, to the sums over those apps. |
| MetricsEndpoint.ScalingMode | app/Http/Controllers/MetricsController.php:53-59 | The mode is `cluster` exactly when scaling is enabled, otherwise `standalone`. |
| MetricsEndpoint.AddServerInfoMetrics | app/Http/Controllers/MetricsController.php:51-63 | Sets the server-info gauge to 1 and `reverb_apps_configured` to the number of apps. Nothing else changes. |
| MetricsEndpoint.Scrape | app/Http/Controllers/MetricsController.php:31-39 | A scrape starts from an empty store. It leaves no counters, the apps count and the up flag, and the two totals exactly when up. |
| MetricsEndpoint.AppsConfiguredSurvives | app/Http/Controllers/MetricsController.php:62-110 | The app polling never overwrites the apps count. |
| MetricsEndpoint.DownLeavesNoTotals | app/Http/Controllers/MetricsController.php:106-109 | When no app answered, neither total is present. |
| MetricsEndpoint.Invoke | app/Http/Controllers/MetricsController.php:25-46 | When disabled, the reply is 503 and the store is untouched. When enabled, the store is cleared. If listing the apps then raises, the reply is 500 and the store stays empty. Otherwise the store is repopulated and the reply is 200: the exported store, with the 0.0.4 content type and a no-cache header. |
| Json.FieldOr | app/Http/Controllers/Api/AppController.php:211-216 | `??` yields the field when it is present and non-null, otherwise the default. |
| Json.Merge | app/Http/Controllers/Api/AppController.php:101 | `array_merge` keeps every key of both sides, and the right side wins. |
| FileProvider.Load | app/Reverb/FileApplicationProvider.php:100-121 | Each of the four failures (missing file, unreadable file, malformed JSON, no `apps` array) occurs exactly in its case. Success replaces the snapshot and both timestamps. |
| FileProvider.Construct | app/Reverb/FileApplicationProvider.php:19-25 | Construction succeeds exactly when the first load does. |
| FileProvider.Refresh | app/Reverb/FileApplicationProvider.php:126-145 | Within the TTL, a refresh is a no-op. Otherwise `lastChecked` becomes now. A file newer than `lastModified` is adopted when it reads as an apps list and makes the refresh fail otherwise. The snapshot changes only that way, so a missing or older file keeps it. |
| FileProvider.RefreshSettles | app/Reverb/FileApplicationProvider.php:126-145 | A second refresh at the same instant after a successful one changes nothing. |
| FileProvider.Reload | app/Reverb/FileApplicationProvider.php:150-154 | A reload takes the file's records whatever the TTL and modification time, or fails exactly as a load does. |
| FileProvider.GetRaw | app/Reverb/FileApplicationProvider.php:161-166 | Returns the refreshed snapshot, and fails exactly when the refresh does. |
| FileProvider.FirstIndex | app/Reverb/FileApplicationProvider.php:68 | Finds the first record whose field holds the value, or reports that none does. |
| FileProvider.Find | app/Reverb/FileApplicationProvider.php:64-75 | When the refresh succeeded, returns the first matching record, and fails with InvalidApplication exactly when no record matches. A failed refresh propagates its error. |
| FileProvider.Save | app/Reverb/FileApplicationProvider.php:175-206 | On success, the file holds exactly the records, and the provider adopts them with new timestamps. On any failure, neither the file nor the provider changes. |
| FileProvider.SaveThenLoad | app/Reverb/FileApplicationProvider.php:175-206 | Loaded back through `loadApps` (lines 100-121): a later load of the saved file gives back the saved records. |
| FileProvider.SaveThenRefresh | app/Reverb/FileApplicationProvider.php:175-206 | Refreshed through `refreshIfNeeded` (lines 126-145): a later refresh after a save keeps the saved records and does not fail. |
| FileProvider.AddApp | app/Reverb/FileApplicationProvider.php:213-219 | The record is appended at the end with no uniqueness check. The file changes exactly when the save succeeds. |
| FileProvider.UpdateApp | app/Reverb/FileApplicationProvider.php:228-240 | For an unknown id, nothing is written and AppNotFound results. Otherwise the first record with the id becomes `['id' => id]` merged with the data, and the length and every other record are kept. |
| FileProvider.Reject | app/Reverb/FileApplicationProvider.php:251 | The result keeps exactly the records without that id, and its length is unchanged exactly when none had it. |
| FileProvider.RejectDistributes | app/Reverb/FileApplicationProvider.php:251 | Rejecting from two joined lists is rejecting from each and joining the results, so the kept records stay in their order. |
| FileProvider.RejectOne | app/Reverb/FileApplicationProvider.php:251 | One record is dropped when it has the id and kept otherwise. |
| FileProvider.RejectCounts | app/Reverb/FileApplicationProvider.php:251 | Each kept record occurs as often as before; every copy of a record with the id is gone. |
| FileProvider.DeleteApp | app/Reverb/FileApplicationProvider.php:247-258 | After a successful refresh, when some record has the id and the save goes through, the call succeeds and the snapshot and file hold exactly the other records, in order. It fails with nothing written when no record had the id or the save fails. A failed refresh propagates its error. |
| FileProvider.Exists | app/Reverb/FileApplicationProvider.php:263-268 | Reports whether some record of the refreshed snapshot has the id. |
| FileProvider.AnyKey | app/Reverb/FileApplicationProvider.php:277-283 | The loop answers exactly whether some record has the key and is not the excluded one. |
| FileProvider.KeyExists | app/Reverb/FileApplicationProvider.php:273-284 | Over the refreshed snapshot, true exactly when some record has the key and either no id is excluded or its id differs. |
| FileProvider.OwnKeyIsFree | app/Reverb/FileApplicationProvider.php:273-284 | A record's own key is not reported as taken when that record is excluded, but is reported without exclusion. |
| FileProvider.AddThenExists | app/Reverb/FileApplicationProvider.php:213-219 | Checked with `exists` (lines 263-268): after a successful add, `exists(id)` is true. |
| FileProvider.DeleteThenGone | app/Reverb/FileApplicationProvider.php:247-268 | After a successful delete, `exists(id)` is false. |
| FileProvider.FailedAddStillListed | app/Reverb/FileApplicationProvider.php:213-219 | A failed save after the in-place append leaves the record in memory but not in the file. |
| UpdateRequest.Validate | app/Http/Requests/UpdateAppRequest.php:24-59 | The hook runs whether or not the rules passed. A key is filled unless it is null or a string that trims to nothing. Without a filled key, the errors are exactly the rule errors. An array key, even an empty one, makes `keyExists(string ...)` throw, a failure. Otherwise the provider is refreshed, a failed refresh propagates, and the errors are the rule errors plus an error on `key` exactly when the key's string form is taken by another app. |
| UpdateRequest.KeyText | app/Http/Requests/UpdateAppRequest.php:54 | The string that `keyExists(string $key)` receives: a string as given, an integer in decimal, a boolean as "1" or "". An array or null has none. |
| UpdateRequest.ArrayKeyFails | app/Http/Requests/UpdateAppRequest.php:50-58 | A key sent as an array, even an empty one, makes validation fail with the argument-type error. |
| UpdateRequest.OptionFieldsAreRuled | app/Http/Requests/UpdateAppRequest.php:36-41 | The option keys that survive validation are exactly those the rules name under `options`. |
| UpdateRequest.Validated | app/Http/Requests/UpdateAppRequest.php:26-41 | The validated data holds the present top-level ruled fields unchanged, never `id`. An `options` array keeps only its ruled keys and is dropped when it has none of them. |
| UpdateRequest.FieldErrorIff | app/Http/Requests/UpdateAppRequest.php:26-41 | A field carries an error exactly when it fails one of its rules. |
| UpdateRequest.FieldVerdict | app/Http/Requests/UpdateAppRequest.php:26-41 | A present field's error depends only on its value and rules. A null under `nullable` is accepted. |
| UpdateRequest.EmptyInputIsValid | app/Http/Requests/UpdateAppRequest.php:27-41 | Every rule is `sometimes`, so an empty update raises no error. |
| UpdateRequest.KeyLength | app/Http/Requests/UpdateAppRequest.php:28 | A string key is accepted exactly when it is 16 to 255 characters long. |
| UpdateRequest.SecretLength | app/Http/Requests/UpdateAppRequest.php:29 | A string secret is accepted exactly when it is 32 to 255 characters long. |
| UpdateRequest.NameLength | app/Http/Requests/UpdateAppRequest.php:27 | A string name is rejected exactly when it is longer than 255 characters. |
| UpdateRequest.MaxConnectionsRange | app/Http/Requests/UpdateAppRequest.php:33 | `max_connections` is accepted exactly when it is null or an integer of at least 1. |
| UpdateRequest.MaxMessageSizeRange | app/Http/Requests/UpdateAppRequest.php:34 | `max_message_size` is accepted exactly when it is an integer in 1..10,000,000. |
| UpdateRequest.OptionRange | app/Http/Requests/UpdateAppRequest.php:37-41 | `options.port` is accepted exactly in 1..65535. `ping_interval` and `activity_timeout` are accepted exactly in 1..3600. |
| UpdateRequest.SchemeChoice | app/Http/Requests/UpdateAppRequest.php:38 | `options.scheme` is accepted exactly when it is `http` or `https`. |
| UpdateRequest.OwnKeyPasses | app/Http/Requests/UpdateAppRequest.php:50-58 | An app resubmitting its own well-formed key passes validation. |
| AppApi.FormatApp | app/Http/Controllers/Api/AppController.php:206-218 | The response shows the eight public fields and never `secret`. A missing or null field takes its default. |
| AppApi.FormatIdempotent | app/Http/Controllers/Api/AppController.php:206-218 | Formatting a formatted record changes nothing. |
| AppApi.FormatAll | app/Http/Controllers/Api/AppController.php:25-27 | Each record is formatted in order. |
| AppApi.Index | app/Http/Controllers/Api/AppController.php:23-32 | The reply is 200 exactly when the refreshed snapshot can be read and every record has an id and a key; it then lists every record, formatted, in order. The file is not touched. |
| AppApi.FindApp | app/Http/Controllers/Api/AppController.php:195-198 | Gives the first record with that id, or none exactly when no record has it. |
| AppApi.Show | app/Http/Controllers/Api/AppController.php:37-50 | An unknown id gives 404 "Application not found". A found record that has an id and a key gives 200 showing it formatted, and a 200 always shows such a record. The file is never written. |
| AppApi.MergeUpdate | app/Http/Controllers/Api/AppController.php:101-105 | Fields absent from the validated input keep their stored values, and present ones override them. Supplied non-null options are merged key by key into the stored options (none stored counts as empty). When the supplied or the stored options are not an array, `array_merge` throws and there is no merged record. |
| AppApi.EmptyUpdateKeepsRecord | app/Http/Controllers/Api/AppController.php:101-105 | An empty update keeps the record as it is. |
| AppApi.Update | app/Http/Controllers/Api/AppController.php:89-119 | A validation that raises (a failed refresh, or an array key) gives a bare 500 with nothing written. Validation errors give 422 with nothing written. Input without errors goes on to the lookup and write. On 200, the stored record is the merged one, and the reply shows it formatted. |
| AppApi.ArrayKeyCrashes | app/Http/Controllers/Api/AppController.php:89 | An update whose key is an array, even an empty one, is answered with a bare 500 and nothing written. |
| AppApi.ErrorFields | app/Http/Requests/UpdateAppRequest.php:24-59 | The 422 body names every failing path. |
| AppApi.UpdateFound | app/Http/Controllers/Api/AppController.php:91-118 | An unknown id gives 404 with nothing written. A found record whose options cannot be merged gives a bare 500 with nothing written. A found record whose merge can be formatted gives 200 when the save goes through. On 200, the found record merged with the input is stored (id first) and saved, and the reply shows it formatted. |
| AppApi.WrittenUpdate | app/Reverb/FileApplicationProvider.php:228-240 | A successful `updateApp` saved the file with the new snapshot, and that snapshot holds the given data with the id first. |
| AppApi.FoundStaysFound | app/Http/Controllers/Api/AppController.php:91-105 | A record the lookup found is found again by the write that follows at the same instant, so a save that goes through makes the write succeed. |
| AppApi.Resecret | app/Http/Controllers/Api/AppController.php:158-159 | Only the `secret` field of the record changes. |
| AppApi.RegenerateSecret | app/Http/Controllers/Api/AppController.php:148-176 | An unknown id gives 404 with nothing written. A found id gives 200 when the save goes through. On 200, the stored record is the old one with the new secret, and the reply shows the id and the secret. |
| AppApi.Destroy | app/Http/Controllers/Api/AppController.php:124-143 | 404 without deleting when `exists(id)` is false. When the id exists and the save goes through, the reply is 200; a 200 means memory and file hold exactly the other records, in order. |
| AppApi.DefaultOptions | app/Http/Controllers/Api/AppController.php:68-75 | The default options are the configured host and port, `http`, no TLS, ping 60 and activity timeout 30. |
| AppApi.NewOptions | app/Http/Controllers/Api/AppController.php:68-75 | The options exist exactly when the supplied ones (empty when absent or null) are an array. Then the supplied options override the defaults key by key. |
| AppApi.NewApp | app/Http/Controllers/Api/AppController.php:59-76 | A new record exists exactly when a name was supplied and the supplied options, if any, are an array. It holds the shown fields plus its secret. |
| AppApi.NewAppHasIdentity | app/Http/Controllers/Api/AppController.php:60-61 | A built record always has an id and a key. |
| AppApi.NewAppIdentity | app/Http/Controllers/Api/AppController.php:60-63 | The id, key and secret are the supplied ones or freshly generated ones. The name is the supplied one. |
| AppApi.NewAppSettings | app/Http/Controllers/Api/AppController.php:64-76 | Each setting is the supplied one or its default: `["*"]`, false, null, 10000. The options are the defaults (host, port, `http`, no TLS, 60, 30) overridden key by key by the supplied ones. |
| AppApi.NewAppShowsDefaults | app/Http/Controllers/Api/AppController.php:59-76 | Formatted by `formatAppResponse` (lines 206-218): a record created from a bare name is shown with the documented defaults, and without its secret. |
| AppApi.Store | app/Http/Controllers/Api/AppController.php:55-84 | Without a name, or with supplied options that are not an array, the reply is a bare 500. With both, a readable registry and a save that goes through, the reply is 201. Every other reply is a bare 500. A 201 reply means the new record was appended and saved, and the reply shows it formatted. |
| AppApi.StoreRecord | app/Http/Controllers/Api/AppController.php:78-83 | Storing a built record: a 201 reply means the save went through, the snapshot is the refreshed one plus the record at the end, and the body holds exactly the formatted record under `data` and "Application created successfully". A readable registry and a save that goes through give 201. |
| AppApi.ReloadAction | app/Http/Controllers/Api/AppController.php:181-188 | A 200 reply means the snapshot now holds the file's records. Otherwise the provider is unchanged. |
| MetricsAuth.IpAllowed | app/Http/Middleware/MetricsAuth.php:40-49 | The client address must be in the allowlist. An empty allowlist admits no address. |
| MetricsAuth.TokenValid | app/Http/Middleware/MetricsAuth.php:54-69 | With no configured token, every request passes. Otherwise the bearer token must equal the configured token, so a missing token fails. |
| MetricsAuth.Authorized | app/Http/Middleware/MetricsAuth.php:28-35 | A listed address passes regardless of token. With a configured token and no bearer token, only a listed address passes. |
| MetricsAuth.Handle | app/Http/Middleware/MetricsAuth.php:16-23 | The request goes on exactly when authorized. Otherwise the reply is 401 `Unauthorized`. |
| MetricsAuth.PassesIff | app/Http/Middleware/MetricsAuth.php:16-69 | A request passes exactly when its address is listed, no token is configured, or it carries the configured token. |
| MetricsAuth.FailsOpen | app/Http/Middleware/MetricsAuth.php:58-60 | With no configured token, every request passes. |
| ApiTokenAuth.Handle | app/Http/Middleware/ApiTokenAuth.php:16-41 | An unconfigured token gives 500 for every request, a missing bearer token gives 401 "Authorization token required", and a wrong one gives 401 "Invalid authorization token". The request goes on exactly when a token is configured and the bearer token equals it. |
| ApiTokenAuth.NoTokenNeverPasses | app/Http/Middleware/ApiTokenAuth.php:26-32 | A request without a bearer token never passes. |

## Left out

**Not modelled, and why:**
- Integer width. Counter and gauge values are unbounded integers, so PHP's switch to a float when an in-memory sum passes `PHP_INT_MAX`, and the overflow error Redis `INCRBY` raises past 2^63 - 1, are not modelled.
- Floating-point values. Gauge values are integers, so the `number_format` branch and the NaN and infinity branches of the value formatting are not modelled. For integral values, the decimal text is the same as the integer branch's.
- md5 and JSON encoding of labels. The digest is a plain deterministic rendering of the sorted labels. Key sorting compares character codes; PHP's numeric-string key comparison is not modelled.
- Real I/O:
  - the file system: existence checks, modification times, locking, temp files, `clearstatcache`;
  - JSON encoding and decoding of the apps file;
  - the live Redis connection.

  These become abstract values: a `File` value, a `SaveIo` outcome and maps for Redis.
- Concurrency between processes or Redis clients. One sequential client is modelled.
- The Pusher client and the HTTP polling of apps. Each app's poll result is an input.
- `Str::uuid`, `Str::random` and configuration reads. They are parameters.
- The database-backed provider and `createApplication`. They are not part of this model.
- Wiring, routes, configuration files, views and the health route.
- The `StoreAppRequest` rules. That class is not part of this model, so `store` takes its validated input as given.
- Error messages of the validator and the framework's exception bodies. A 422 names the failing paths, and an uncaught exception is a bare 500.

**Simplifications and weaker contracts:**
- PHP arrays as values. A decoded record is a map, so key order is not modelled. An empty array decodes as an empty object.
- AppApi.FieldsOf: option merging treats a list-shaped `options` value as empty, where PHP's `array_merge` would renumber it.
- Labels.Digest: the rendering does not escape `"` or `\` inside label keys and values, where `json_encode` does. So two distinct label sets can share a digest (for example one label whose value holds `","c":"d` and two labels), and then the in-memory store and the Redis key builder keep them in one sample where PHP keeps two.
- AppApi.FindApp: `firstWhere` compares ids with loose `==`; the model compares them strictly as strings.
- FileProvider.Find: `firstWhere` compares with loose `==` and reads a missing field as null; the model compares strictly as strings and treats a missing field as not matching. The two differ for non-string fields (an integer matches its decimal text, a boolean matches by truthiness: `true` equals every non-empty string but "0", `false` equals "0" and ""), for numeric-looking strings, and for an empty search value, which null loosely equals.
- FileProvider.UpdateApp: a record without an `id` is treated as not matching. PHP raises an undefined-key error (turned into an exception by the framework) when the search closure reads `$a['id']`.
- FileProvider.DeleteApp: a record without an `id` is treated as not matching, where the `reject` closure's read of `$a['id']` raises.
- FileProvider.Exists: a record without an `id` is treated as not matching, where the `contains` closure's read of `$a['id']` raises.
- FileProvider.KeyExists: a record without an `id` or a `key` is treated as not matching, where the closure's read of `$a['id']` or `$a['key']` raises.
- MetricsEndpoint.Invoke: only the in-memory store backs the endpoint; the Redis store is modelled on its own (`RedisStore`), not behind the endpoint. The app list is read once: a second listing that raises after the server gauges were written (the registry refreshing between the two reads) is not modelled.
- UpdateRequest.Validated: an object-shaped `allowed_origins` whose keys contain a dot comes through whole, where Laravel's path lookup would drop those elements.
- UpdateRequest.Validate:
  - The validator's coercions are not modelled: numeric strings passing `integer`, and empty strings turned into null by middleware.
  - A float key is outside the value model, so its coerced string form is not modelled.
- UpdateRequest.Size: `min`/`max` on a boolean or null use the length of PHP's string form.
- RedisStore.Increment: the cross-type frame (the other type's listing is unchanged) is promised only for stores whose tracker sets hold keys of their own type, which every store built by these writers from an empty one is (`RedisStore.EmptyIsSound`, `RedisStore.WriteKeepsSound`).

=== FILE: api_token_auth.dfy ===
/** Access control for the admin API: the request must carry, as its bearer token, the
    configured admin token. Without a configured token every request is refused with a server
    error, so the check fails closed. */
module ApiTokenAuth {
  import opened Wrappers
  import opened Text
  import opened Gate

  const NotConfigured := Stop(500, "API authentication not configured")
  const TokenRequired := Stop(401, "Authorization token required")
  const InvalidToken := Stop(401, "Invalid authorization token")

  /** `handle`, given the configured token and the request's bearer token. */
  function Handle(configured: Option<string>, bearer: Option<string>): (g: Gate)
    ensures g.Next? <==> !EmptyValue(configured) && bearer == configured
    ensures g == NotConfigured <==> EmptyValue(configured)
    ensures g == TokenRequired <==> !EmptyValue(configured) && EmptyValue(bearer)
    ensures g == InvalidToken <==> !EmptyValue(configured) && !EmptyValue(bearer) && bearer != configured
  {
    if EmptyValue(configured) then NotConfigured
    else if EmptyValue(bearer) then TokenRequired
    else if configured.value != bearer.value then InvalidToken
    else Next
  }

  /** Whatever is configured, a request without a bearer token never passes. */
  lemma NoTokenNeverPasses(configured: Option<string>)
    ensures Handle(configured, None).Stop? && Handle(configured, Some("")).Stop?
  {
  }
}

=== FILE: app_api.dfy ===
/** The admin API over the file-backed registry: listing and showing records without their
    secret, creating a record with defaults, the field-level merge of an update, secret
    regeneration, deletion and forced reload. Every action takes the provider, the file and the
    clock, and returns the provider and file it leaves behind together with the HTTP reply. */
module AppApi {
  import opened Wrappers
  import opened Json
  import opened FileProvider
  import opened UpdateRequest

  datatype Reply = Reply(status: int, body: Record)

  datatype Outcome = Outcome(provider: Provider, file: File, reply: Reply)

  const NotFound := Reply(404, map["error" := Str("Application not found")])

  /** An exception no action catches becomes a bare 500 (the framework renders its body). */
  const Crash := Reply(500, map[])

  function ErrorReply(status: int, p: Provider, e: Error): Reply
    requires IsRuntime(e)
  {
    Reply(status, map["error" := Str(Message(p, e))])
  }

  /** The fields a response shows, with the value each takes when the record lacks it or holds
      null. `id` and `key` are shown as stored and have no default; `secret` is never shown. */
  const Defaults: Record := map[
    "name" := Null,
    "allowed_origins" := List([Str("*")]),
    "enable_client_messages" := Bool(false),
    "max_connections" := Null,
    "max_message_size" := Int(10000),
    "options" := Object(map[])
  ]

  const ShownFields: set<string> :=
    {"id", "key", "name", "allowed_origins", "enable_client_messages", "max_connections", "max_message_size", "options"}

  /** `formatAppResponse`. Reading a missing `id` or `key` raises an error, so there is no
      response for such a record. */
  function FormatApp(app: Record): (r: Option<Record>)
    ensures r.Some? <==> "id" in app && "key" in app
    ensures r.Some? ==>
      && r.value.Keys == ShownFields
      && "secret" !in r.value
      && r.value["id"] == app["id"] && r.value["key"] == app["key"]
      && forall f :: f in Defaults ==> r.value[f] == FieldOr(app, f, Defaults[f])
  {
    if "id" in app && "key" in app then
      Some(map f | f in ShownFields :: if f in Defaults then FieldOr(app, f, Defaults[f]) else app[f])
    else None
  }

  /** Formatting a formatted record changes nothing: every default but the null ones is non-null,
      and a null default reads back as itself. */
  lemma FormatIdempotent(app: Record)
    requires "id" in app && "key" in app
    ensures FormatApp(FormatApp(app).value) == FormatApp(app)
  {
    var once := FormatApp(app).value;
    var twice := FormatApp(once).value;
    forall f | f in ShownFields ensures twice[f] == once[f] {
      if f in Defaults {
        assert once[f] == FieldOr(app, f, Defaults[f]);
        assert twice[f] == FieldOr(once, f, Defaults[f]);
      } else {
        assert f == "id" || f == "key";
      }
    }
    assert twice == once;
  }

  /** The formatted records of a list, or None when one of them cannot be formatted. */
  function FormatAll(apps: seq<Record>): (r: Option<seq<Value>>)
    ensures r.Some? <==> forall j :: 0 <= j < |apps| ==> FormatApp(apps[j]).Some?
    ensures r.Some? ==>
      && |r.value| == |apps|
      && forall j :: 0 <= j < |apps| ==> r.value[j].Object? && FormatApp(apps[j]) == Some(r.value[j].fields)
  {
    if |apps| == 0 then Some([])
    else
      var head := FormatApp(apps[0]);
      var tail := FormatAll(apps[1..]);
      assert forall j :: 0 <= j < |apps| - 1 ==> apps[1..][j] == apps[j + 1];
      if head.Some? && tail.Some? then Some([Object(head.value)] + tail.value) else None
  }

  /** `index`: every record, formatted, in stored order. */
  function Index(p: Provider, file: File, now: int): (r: Outcome)
    ensures r.file == file && r.provider == Refresh(p, file, now).provider
    ensures r.reply.status == 200 ==>
      && GetRaw(p, file, now).result.Success?
      && var apps := r.provider.apps;
         "data" in r.reply.body && r.reply.body["data"].List? && |r.reply.body["data"].items| == |apps|
         && forall j :: 0 <= j < |apps| ==>
              r.reply.body["data"].items[j].Object? && FormatApp(apps[j]) == Some(r.reply.body["data"].items[j].fields)
    ensures r.reply.status != 200 ==> r.reply == Crash
    ensures GetRaw(p, file, now).result.Failure? ==> r.reply == Crash
    ensures GetRaw(p, file, now).result.Success? && FormatAll(r.provider.apps).Some? ==> r.reply.status == 200
  {
    var raw := GetRaw(p, file, now);
    if raw.result.Failure? then Outcome(raw.provider, file, Crash)
    else match FormatAll(raw.result.value)
      case None => Outcome(raw.provider, file, Crash)
      case Some(items) => Outcome(raw.provider, file, Reply(200, map["data" := List(items)]))
  }

  /** `findApp`: the first record with that id in the refreshed snapshot, or none. */
  function FindApp(p: Provider, file: File, now: int, id: string): (r: Answer<Option<Record>>)
    ensures r.provider == Refresh(p, file, now).provider
    ensures r.result.Failure? <==> Refresh(p, file, now).result.Failure?
    ensures r.result.Success? ==>
      (r.result.value.None? <==> !HasApp(r.provider.apps, id))
      && (r.result.value.Some? ==> FieldIs(r.result.value.value, "id", id) && r.result.value.value in r.provider.apps)
    ensures r.result.Success? && FirstIndex(r.provider.apps, "id", id).Some? ==>
      r.result.value == Some(r.provider.apps[FirstIndex(r.provider.apps, "id", id).value])
  {
    var raw := GetRaw(p, file, now);
    if raw.result.Failure? then Answer(raw.provider, Failure(raw.result.error))
    else match FirstIndex(raw.result.value, "id", id)
      case None => Answer(raw.provider, Success(None))
      case Some(i) => Answer(raw.provider, Success(Some(raw.result.value[i])))
  }

  /** `show`: the formatted record, or 404. */
  function Show(p: Provider, file: File, now: int, id: string): (r: Outcome)
    ensures r.file == file && r.provider == Refresh(p, file, now).provider
    ensures FindApp(p, file, now, id).result == Success(None) ==> r.reply == NotFound
    ensures r.reply.status == 200 ==>
      exists app :: app in r.provider.apps && FieldIs(app, "id", id)
        && "data" in r.reply.body && r.reply.body["data"].Object?
        && FormatApp(app) == Some(r.reply.body["data"].fields)
    ensures var found := FindApp(p, file, now, id);
      found.result.Success? && found.result.value.Some? && FormatApp(found.result.value.value).Some? ==>
        r.reply == Reply(200, map["data" := Object(FormatApp(found.result.value.value).value)])
  {
    var found := FindApp(p, file, now, id);
    match found.result
    case Failure(_) => Outcome(found.provider, file, Crash)
    case Success(None) => Outcome(found.provider, file, NotFound)
    case Success(Some(app)) =>
      match FormatApp(app)
      case None => Outcome(found.provider, file, Crash)
      case Some(shown) => Outcome(found.provider, file, Reply(200, map["data" := Object(shown)]))
  }

  /** The fields of an array-valued field; a list-shaped array counts as empty. */
  function FieldsOf(v: Value): map<string, Value> {
    if v.Object? then v.fields else map[]
  }

  /** The merge in `update`: supplied fields override the stored ones, and when options are
      supplied they are merged key by key into the stored options. When either side of that
      options merge is not an array, `array_merge` raises a TypeError and there is no result. */
  function MergeUpdate(existing: Record, validated: Record): (r: Option<Record>)
    ensures r.None? <==>
      "options" in validated && validated["options"] != Null &&
      !(PhpArray(FieldOr(existing, "options", Object(map[]))) && PhpArray(validated["options"]))
    ensures r.Some? ==>
      && r.value.Keys == existing.Keys + validated.Keys
      && (forall k :: k in validated && k != "options" ==> r.value[k] == validated[k])
      && (forall k :: k in existing && k !in validated ==> r.value[k] == existing[k])
    ensures r.Some? && "options" in validated && validated["options"] != Null ==>
      var stored := FieldsOf(FieldOr(existing, "options", Object(map[])));
      var supplied := FieldsOf(validated["options"]);
      && r.value["options"].Object?
      && r.value["options"].fields.Keys == stored.Keys + supplied.Keys
      && (forall o :: o in supplied ==> r.value["options"].fields[o] == supplied[o])
      && (forall o :: o in stored && o !in supplied ==> r.value["options"].fields[o] == stored[o])
    ensures r.Some? && "options" in validated && validated["options"] == Null ==> r.value["options"] == Null
  {
    var updated := Merge(existing, validated);
    if "options" in validated && validated["options"] != Null then
      var stored := FieldOr(existing, "options", Object(map[]));
      if PhpArray(stored) && PhpArray(validated["options"]) then
        Some(updated["options" := Object(Merge(FieldsOf(stored), FieldsOf(validated["options"])))])
      else None
    else Some(updated)
  }

  /** Merging an empty update keeps the stored record. */
  lemma EmptyUpdateKeepsRecord(existing: Record)
    ensures MergeUpdate(existing, map[]) == Some(existing)
  {
    assert Merge(existing, map[]) == existing;
  }

  /** `update`. The request is validated first (422 when any rule or the key check fails), then
      the record is looked up (404 when absent), merged, and written back. A runtime failure of
      the write is answered with 404 and its message. */
  function Update(p: Provider, file: File, now: int, id: string, input: Record, io: SaveIo): (r: Outcome)
    ensures var v := Validate(p, file, now, id, input);
      && (v.result.Failure? ==> r == Outcome(v.provider, file, Crash))
      && (v.result.Success? && v.result.value != {} ==> r.reply.status == 422 && r.file == file && r.provider == v.provider)
    ensures r.reply.status == 404 && r.reply == NotFound ==> r.file == file
    ensures r.reply.status == 200 ==>
      && Validate(p, file, now, id, input).result == Success({})
      && io.Saved?
      && r.file == Present(io.mtime, Readable(AppsList(r.provider.apps)))
      && (exists existing :: FieldIs(existing, "id", id) &&
            MergeUpdate(existing, Validated(input)).Some? &&
            var updated := MergeUpdate(existing, Validated(input)).value;
            "data" in r.reply.body && r.reply.body["data"].Object?
            && FormatApp(updated) == Some(r.reply.body["data"].fields)
            && Merge(map["id" := Str(id)], updated) in r.provider.apps)
    ensures var v := Validate(p, file, now, id, input);
      v.result == Success({}) ==> r == UpdateFound(v.provider, file, now, id, Validated(input), io)
  {
    var checked := Validate(p, file, now, id, input);
    match checked.result
    case Failure(_) => Outcome(checked.provider, file, Crash)
    case Success(errors) =>
      if errors != {} then Outcome(checked.provider, file, Reply(422, map["errors" := ErrorFields(errors)]))
      else UpdateFound(checked.provider, file, now, id, Validated(input), io)
  }

  /** A key sent as an array, even an empty one, makes the key hook raise: the reply is a bare
      500 and nothing is written, whatever else the input holds. */
  lemma ArrayKeyCrashes(p: Provider, file: File, now: int, id: string, input: Record, io: SaveIo)
    requires "key" in input && (input["key"].List? || input["key"].Object?)
    ensures Update(p, file, now, id, input, io) == Outcome(p, file, Crash)
  {
    ArrayKeyFails(p, file, now, id, input);
  }

  /** The 422 body's `errors` object: one entry per failing path (the messages are not
      modelled). */
  function ErrorFields(errors: set<ErrorKey>): (r: Value)
    ensures r.Object? && forall e :: e in errors ==> Path(e) in r.fields
  {
    Object(map e | e in errors :: Path(e) := List([]))
  }

  /** The part of `update` after validation. */
  function UpdateFound(p: Provider, file: File, now: int, id: string, validated: Record, io: SaveIo): (r: Outcome)
    ensures var found := FindApp(p, file, now, id);
      && (found.result == Success(None) ==> r == Outcome(found.provider, file, NotFound))
      && (found.result.Failure? ==> r == Outcome(found.provider, file, Crash))
    ensures r.reply.status == 200 ==>
      && io.Saved?
      && r.file == Present(io.mtime, Readable(AppsList(r.provider.apps)))
      && var found := FindApp(p, file, now, id);
         found.result.Success? && found.result.value.Some?
         && MergeUpdate(found.result.value.value, validated).Some?
         && var updated := MergeUpdate(found.result.value.value, validated).value;
         "data" in r.reply.body && r.reply.body["data"].Object?
         && FormatApp(updated) == Some(r.reply.body["data"].fields)
         && Merge(map["id" := Str(id)], updated) in r.provider.apps
    ensures r.reply.status == 404 && r.reply == NotFound ==> r.file == file
    ensures var found := FindApp(p, file, now, id);
      found.result.Success? && found.result.value.Some? && MergeUpdate(found.result.value.value, validated).None? ==>
        r == Outcome(found.provider, file, Crash)
    ensures var found := FindApp(p, file, now, id);
      found.result.Success? && found.result.value.Some? && io.Saved?
      && MergeUpdate(found.result.value.value, validated).Some?
      && FormatApp(MergeUpdate(found.result.value.value, validated).value).Some? ==>
        r.reply.status == 200
  {
    var found := FindApp(p, file, now, id);
    match found.result
    case Failure(_) => Outcome(found.provider, file, Crash)
    case Success(None) => Outcome(found.provider, file, NotFound)
    case Success(Some(existing)) =>
      match MergeUpdate(existing, validated)
      case None => Outcome(found.provider, file, Crash)
      case Some(updated) =>
      FoundStaysFound(p, file, now, id, updated, io);
      var w := FileProvider.UpdateApp(found.provider, file, now, id, updated, io);
      match w.result
      case Failure(e) =>
        if IsRuntime(e) then Outcome(w.provider, w.file, ErrorReply(404, w.provider, e))
        else Outcome(w.provider, w.file, Crash)
      case Success(_) =>
        WrittenUpdate(found.provider, file, now, id, updated, io);
        match FormatApp(updated)
        case None => Outcome(w.provider, w.file, Crash)
        case Some(shown) =>
          Outcome(w.provider, w.file, Reply(200, map["data" := Object(shown), "message" := Str("Application updated successfully")]))
  }

  /** A successful `updateApp` saved the file with the new snapshot, which holds the given data
      with the id put first. */
  lemma WrittenUpdate(p: Provider, file: File, now: int, id: string, data: Record, io: SaveIo)
    requires FileProvider.UpdateApp(p, file, now, id, data, io).result.Success?
    ensures var w := FileProvider.UpdateApp(p, file, now, id, data, io);
      && io.Saved?
      && w.file == Present(io.mtime, Readable(AppsList(w.provider.apps)))
      && Merge(map["id" := Str(id)], data) in w.provider.apps
  {
    var refreshed := Refresh(p, file, now);
    var i := FirstIndex(refreshed.provider.apps, "id", id).value;
    assert UpdateApp(p, file, now, id, data, io).provider.apps[i] == Merge(map["id" := Str(id)], data);
  }

  /** The record `findApp` found is still there when `updateApp` refreshes again at the same
      instant, so a save that goes through makes the write succeed. */
  lemma FoundStaysFound(p: Provider, file: File, now: int, id: string, data: Record, io: SaveIo)
    ensures var found := FindApp(p, file, now, id);
      found.result.Success? && found.result.value.Some? && io.Saved? ==>
        FileProvider.UpdateApp(found.provider, file, now, id, data, io).result.Success?
  {
    var found := FindApp(p, file, now, id);
    if found.result.Success? && found.result.value.Some? && io.Saved? {
      RefreshSettles(p, file, now);
    }
  }

  /** `regenerateSecret`: the stored record with only its secret replaced (the new secret is a
      parameter). A runtime failure of the write is answered with 500 and its message. */
  function RegenerateSecret(p: Provider, file: File, now: int, id: string, secret: string, io: SaveIo): (r: Outcome)
    ensures var found := FindApp(p, file, now, id);
      && (found.result == Success(None) ==> r == Outcome(found.provider, file, NotFound))
      && (found.result.Failure? ==> r == Outcome(found.provider, file, Crash))
    ensures r.reply.status == 200 ==>
      && io.Saved?
      && r.reply.body == map["data" := Object(map["id" := Str(id), "secret" := Str(secret)]),
                             "message" := Str("Secret regenerated successfully")]
      && r.file == Present(io.mtime, Readable(AppsList(r.provider.apps)))
      && exists existing :: existing in FindApp(p, file, now, id).provider.apps && FieldIs(existing, "id", id)
           && Merge(map["id" := Str(id)], Resecret(existing, secret)) in r.provider.apps
    ensures r.reply.status != 200 ==> r.file == file
    ensures var found := FindApp(p, file, now, id);
      found.result.Success? && found.result.value.Some? && io.Saved? ==> r.reply.status == 200
  {
    var found := FindApp(p, file, now, id);
    match found.result
    case Failure(_) => Outcome(found.provider, file, Crash)
    case Success(None) => Outcome(found.provider, file, NotFound)
    case Success(Some(existing)) =>
      FoundStaysFound(p, file, now, id, Resecret(existing, secret), io);
      var w := FileProvider.UpdateApp(found.provider, file, now, id, Resecret(existing, secret), io);
      match w.result
      case Failure(e) =>
        if IsRuntime(e) then Outcome(w.provider, w.file, ErrorReply(500, w.provider, e))
        else Outcome(w.provider, w.file, Crash)
      case Success(_) =>
        WrittenUpdate(found.provider, file, now, id, Resecret(existing, secret), io);
        Outcome(w.provider, w.file, Reply(200, map[
          "data" := Object(map["id" := Str(id), "secret" := Str(secret)]),
          "message" := Str("Secret regenerated successfully")]))
  }

  /** The record with a new secret: every other field is kept. */
  function Resecret(existing: Record, secret: string): (r: Record)
    ensures r.Keys == existing.Keys + {"secret"}
    ensures r["secret"] == Str(secret)
    ensures forall k :: k in existing && k != "secret" ==> r[k] == existing[k]
  {
    Merge(existing, map["secret" := Str(secret)])
  }

  /** `destroy`: 404 without writing when no record has the id, otherwise every record with it
      is removed. A runtime failure of the write is answered with 404 and its message. */
  function Destroy(p: Provider, file: File, now: int, id: string, io: SaveIo): (r: Outcome)
    ensures var present := FileProvider.Exists(p, file, now, id);
      && (present.result == Success(false) ==> r == Outcome(present.provider, file, NotFound))
      && (present.result.Failure? ==> r == Outcome(present.provider, file, Crash))
    ensures r.reply.status == 200 ==>
      && io.Saved?
      && HasApp(Refresh(p, file, now).provider.apps, id)
      && !HasApp(r.provider.apps, id)
      && r.provider.apps == Reject(Refresh(p, file, now).provider.apps, id)
      && r.file == Present(io.mtime, Readable(AppsList(r.provider.apps)))
    ensures r.reply.status != 200 ==> r.file == file
    ensures FileProvider.Exists(p, file, now, id).result == Success(true) && io.Saved? ==> r.reply.status == 200
  {
    var present := FileProvider.Exists(p, file, now, id);
    match present.result
    case Failure(_) => Outcome(present.provider, file, Crash)
    case Success(false) => Outcome(present.provider, file, NotFound)
    case Success(true) =>
      RefreshSettles(p, file, now);
      var w := DeleteApp(present.provider, file, now, id, io);
      match w.result
      case Failure(e) =>
        if IsRuntime(e) then Outcome(w.provider, w.file, ErrorReply(404, w.provider, e))
        else Outcome(w.provider, w.file, Crash)
      case Success(_) =>
        assert !HasApp(w.provider.apps, id);
        Outcome(w.provider, w.file, Reply(200, map["message" := Str("Application deleted successfully")]))
  }

  /** The generated values and server settings `store` reads: a fresh id, key and secret, and the
      configured host name and port. */
  datatype Fresh = Fresh(id: string, key: string, secret: string)

  datatype Server = Server(hostname: Value, port: int)

  /** The options a new record starts with before the supplied ones are merged in. */
  function DefaultOptions(server: Server): (r: map<string, Value>)
    ensures r.Keys == {"host", "port", "scheme", "useTLS", "ping_interval", "activity_timeout"}
    ensures r["scheme"] == Str("http") && r["useTLS"] == Bool(false)
    ensures r["ping_interval"] == Int(60) && r["activity_timeout"] == Int(30)
  {
    map["host" := server.hostname, "port" := Int(server.port), "scheme" := Str("http"), "useTLS" := Bool(false),
        "ping_interval" := Int(60), "activity_timeout" := Int(30)]
  }

  /** A new record's options: the defaults, overridden key by key by the supplied ones. Supplied
      options that are not an array make `array_merge` raise, and there is no result. */
  function NewOptions(validated: Record, server: Server): (r: Option<map<string, Value>>)
    ensures r.Some? <==> PhpArray(FieldOr(validated, "options", Object(map[])))
    ensures r.Some? ==>
      var supplied := FieldsOf(FieldOr(validated, "options", Object(map[])));
      && r.value.Keys == DefaultOptions(server).Keys + supplied.Keys
      && (forall o :: o in supplied ==> r.value[o] == supplied[o])
      && (forall o :: o in DefaultOptions(server) && o !in supplied ==> r.value[o] == DefaultOptions(server)[o])
  {
    var supplied := FieldOr(validated, "options", Object(map[]));
    if PhpArray(supplied) then Some(Merge(DefaultOptions(server), FieldsOf(supplied))) else None
  }

  /** The input `store` can build a record from: a name, and options that are absent, null or
      an array. */
  predicate Creatable(validated: Record) {
    "name" in validated && PhpArray(FieldOr(validated, "options", Object(map[])))
  }

  /** The record `store` creates: the shown fields and the secret. A missing `name` has no
      default, and reading it raises an error; so do supplied options that are not an array. */
  function NewApp(validated: Record, made: Fresh, server: Server): (r: Option<Record>)
    ensures r.Some? <==> Creatable(validated)
    ensures r.Some? ==> r.value.Keys == ShownFields + {"secret"}
  {
    if "name" !in validated || NewOptions(validated, server).None? then None
    else Some(map f | f in ShownFields + {"secret"} :: NewField(validated, made, server, f))
  }

  /** A new record's id, key and secret are the supplied ones, or freshly generated; its name is
      the supplied one. */
  lemma NewAppIdentity(validated: Record, made: Fresh, server: Server)
    requires NewApp(validated, made, server).Some?
    ensures var app := NewApp(validated, made, server).value;
      && app["id"] == FieldOr(validated, "id", Str(made.id))
      && app["key"] == FieldOr(validated, "key", Str(made.key))
      && app["secret"] == FieldOr(validated, "secret", Str(made.secret))
      && app["name"] == validated["name"]
  {
  }

  /** A new record's settings are the supplied ones, or the defaults `["*"]`, false, null and
      10000; its options are the default options overridden by the supplied ones. */
  lemma NewAppSettings(validated: Record, made: Fresh, server: Server)
    requires NewApp(validated, made, server).Some?
    ensures var app := NewApp(validated, made, server).value;
      && app["allowed_origins"] == FieldOr(validated, "allowed_origins", List([Str("*")]))
      && app["enable_client_messages"] == FieldOr(validated, "enable_client_messages", Bool(false))
      && app["max_connections"] == FieldOr(validated, "max_connections", Null)
      && app["max_message_size"] == FieldOr(validated, "max_message_size", Int(10000))
      && app["options"] == Object(NewOptions(validated, server).value)
  {
    assert "allowed_origins" in ShownFields && "enable_client_messages" in ShownFields && "options" in ShownFields;
    assert "max_connections" in ShownFields && "max_message_size" in ShownFields;
  }

  function NewField(validated: Record, made: Fresh, server: Server, f: string): Value
    requires "name" in validated && NewOptions(validated, server).Some?
  {
    if f == "id" then FieldOr(validated, "id", Str(made.id))
    else if f == "key" then FieldOr(validated, "key", Str(made.key))
    else if f == "secret" then FieldOr(validated, "secret", Str(made.secret))
    else if f == "name" then validated["name"]
    else if f == "options" then Object(NewOptions(validated, server).value)
    else FieldOr(validated, f, if f in Defaults then Defaults[f] else Null)
  }

  /** A new record is shown with its defaults, and without its secret. */
  lemma NewAppShowsDefaults(validated: Record, made: Fresh, server: Server)
    requires "name" in validated
    requires "allowed_origins" !in validated && "enable_client_messages" !in validated && "options" !in validated
    requires "max_connections" !in validated && "max_message_size" !in validated
    ensures var shown := FormatApp(NewApp(validated, made, server).value);
      && shown.Some? && "secret" !in shown.value
      && shown.value["allowed_origins"] == List([Str("*")])
      && shown.value["enable_client_messages"] == Bool(false)
      && shown.value["max_connections"] == Null
      && shown.value["max_message_size"] == Int(10000)
      && shown.value["options"] == Object(DefaultOptions(server))
  {
    assert FieldOr(validated, "options", Object(map[])) == Object(map[]);
    assert Merge(DefaultOptions(server), map[]) == DefaultOptions(server);
    assert NewOptions(validated, server) == Some(DefaultOptions(server));
    var app := NewApp(validated, made, server).value;
    NewAppSettings(validated, made, server);
    var shown := FormatApp(app).value;
    assert shown["options"] == FieldOr(app, "options", Object(map[]));
  }

  /** `store`: the new record appended to the registry (any failure is an uncaught exception),
      answered with 201 and the formatted record. */
  function Store(p: Provider, file: File, now: int, validated: Record, made: Fresh, server: Server, io: SaveIo): (r: Outcome)
    ensures !Creatable(validated) ==> r == Outcome(p, file, Crash)
    ensures r.reply.status == 201 ==>
      && io.Saved?
      && var app := NewApp(validated, made, server).value;
         && r.provider.apps == Refresh(p, file, now).provider.apps + [app]
         && r.file == Present(io.mtime, Readable(AppsList(r.provider.apps)))
         && "data" in r.reply.body && r.reply.body["data"].Object?
         && FormatApp(app) == Some(r.reply.body["data"].fields)
    ensures r.reply.status != 201 ==> r.reply == Crash
    ensures Creatable(validated) && Refresh(p, file, now).result.Success? && io.Saved? ==> r.reply.status == 201
  {
    match NewApp(validated, made, server)
    case None => Outcome(p, file, Crash)
    case Some(app) =>
      NewAppHasIdentity(validated, made, server);
      StoreRecord(p, file, now, app, io)
  }

  lemma NewAppHasIdentity(validated: Record, made: Fresh, server: Server)
    requires NewApp(validated, made, server).Some?
    ensures "id" in NewApp(validated, made, server).value && "key" in NewApp(validated, made, server).value
  {
    assert "id" in ShownFields && "key" in ShownFields;
  }

  /** The part of `store` after the record is built: append, save, and answer 201. */
  function StoreRecord(p: Provider, file: File, now: int, app: Record, io: SaveIo): (r: Outcome)
    requires "id" in app && "key" in app
    ensures r.reply.status == 201 ==>
      && io.Saved?
      && r.provider.apps == Refresh(p, file, now).provider.apps + [app]
      && r.file == Present(io.mtime, Readable(AppsList(r.provider.apps)))
      && "data" in r.reply.body && r.reply.body["data"].Object?
      && FormatApp(app) == Some(r.reply.body["data"].fields)
      && r.reply.body == map["data" := Object(FormatApp(app).value), "message" := Str("Application created successfully")]
    ensures r.reply.status != 201 ==> r.reply == Crash
    ensures Refresh(p, file, now).result.Success? && io.Saved? ==> r.reply.status == 201
  {
    var w := AddApp(p, file, now, app, io);
    if w.result.Failure? then Outcome(w.provider, w.file, Crash)
    else Outcome(w.provider, w.file, Reply(201, map[
      "data" := Object(FormatApp(app).value),
      "message" := Str("Application created successfully")]))
  }

  /** `reload`: the snapshot is read from the file whatever the cache state; a failed load is an
      uncaught exception and leaves the provider as it was. */
  function ReloadAction(p: Provider, file: File, now: int): (r: Outcome)
    ensures r.file == file
    ensures r.reply.status == 200 <==> Reload(p, file, now).Success?
    ensures r.reply.status == 200 ==> r.provider.apps == file.contents.parsed.apps
    ensures r.reply.status != 200 ==> r == Outcome(p, file, Crash)
  {
    match Reload(p, file, now)
    case Failure(_) => Outcome(p, file, Crash)
    case Success(loaded) => Outcome(loaded, file, Reply(200, map["message" := Str("Configuration reloaded successfully")]))
  }
}

=== FILE: channels.dfy ===
/** Channel classification by name prefix, shared by the metrics listener and the metrics
    endpoint (both carry the same rule), and the per-type tally the endpoint builds from a
    channel list. */
module Channels {
  import opened Text

  datatype ChannelType = Public | Private | Presence | Encrypted

  /** The label value written for each type. */
  function TypeName(t: ChannelType): string {
    match t
    case Public => "public"
    case Private => "private"
    case Presence => "presence"
    case Encrypted => "encrypted"
  }

  /** The four types in the order the endpoint reports them. */
  const Types: seq<ChannelType> := [Public, Private, Presence, Encrypted]

  /** `determineChannelType`: the first matching prefix, checked from the most specific. */
  function Classify(name: string): (r: ChannelType)
    ensures Prefix(r) <= name
  {
    if StartsWith(name, "private-encrypted-") then Encrypted
    else if StartsWith(name, "private-") then Private
    else if StartsWith(name, "presence-") then Presence
    else Public
  }

  /** The name prefix that marks each type; public channels have none. */
  function Prefix(t: ChannelType): string {
    match t
    case Public => ""
    case Private => "private-"
    case Presence => "presence-"
    case Encrypted => "private-encrypted-"
  }

  predicate Marks(name: string, t: ChannelType) {
    StartsWith(name, Prefix(t))
  }

  lemma TypeNamesDiffer(a: ChannelType, b: ChannelType)
    ensures TypeName(a) == TypeName(b) <==> a == b
  {
    if a != b {
      assert TypeName(a)[..2] != TypeName(b)[..2] || |TypeName(a)| != |TypeName(b)|;
    }
  }

  lemma PrefixOfPrefix(s: string, p: string, q: string)
    requires StartsWith(s, p + q)
    ensures StartsWith(s, p)
  {
    assert s[..|p|] == (s[..|p + q|])[..|p|];
  }

  /** A name is classified as the type with the longest prefix it carries, and that type is the
      only one with that property. */
  lemma ClassifyIsLongestMatch(name: string, t: ChannelType)
    ensures Classify(name) == t <==>
      (Marks(name, t) && forall u :: Marks(name, u) ==> |Prefix(u)| <= |Prefix(t)|)
  {
    var c := Classify(name);
    assert StartsWith(name, "");
    if StartsWith(name, "private-encrypted-") {
      PrefixOfPrefix(name, "private-", "encrypted-");
    }
    if StartsWith(name, "private-") {
      assert name[2] == 'i';
      assert !StartsWith(name, "presence-");
    }
    assert Marks(name, c);
    forall u | Marks(name, u)
      ensures |Prefix(u)| <= |Prefix(c)|
    {
    }
    if Marks(name, t) && forall u :: Marks(name, u) ==> |Prefix(u)| <= |Prefix(t)| {
      assert |Prefix(c)| <= |Prefix(t)|;
    }
  }

  /** How many channels of each type a channel list holds. */
  datatype Tally = Tally(publicCount: nat, privateCount: nat, presenceCount: nat, encryptedCount: nat) {
    function Get(t: ChannelType): nat {
      match t
      case Public => publicCount
      case Private => privateCount
      case Presence => presenceCount
      case Encrypted => encryptedCount
    }

    function Total(): nat {
      publicCount + privateCount + presenceCount + encryptedCount
    }

    function Bump(t: ChannelType): (r: Tally)
      ensures r.Get(t) == Get(t) + 1
      ensures forall u :: u != t ==> r.Get(u) == Get(u)
      ensures r.Total() == Total() + 1
    {
      match t
      case Public => this.(publicCount := publicCount + 1)
      case Private => this.(privateCount := privateCount + 1)
      case Presence => this.(presenceCount := presenceCount + 1)
      case Encrypted => this.(encryptedCount := encryptedCount + 1)
    }
  }

  const NoChannels := Tally(0, 0, 0, 0)

  /** The loop over the channel list, one increment per channel in list order. */
  function TallyOf(names: seq<string>): Tally {
    if |names| == 0 then NoChannels
    else TallyOf(names[..|names| - 1]).Bump(Classify(names[|names| - 1]))
  }

  /** The type of every channel, position by position. */
  function Classified(names: seq<string>): (r: seq<ChannelType>)
    ensures |r| == |names| && forall i :: 0 <= i < |names| ==> r[i] == Classify(names[i])
  {
    seq(|names|, i requires 0 <= i < |names| => Classify(names[i]))
  }

  /** Each bucket counts exactly the channels classified into it. */
  lemma {:induction false} TallyCountsEachType(names: seq<string>, t: ChannelType)
    ensures TallyOf(names).Get(t) == multiset(Classified(names))[t]
  {
    if |names| > 0 {
      var init := names[..|names| - 1];
      TallyCountsEachType(init, t);
      assert Classified(names) == Classified(init) + [Classify(names[|names| - 1])];
    }
  }

  /** The four buckets together count every channel once. */
  lemma {:induction false} TallyCountsAll(names: seq<string>)
    ensures TallyOf(names).Total() == |names|
  {
    if |names| > 0 {
      TallyCountsAll(names[..|names| - 1]);
    }
  }
}

=== FILE: collector.dfy ===
/** Translation of WebSocket lifecycle events into metrics-store updates. Each recorder is a
    transition on the in-memory store. */
module Collector {
  import opened Wrappers
  import opened Labels
  import opened Samples
  import opened MemoryStore

  const ConnectionsCreated := "reverb_connections_created_total"
  const ConnectionsClosed := "reverb_connections_closed_total"
  const ConnectionsTotal := "reverb_connections_total"
  const MessagesReceived := "reverb_messages_received_total"
  const MessagesSent := "reverb_messages_sent_total"
  const ChannelsActive := "reverb_channels_active"
  const Subscriptions := "reverb_subscriptions_total"
  const ServerInfo := "reverb_server_info"

  /** The counter names this recorder writes. */
  const CounterNames: set<string> :=
    {ConnectionsCreated, ConnectionsClosed, MessagesReceived, MessagesSent, Subscriptions}

  function AppLabels(appId: string): LabelSet {
    [("app_id", appId)]
  }

  function ClosedLabels(appId: string, reason: string): LabelSet {
    [("app_id", appId), ("reason", reason)]
  }

  function ChannelTypeLabels(appId: string, channelType: string): LabelSet {
    [("app_id", appId), ("channel_type", channelType)]
  }

  function ChannelLabels(appId: string, channelType: string): LabelSet {
    [("app_id", appId), ("type", channelType)]
  }

  /** One default increment of one counter; every gauge and every other counter is unchanged. */
  ghost predicate CountedOnce(st: Store, r: Store, name: string, labels: LabelSet) {
    var k := IdentityKey(name, labels);
    && r.gauges == st.gauges
    && ValueAt(r.counters, k) == ValueAt(st.counters, k) + 1
    && SameExcept(r.counters, st.counters, k)
  }

  function ConnectionOpened(st: Store, appId: string): (r: Store)
    ensures var c := IdentityKey(ConnectionsCreated, AppLabels(appId));
      var g := IdentityKey(ConnectionsTotal, AppLabels(appId));
      && ValueAt(r.counters, c) == ValueAt(st.counters, c) + 1
      && SameExcept(r.counters, st.counters, c)
      && ValueAt(r.gauges, g) == ValueAt(st.gauges, g) + 1
      && SameExcept(r.gauges, st.gauges, g)
  {
    var s := Increment(st, ConnectionsCreated, AppLabels(appId));
    IncrementGauge(s, ConnectionsTotal, AppLabels(appId))
  }

  function ConnectionClosed(st: Store, appId: string, reason: string := "normal"): (r: Store)
    ensures var c := IdentityKey(ConnectionsClosed, ClosedLabels(appId, reason));
      var g := IdentityKey(ConnectionsTotal, AppLabels(appId));
      && ValueAt(r.counters, c) == ValueAt(st.counters, c) + 1
      && SameExcept(r.counters, st.counters, c)
      && ValueAt(r.gauges, g) == (if ValueAt(st.gauges, g) >= 1 then ValueAt(st.gauges, g) - 1 else 0)
      && SameExcept(r.gauges, st.gauges, g)
  {
    var s := Increment(st, ConnectionsClosed, ClosedLabels(appId, reason));
    DecrementGauge(s, ConnectionsTotal, AppLabels(appId))
  }

  function MessageReceived(st: Store, appId: string, channelType: string := "public"): (r: Store)
    ensures CountedOnce(st, r, MessagesReceived, ChannelTypeLabels(appId, channelType))
  {
    Increment(st, MessagesReceived, ChannelTypeLabels(appId, channelType))
  }

  function MessageSent(st: Store, appId: string, channelType: string := "public"): (r: Store)
    ensures CountedOnce(st, r, MessagesSent, ChannelTypeLabels(appId, channelType))
  {
    Increment(st, MessagesSent, ChannelTypeLabels(appId, channelType))
  }

  function ChannelCreated(st: Store, appId: string, channelType: string := "public"): (r: Store)
    ensures r.counters == st.counters
    ensures var g := IdentityKey(ChannelsActive, ChannelLabels(appId, channelType));
      && ValueAt(r.gauges, g) == ValueAt(st.gauges, g) + 1
      && SameExcept(r.gauges, st.gauges, g)
  {
    IncrementGauge(st, ChannelsActive, ChannelLabels(appId, channelType))
  }

  function ChannelRemoved(st: Store, appId: string, channelType: string := "public"): (r: Store)
    ensures r.counters == st.counters
    ensures var g := IdentityKey(ChannelsActive, ChannelLabels(appId, channelType));
      && ValueAt(r.gauges, g) == (if ValueAt(st.gauges, g) >= 1 then ValueAt(st.gauges, g) - 1 else 0)
      && SameExcept(r.gauges, st.gauges, g)
  {
    DecrementGauge(st, ChannelsActive, ChannelLabels(appId, channelType))
  }

  function SubscriptionCreated(st: Store, appId: string, channelType: string := "public"): (r: Store)
    ensures CountedOnce(st, r, Subscriptions, ChannelTypeLabels(appId, channelType))
  {
    Increment(st, Subscriptions, ChannelTypeLabels(appId, channelType))
  }

  function SetServerInfo(st: Store, instance: string, version: string): (r: Store)
    ensures r.counters == st.counters
    ensures var labels: LabelSet := [("instance", instance), ("version", version)];
      var g := IdentityKey(ServerInfo, labels);
      && Lookup(r.gauges, g) == Some(Sample(ServerInfo, labels, 1))
      && SameExcept(r.gauges, st.gauges, g)
  {
    Gauge(st, ServerInfo, 1, [("instance", instance), ("version", version)])
  }

  /** An opened connection that is closed again leaves the app's connection gauge where it was. */
  lemma OpenThenCloseRestores(st: Store, appId: string, reason: string)
    requires ValueAt(st.gauges, IdentityKey(ConnectionsTotal, AppLabels(appId))) >= 0
    ensures var g := IdentityKey(ConnectionsTotal, AppLabels(appId));
      ValueAt(ConnectionClosed(ConnectionOpened(st, appId), appId, reason).gauges, g)
        == ValueAt(st.gauges, g)
  {
  }
}

=== FILE: exporter.dfy ===
/** The Prometheus text exposition (format version 0.0.4) of a store snapshot.

    Export is a pure function of the counters and gauges as the store enumerates them. Its
    structure is first built as a sequence of lines (a HELP/TYPE header or one sample) and
    then rendered to text. */
module Exporter {
  import opened Wrappers
  import opened Text
  import opened Labels
  import opened Samples
  import MemoryStore
  import Collector

  /** The whole output when nothing was collected. */
  const NoMetrics := "# No metrics collected yet\n"

  datatype Definition = Definition(kind: string, help: string)

  /** The fixed name -> (type, help) registry. It lists gauges only. */
  const Registry: map<string, Definition> := map[
    "reverb_up" := Definition("gauge", "Whether Reverb server is reachable (1 = up, 0 = down)"),
    "reverb_connections_total" := Definition("gauge", "Current number of active WebSocket connections per app"),
    "reverb_connections_current" := Definition("gauge", "Total current WebSocket connections across all apps"),
    "reverb_channels_active" := Definition("gauge", "Current number of active channels by type"),
    "reverb_channels_current" := Definition("gauge", "Total current active channels across all apps"),
    "reverb_server_info" := Definition("gauge", "Reverb server information"),
    "reverb_apps_configured" := Definition("gauge", "Number of configured WebSocket applications")
  ]

  const Unregistered := Definition("untyped", "No description available")

  function DefinitionOf(name: string): (d: Definition)
    ensures name !in Registry ==> d == Unregistered
    ensures name in Registry ==> d.kind == "gauge"
  {
    if name in Registry then Registry[name] else Unregistered
  }

  /** Every counter the collector records falls back to `untyped`: the registry has no
      counter entries. */
  lemma CollectorCountersAreUntyped(name: string)
    requires name in Collector.CounterNames
    ensures DefinitionOf(name) == Unregistered
  {
  }

  // ---------------------------------------------------------------------------------------
  // Label escaping

  /** PHP `str_replace` of one character by a replacement string, everywhere in `s`. */
  function ReplaceChar(s: string, c: char, rep: string): string {
    if |s| == 0 then "" else (if s[0] == c then rep else [s[0]]) + ReplaceChar(s[1..], c, rep)
  }

  /** str_replace with arrays: the three replacements run one after another. */
  function Passes(v: string): string {
    ReplaceChar(ReplaceChar(ReplaceChar(v, '\\', "\\\\"), '"', "\\\""), '\n', "\\n")
  }

  /** `escapeLabel`: the backslash, the double quote and the newline each become a two-character
      escape, and every other character is kept. */
  function EscapeLabel(v: string): (r: string)
    ensures r == EscapeEach(v)
  {
    EscapeIsPerCharacter(v);
    Passes(v)
  }

  /** The escape of one character. */
  function EscapeChar(c: char): string {
    if c == '\\' then "\\\\"
    else if c == '"' then "\\\""
    else if c == '\n' then "\\n"
    else [c]
  }

  function EscapeEach(s: string): string {
    if |s| == 0 then "" else EscapeChar(s[0]) + EscapeEach(s[1..])
  }

  /** Reads an escaped label value back. */
  function Unescape(s: string): string {
    if |s| == 0 then ""
    else if s[0] == '\\' && |s| >= 2 then (if s[1] == 'n' then "\n" else [s[1]]) + Unescape(s[2..])
    else [s[0]] + Unescape(s[1..])
  }

  lemma {:induction false} ReplaceAppend(a: string, b: string, c: char, rep: string)
    ensures ReplaceChar(a + b, c, rep) == ReplaceChar(a, c, rep) + ReplaceChar(b, c, rep)
  {
    if |a| > 0 {
      assert (a + b)[1..] == a[1..] + b;
      ReplaceAppend(a[1..], b, c, rep);
    } else {
      assert a + b == b;
    }
  }

  /** The three sequential passes act character by character: a backslash introduced by an
      earlier pass is never rewritten by a later one. */
  lemma {:induction false} EscapeIsPerCharacter(v: string)
    ensures Passes(v) == EscapeEach(v)
  {
    if |v| > 0 {
      var c := v[0];
      var t := v[1..];
      assert v == [c] + t;
      ReplaceAppend([c], t, '\\', "\\\\");
      var r1 := ReplaceChar([c], '\\', "\\\\");
      ReplaceAppend(r1, ReplaceChar(t, '\\', "\\\\"), '"', "\\\"");
      var r2 := ReplaceChar(r1, '"', "\\\"");
      ReplaceAppend(r2, ReplaceChar(ReplaceChar(t, '\\', "\\\\"), '"', "\\\""), '\n', "\\n");
      EscapeIsPerCharacter(t);
      assert ReplaceChar(r2, '\n', "\\n") == EscapeChar(c);
    }
  }

  lemma {:induction false} UnescapeEach(s: string)
    ensures Unescape(EscapeEach(s)) == s
  {
    if |s| > 0 {
      var c := s[0];
      var rest := EscapeEach(s[1..]);
      UnescapeEach(s[1..]);
      var e := EscapeChar(c) + rest;
      if c == '\\' || c == '"' || c == '\n' {
        assert e[0] == '\\' && e[2..] == rest;
      } else {
        assert e[1..] == rest;
      }
      assert s == [c] + s[1..];
    }
  }

  lemma {:induction false} EscapeEachHasNoNewline(s: string)
    ensures forall i :: 0 <= i < |EscapeEach(s)| ==> EscapeEach(s)[i] != '\n'
  {
    if |s| > 0 {
      EscapeEachHasNoNewline(s[1..]);
    }
  }

  /** Escaping is undone by reading back, and leaves no raw newline in the value. */
  lemma EscapeLabelRoundTrip(v: string)
    ensures Unescape(EscapeLabel(v)) == v
    ensures forall i :: 0 <= i < |EscapeLabel(v)| ==> EscapeLabel(v)[i] != '\n'
  {
    UnescapeEach(v);
    EscapeEachHasNoNewline(v);
  }

  // ---------------------------------------------------------------------------------------
  // Lines

  /** The integer branch of `formatValue`: plain decimal text, which reads back as the value. */
  function FormatValue(v: int): (r: string)
    ensures |r| > 0
    ensures ParseInt(r) == Some(v)
  {
    IntRoundTrip(v);
    IntToString(v)
  }

  /** One `key="value"` part: the key, then the escaped value in double quotes, which reads back
      as the label's value. */
  function FormatLabel(l: Label): (r: string)
    ensures |r| >= |l.0| + 3
    ensures r[..|l.0|] == l.0 && r[|l.0|] == '=' && r[|l.0| + 1] == '"' && r[|r| - 1] == '"'
    ensures Unescape(r[|l.0| + 2..|r| - 1]) == l.1
  {
    var e := EscapeLabel(l.1);
    UnescapeEach(l.1);
    var r := l.0 + "=\"" + e + "\"";
    assert r[|l.0| + 2..|r| - 1] == e;
    r
  }

  /** One sample line: `name value` without labels, else `name{k="v",...} value` with the labels
      in stored order. The text after the last space reads back as the value. */
  function FormatMetricLine(name: string, value: int, labels: LabelSet): (r: string)
    ensures var tail := FormatValue(value);
      && |r| > |name| + |tail|
      && r[..|name|] == name
      && r[|r| - |tail|..] == tail
      && r[|r| - |tail| - 1] == ' '
    ensures |labels| == 0 ==> |r| == |name| + 1 + |FormatValue(value)|
    ensures |labels| > 0 ==>
      && r[|name|] == '{' && r[|r| - |FormatValue(value)| - 2] == '}'
      && r[|name| + 1..|r| - |FormatValue(value)| - 2] == Join(",", LabelParts(labels))
  {
    var tail := FormatValue(value);
    if |labels| == 0 then
      name + " " + tail
    else
      var block := Join(",", LabelParts(labels));
      var r := name + "{" + block + "} " + tail;
      assert r[|r| - |tail| - 2] == '}';
      assert r[|name| + 1..|r| - |tail| - 2] == block;
      r
  }

  /** The `k="v"` parts of a label set, one per label in stored order. */
  function LabelParts(labels: LabelSet): (parts: seq<string>)
    ensures |parts| == |labels|
    ensures forall i :: 0 <= i < |labels| ==> parts[i] == FormatLabel(labels[i])
  {
    seq(|labels|, i requires 0 <= i < |labels| => FormatLabel(labels[i]))
  }

  /** The two annotation lines of a metric name: `# HELP name help`, a newline, then
      `# TYPE name kind`, with the registry's entry or the `untyped` fallback. */
  function FormatMetricHeader(name: string): (r: string)
    ensures var help := "# HELP " + name + " " + DefinitionOf(name).help;
      && |r| > |help|
      && r[..|help|] == help
      && r[|help|] == '\n'
      && r[|help| + 1..] == "# TYPE " + name + " " + DefinitionOf(name).kind
  {
    var d := DefinitionOf(name);
    var help := "# HELP " + name + " " + d.help;
    var kind := "# TYPE " + name + " " + d.kind;
    Split(help, "\n" + kind);
    assert ("\n" + kind)[1..] == kind;
    help + ("\n" + kind)
  }

  /** A concatenation splits back into its parts. */
  lemma Split(a: string, b: string)
    ensures (a + b)[..|a|] == a && (a + b)[|a|..] == b
  {
  }

  datatype Line = Header(name: string) | Value(sample: Sample)

  /** A line of output: a header renders as its two annotation lines, a sample as its value
      line. */
  function Render(l: Line): (r: string)
    ensures l.Header? ==> StartsWith(r, "# HELP " + l.name + " ")
    ensures l.Value? ==> StartsWith(r, l.sample.name) && |r| > |l.sample.name|
  {
    match l
    case Header(n) => FormatMetricHeader(n)
    case Value(s) => FormatMetricLine(s.name, s.value, s.labels)
  }

  function ValuesOf(lines: seq<Line>): seq<Sample> {
    if |lines| == 0 then []
    else (if lines[0].Value? then [lines[0].sample] else []) + ValuesOf(lines[1..])
  }

  function HeaderNames(lines: seq<Line>): seq<string> {
    if |lines| == 0 then []
    else (if lines[0].Header? then [lines[0].name] else []) + HeaderNames(lines[1..])
  }

  function HeaderSet(lines: seq<Line>): set<string> {
    set n | n in HeaderNames(lines)
  }

  function NamesOf(samples: seq<Sample>): set<string> {
    set i | 0 <= i < |samples| :: samples[i].name
  }

  /** One pass of `export` over a snapshot, sharing the set of names already announced. */
  function Pass(samples: seq<Sample>, seen: set<string>): (seq<Line>, set<string>) {
    if |samples| == 0 then ([], seen)
    else
      var s := samples[0];
      var head := if s.name in seen then [Value(s)] else [Header(s.name), Value(s)];
      var rest := Pass(samples[1..], seen + {s.name});
      (head + rest.0, rest.1)
  }

  lemma {:induction false} ValuesOfAppend(a: seq<Line>, b: seq<Line>)
    ensures ValuesOf(a + b) == ValuesOf(a) + ValuesOf(b)
  {
    if |a| > 0 {
      assert (a + b)[1..] == a[1..] + b;
      ValuesOfAppend(a[1..], b);
    } else {
      assert a + b == b;
    }
  }

  lemma {:induction false} HeaderNamesAppend(a: seq<Line>, b: seq<Line>)
    ensures HeaderNames(a + b) == HeaderNames(a) + HeaderNames(b)
  {
    if |a| > 0 {
      assert (a + b)[1..] == a[1..] + b;
      HeaderNamesAppend(a[1..], b);
    } else {
      assert a + b == b;
    }
  }

  /** Running the gauge pass with the seen-set left by the counter pass is one pass over the
      concatenated snapshots. */
  lemma {:induction false} PassAppend(a: seq<Sample>, b: seq<Sample>, seen: set<string>)
    ensures var first := Pass(a, seen);
      Pass(a + b, seen) == (first.0 + Pass(b, first.1).0, Pass(b, first.1).1)
  {
    if |a| == 0 {
      assert a + b == b;
      assert Pass(a, seen) == ([], seen);
      assert [] + Pass(b, seen).0 == Pass(b, seen).0;
    } else {
      assert (a + b)[0] == a[0];
      assert (a + b)[1..] == a[1..] + b;
      PassUnfold(a, seen);
      PassUnfold(a + b, seen);
      PassAppend(a[1..], b, seen + {a[0].name});
      var s := a[0];
      var head := if s.name in seen then [Value(s)] else [Header(s.name), Value(s)];
      var x := Pass(a[1..], seen + {s.name});
      var y := Pass(b, x.1);
      assert head + (x.0 + y.0) == (head + x.0) + y.0;
    }
  }

  lemma NamesOfCons(samples: seq<Sample>)
    requires |samples| > 0
    ensures NamesOf(samples) == {samples[0].name} + NamesOf(samples[1..])
  {
    var tail := samples[1..];
    forall n | n in NamesOf(samples) ensures n in {samples[0].name} + NamesOf(tail) {
      var i :| 0 <= i < |samples| && samples[i].name == n;
      if i > 0 { assert tail[i - 1].name == n; }
    }
    forall n | n in NamesOf(tail) ensures n in NamesOf(samples) {
      var i :| 0 <= i < |tail| && tail[i].name == n;
      assert samples[i + 1].name == n;
    }
  }

  /** The lines a pass emits for its first sample, and the rest. */
  lemma PassUnfold(samples: seq<Sample>, seen: set<string>)
    requires |samples| > 0
    ensures var s := samples[0];
      var head := if s.name in seen then [Value(s)] else [Header(s.name), Value(s)];
      var rest := Pass(samples[1..], seen + {s.name});
      Pass(samples, seen) == (head + rest.0, rest.1)
  {
  }

  /** A pass emits every sample once, in order, and leaves every name seen. */
  lemma {:induction false} PassValues(samples: seq<Sample>, seen: set<string>)
    ensures ValuesOf(Pass(samples, seen).0) == samples
    ensures Pass(samples, seen).1 == seen + NamesOf(samples)
  {
    if |samples| > 0 {
      var s := samples[0];
      var head := if s.name in seen then [Value(s)] else [Header(s.name), Value(s)];
      var rest := Pass(samples[1..], seen + {s.name});
      PassUnfold(samples, seen);
      PassValues(samples[1..], seen + {s.name});
      ValuesOfAppend(head, rest.0);
      assert ValuesOf(head) == [s];
      assert samples == [s] + samples[1..];
      NamesOfCons(samples);
    }
  }

  /** A pass announces each name not yet seen exactly once. */
  lemma {:induction false} PassHeaders(samples: seq<Sample>, seen: set<string>)
    ensures Distinct(HeaderNames(Pass(samples, seen).0))
    ensures HeaderSet(Pass(samples, seen).0) == NamesOf(samples) - seen
  {
    if |samples| > 0 {
      var s := samples[0];
      var head := if s.name in seen then [Value(s)] else [Header(s.name), Value(s)];
      var rest := Pass(samples[1..], seen + {s.name});
      PassUnfold(samples, seen);
      PassHeaders(samples[1..], seen + {s.name});
      HeaderNamesAppend(head, rest.0);
      var hn := HeaderNames(head);
      var rn := HeaderNames(rest.0);
      assert hn == if s.name in seen then [] else [s.name];
      assert s.name !in HeaderSet(rest.0);
      assert HeaderSet(head + rest.0) == (set n | n in hn) + HeaderSet(rest.0);
      NamesOfCons(samples);
      if s.name !in seen {
        forall i, j | 0 <= i < j < |hn + rn| ensures (hn + rn)[i] != (hn + rn)[j] {
          if i == 0 {
            assert (hn + rn)[j] == rn[j - 1];
            assert rn[j - 1] in HeaderSet(rest.0);
          }
        }
      } else {
        assert hn + rn == rn;
      }
    }
  }

  /** Each header is directly followed by a sample of that name. */
  lemma {:induction false} PassHeaderFollowed(samples: seq<Sample>, seen: set<string>)
    ensures var lines := Pass(samples, seen).0;
      forall i :: 0 <= i < |lines| && lines[i].Header? ==>
        i + 1 < |lines| && lines[i + 1].Value? && lines[i + 1].sample.name == lines[i].name
  {
    if |samples| > 0 {
      var s := samples[0];
      var head := if s.name in seen then [Value(s)] else [Header(s.name), Value(s)];
      var rest := Pass(samples[1..], seen + {s.name}).0;
      PassUnfold(samples, seen);
      PassHeaderFollowed(samples[1..], seen + {s.name});
      var lines := head + rest;
      forall i | 0 <= i < |lines| && lines[i].Header?
        ensures i + 1 < |lines| && lines[i + 1].Value? && lines[i + 1].sample.name == lines[i].name
      {
        if i >= |head| {
          assert lines[i] == rest[i - |head|];
          assert lines[i + 1] == rest[i + 1 - |head|];
        }
      }
    }
  }

  /** No sample line comes before its name was announced (in this pass or earlier). */
  lemma {:induction false} PassAnnouncedFirst(samples: seq<Sample>, seen: set<string>)
    ensures var lines := Pass(samples, seen).0;
      forall i :: 0 <= i < |lines| && lines[i].Value? ==>
        lines[i].sample.name in seen + HeaderSet(lines[..i])
  {
    if |samples| > 0 {
      var s := samples[0];
      var head := if s.name in seen then [Value(s)] else [Header(s.name), Value(s)];
      var rest := Pass(samples[1..], seen + {s.name}).0;
      PassUnfold(samples, seen);
      PassAnnouncedFirst(samples[1..], seen + {s.name});
      var lines := head + rest;
      forall i | 0 <= i < |lines| && lines[i].Value?
        ensures lines[i].sample.name in seen + HeaderSet(lines[..i])
      {
        if i >= |head| {
          var j := i - |head|;
          assert lines[..i] == head + rest[..j];
          HeaderNamesAppend(head, rest[..j]);
          assert lines[i] == rest[j];
          if s.name !in seen {
            assert HeaderNames(head) == [s.name];
          }
        } else if s.name !in seen {
          assert lines[..i] == [Header(s.name)];
          assert HeaderNames(lines[..i]) == [s.name];
        }
      }
    }
  }

  /** The lines of an export: the counter pass then the gauge pass, one shared seen-set. */
  function Lines(counters: seq<Sample>, gauges: seq<Sample>): (lines: seq<Line>)
    ensures ValuesOf(lines) == counters + gauges
    ensures Distinct(HeaderNames(lines))
    ensures HeaderSet(lines) == NamesOf(counters + gauges)
    ensures forall i :: 0 <= i < |lines| && lines[i].Value? ==>
      lines[i].sample.name in HeaderSet(lines[..i])
    ensures forall i :: 0 <= i < |lines| && lines[i].Header? ==>
      i + 1 < |lines| && lines[i + 1].Value? && lines[i + 1].sample.name == lines[i].name
  {
    var first := Pass(counters, {});
    var second := Pass(gauges, first.1);
    PassAppend(counters, gauges, {});
    PassValues(counters + gauges, {});
    PassHeaders(counters + gauges, {});
    PassHeaderFollowed(counters + gauges, {});
    PassAnnouncedFirst(counters + gauges, {});
    first.0 + second.0
  }

  /** PHP `array_filter` without a callback: drops the falsy strings `""` and `"0"`. */
  function KeepTruthy(parts: seq<string>): seq<string> {
    if |parts| == 0 then []
    else (if Falsy(parts[0]) then [] else [parts[0]]) + KeepTruthy(parts[1..])
  }

  lemma {:induction false} KeepTruthyKeepsAll(parts: seq<string>)
    requires forall i :: 0 <= i < |parts| ==> !Falsy(parts[i])
    ensures KeepTruthy(parts) == parts
  {
    if |parts| > 0 {
      KeepTruthyKeepsAll(parts[1..]);
      assert parts == [parts[0]] + parts[1..];
    }
  }

  /** No rendered line is falsy: headers start with `#`, sample lines contain a space. */
  lemma RenderedLineIsTruthy(l: Line)
    ensures !Falsy(Render(l))
  {
    var r := Render(l);
    match l
    case Header(n) =>
      assert r[0] == '#';
    case Value(s) =>
      if |s.labels| == 0 {
        assert r[|s.name|] == ' ';
      } else {
        assert r[|s.name|] == '{';
      }
  }

  function Rendered(lines: seq<Line>): (r: seq<string>)
    ensures |r| == |lines|
    ensures forall i :: 0 <= i < |r| ==> !Falsy(r[i])
  {
    var r := seq(|lines|, i requires 0 <= i < |lines| => Render(lines[i]));
    assert forall i :: 0 <= i < |r| ==> !Falsy(r[i]) by {
      forall i | 0 <= i < |r| ensures !Falsy(r[i]) {
        RenderedLineIsTruthy(lines[i]);
      }
    }
    r
  }

  lemma OutputStartsWithHelp(lines: seq<Line>)
    requires |lines| > 0
    requires forall i :: 0 <= i < |lines| && lines[i].Value? ==>
      lines[i].sample.name in HeaderSet(lines[..i])
    ensures StartsWith(Join("\n", Rendered(lines)) + "\n", "# HELP ")
  {
    assert lines[0].Header?;
    var parts := Rendered(lines);
    JoinStartsWithFirst("\n", parts);
    var j := Join("\n", parts);
    assert parts[0][..7] == "# HELP ";
    assert j[..7] == parts[0][..7];
    assert (j + "\n")[..7] == j[..7];
  }

  /** The text of non-empty lines in which every sample follows its header: every rendered line
      survives the falsy filter, and the text opens with a HELP line, so it is never the
      no-metrics comment. */
  lemma TextOfLines(lines: seq<Line>)
    requires |lines| > 0
    requires forall i :: 0 <= i < |lines| && lines[i].Value? ==>
      lines[i].sample.name in HeaderSet(lines[..i])
    ensures var out := Join("\n", KeepTruthy(Rendered(lines))) + "\n";
      && out == Join("\n", Rendered(lines)) + "\n"
      && StartsWith(out, "# HELP ")
      && out != NoMetrics
  {
    KeepTruthyKeepsAll(Rendered(lines));
    OutputStartsWithHelp(lines);
    var out := Join("\n", Rendered(lines)) + "\n";
    assert out[2] == "# HELP "[2];
  }

  lemma RenderedText(counters: seq<Sample>, gauges: seq<Sample>)
    requires |counters| + |gauges| > 0
    ensures var lines := Lines(counters, gauges);
      var out := Join("\n", KeepTruthy(Rendered(lines))) + "\n";
      && out == Join("\n", Rendered(lines)) + "\n"
      && StartsWith(out, "# HELP ")
      && out != NoMetrics
  {
    var lines := Lines(counters, gauges);
    TextOfLines(lines);
  }

  /** `export`: the fixed comment when nothing is stored; otherwise the rendered lines joined by
      newlines with one trailing newline, starting with the first metric's HELP line. */
  function Export(counters: seq<Sample>, gauges: seq<Sample>): (out: string)
    ensures |counters| + |gauges| == 0 <==> out == NoMetrics
    ensures |counters| + |gauges| > 0 ==>
      out == Join("\n", Rendered(Lines(counters, gauges))) + "\n" && StartsWith(out, "# HELP ")
    ensures |out| > 0 && out[|out| - 1] == '\n'
  {
    var lines := Lines(counters, gauges);
    if |counters| + |gauges| == 0 then
      NoMetrics
    else
      RenderedText(counters, gauges);
      Join("\n", KeepTruthy(Rendered(lines))) + "\n"
  }

  /** The exposition of an in-memory store: counters first, then gauges, each in store order. */
  function ExportStore(st: MemoryStore.Store): (out: string)
    ensures |st.counters.entries| + |st.gauges.entries| == 0 <==> out == NoMetrics
    ensures |st.counters.entries| + |st.gauges.entries| > 0 ==>
      && out == Join("\n", Rendered(Lines(MemoryStore.GetCounters(st), MemoryStore.GetGauges(st)))) + "\n"
      && StartsWith(out, "# HELP ")
    ensures |out| > 0 && out[|out| - 1] == '\n'
  {
    Export(MemoryStore.GetCounters(st), MemoryStore.GetGauges(st))
  }
}

=== FILE: file_provider.dfy ===
/** The file-backed application registry: a snapshot of the records in a JSON file, refreshed at
    most once per TTL window, and written back through a temporary file and a rename.

    The file system is a value: the file is missing, or present with a modification time and
    contents that are unreadable or decode to something. The clock is the `now` argument of
    every operation, and the outcome of each step of a save is an argument too. */
module FileProvider {
  import opened Wrappers
  import opened Json

  /** What `json_decode` of the file makes of it. `AppsList` is an `apps` member that is an
      array; `NoAppsList` is valid JSON without one. */
  datatype Parsed = Malformed | NoAppsList | AppsList(apps: seq<Record>)

  datatype Contents = Unreadable | Readable(parsed: Parsed)

  datatype File = Missing | Present(mtime: int, contents: Contents)

  datatype Provider = Provider(path: string, apps: seq<Record>, lastModified: int, lastChecked: int, ttl: int)

  datatype Error =
    | FileNotFound
    | FileUnreadable
    | InvalidConfig
    | MalformedJson
    | InvalidApplication
    | AppNotFound(id: string)
    | EncodeFailed
    | WriteFailed
    | RenameFailed
    | ArgumentType

  /** Which failures are `RuntimeException`s: the JSON decoder's exception, the lookup failure
      and the `TypeError` of an argument PHP cannot convert to the declared type are not. */
  predicate IsRuntime(e: Error) {
    !(e.MalformedJson? || e.InvalidApplication? || e.ArgumentType?)
  }

  /** The message a runtime failure carries. */
  function Message(p: Provider, e: Error): string
    requires IsRuntime(e)
  {
    match e
    case FileNotFound => "Reverb apps configuration file not found: " + p.path
    case FileUnreadable => "Unable to read Reverb apps configuration file: " + p.path
    case InvalidConfig => "Invalid Reverb apps configuration: 'apps' key must be an array"
    case AppNotFound(id) => "Application not found: " + id
    case EncodeFailed => "Unable to encode apps configuration to JSON"
    case WriteFailed => "Unable to write to temporary file: " + p.path + ".tmp"
    case RenameFailed => "Unable to save apps configuration to: " + p.path
  }

  /** A provider state together with what an operation returned or threw. */
  datatype Answer<T> = Answer(provider: Provider, result: Result<T, Error>)

  /** The same, for operations that may rewrite the file. */
  datatype Written = Written(provider: Provider, file: File, result: Result<(), Error>)

  /** `loadApps`: the snapshot and both timestamps are replaced only when the file exists, can
      be read, decodes, and holds an `apps` array. */
  function Load(p: Provider, file: File, now: int): (r: Result<Provider, Error>)
    ensures file.Missing? <==> r == Failure(FileNotFound)
    ensures file.Present? && file.contents.Unreadable? <==> r == Failure(FileUnreadable)
    ensures file.Present? && file.contents == Readable(Malformed) <==> r == Failure(MalformedJson)
    ensures file.Present? && file.contents == Readable(NoAppsList) <==> r == Failure(InvalidConfig)
    ensures r.Success? <==> file.Present? && file.contents.Readable? && file.contents.parsed.AppsList?
    ensures r.Success? ==> r.value == p.(apps := file.contents.parsed.apps, lastModified := file.mtime, lastChecked := now)
  {
    match file
    case Missing => Failure(FileNotFound)
    case Present(mtime, Unreadable) => Failure(FileUnreadable)
    case Present(mtime, Readable(Malformed)) => Failure(MalformedJson)
    case Present(mtime, Readable(NoAppsList)) => Failure(InvalidConfig)
    case Present(mtime, Readable(AppsList(apps))) => Success(p.(apps := apps, lastModified := mtime, lastChecked := now))
  }

  /** The constructor: an empty snapshot, both timestamps at 0, then a load that must succeed. */
  function Construct(path: string, ttl: int, file: File, now: int): (r: Result<Provider, Error>)
    ensures r.Success? ==> r.value.path == path && r.value.ttl == ttl && r.value.lastChecked == now
    ensures r.Success? <==> Load(Provider(path, [], 0, 0, ttl), file, now).Success?
  {
    Load(Provider(path, [], 0, 0, ttl), file, now)
  }

  /** `refreshIfNeeded`. Inside the TTL window nothing happens. Otherwise the check time
      advances to `now` (even when the reload then fails), and the file is reloaded only when it
      exists with a modification time newer than the snapshot's. */
  function Refresh(p: Provider, file: File, now: int): (r: Answer<()>)
    ensures now - p.lastChecked < p.ttl ==> r == Answer(p, Success(()))
    ensures now - p.lastChecked >= p.ttl ==> r.provider.lastChecked == now
    ensures r.provider.path == p.path && r.provider.ttl == p.ttl
    ensures r.result.Failure? ==> r.provider == p.(lastChecked := now) && file.Present? && file.mtime > p.lastModified
    ensures r.provider.apps != p.apps ==>
      now - p.lastChecked >= p.ttl && file.Present? && file.mtime > p.lastModified &&
      Load(p, file, now) == Success(r.provider)
    ensures (file.Missing? || file.mtime <= p.lastModified) ==> r.provider.apps == p.apps && r.result.Success?
    ensures now - p.lastChecked >= p.ttl && file.Present? && file.mtime > p.lastModified ==>
      if file.contents.Readable? && file.contents.parsed.AppsList? then
        && r.result.Success?
        && r.provider == p.(apps := file.contents.parsed.apps, lastModified := file.mtime, lastChecked := now)
      else
        r.result.Failure? && r.provider == p.(lastChecked := now)
  {
    if now - p.lastChecked < p.ttl then Answer(p, Success(()))
    else
      var checked := p.(lastChecked := now);
      if file.Missing? || file.mtime <= p.lastModified then Answer(checked, Success(()))
      else
        match Load(checked, file, now)
        case Success(loaded) => Answer(loaded, Success(()))
        case Failure(e) => Answer(checked, Failure(e))
  }

  /** A second refresh at the same instant, after one that succeeded, changes nothing: either
      the window has not passed again, or the snapshot is already as new as the file. */
  lemma RefreshSettles(p: Provider, file: File, now: int)
    requires Refresh(p, file, now).result.Success?
    ensures var q := Refresh(p, file, now).provider;
      Refresh(q, file, now) == Answer(q, Success(()))
  {
  }

  /** `reload`: a load whatever the TTL and modification time. */
  function Reload(p: Provider, file: File, now: int): (r: Result<Provider, Error>)
    ensures r.Success? <==> file.Present? && file.contents.Readable? && file.contents.parsed.AppsList?
    ensures r.Success? ==> r.value.apps == file.contents.parsed.apps && r.value.lastModified == file.mtime
  {
    Load(p, file, now)
  }

  /** `getRawApplications` (and `all`, before each record is turned into an application). */
  function GetRaw(p: Provider, file: File, now: int): (r: Answer<seq<Record>>)
    ensures r.result.Success? ==> r.result.value == r.provider.apps
    ensures r.result.Failure? <==> Refresh(p, file, now).result.Failure?
  {
    var refreshed := Refresh(p, file, now);
    if refreshed.result.Failure? then Answer(refreshed.provider, Failure(refreshed.result.error))
    else Answer(refreshed.provider, Success(refreshed.provider.apps))
  }

  /** The position of the first record whose field holds the given string. */
  function FirstIndex(apps: seq<Record>, field: string, value: string): (r: Option<nat>)
    ensures r.Some? ==>
      && r.value < |apps| && FieldIs(apps[r.value], field, value)
      && forall j :: 0 <= j < r.value ==> !FieldIs(apps[j], field, value)
    ensures r.None? ==> forall j :: 0 <= j < |apps| ==> !FieldIs(apps[j], field, value)
  {
    if |apps| == 0 then None
    else if FieldIs(apps[0], field, value) then Some(0)
    else match FirstIndex(apps[1..], field, value)
      case None => None
      case Some(i) => Some(i + 1)
  }

  /** `find` behind `findById` and `findByKey`: the first matching record, or InvalidApplication. */
  function Find(p: Provider, file: File, now: int, field: string, value: string): (r: Answer<Record>)
    ensures r.provider == Refresh(p, file, now).provider
    ensures r.result.Success? ==> FieldIs(r.result.value, field, value) && r.result.value in r.provider.apps
    ensures Refresh(p, file, now).result.Success? ==>
      (r.result == Failure(InvalidApplication) <==> forall j :: 0 <= j < |r.provider.apps| ==> !FieldIs(r.provider.apps[j], field, value))
    ensures Refresh(p, file, now).result.Success? && FirstIndex(r.provider.apps, field, value).Some? ==>
      r.result == Success(r.provider.apps[FirstIndex(r.provider.apps, field, value).value])
    ensures Refresh(p, file, now).result.Failure? ==> r.result == Failure(Refresh(p, file, now).result.error)
  {
    var refreshed := Refresh(p, file, now);
    if refreshed.result.Failure? then Answer(refreshed.provider, Failure(refreshed.result.error))
    else
      match FirstIndex(refreshed.provider.apps, field, value)
      case None => Answer(refreshed.provider, Failure(InvalidApplication))
      case Some(i) => Answer(refreshed.provider, Success(refreshed.provider.apps[i]))
  }

  /** The outcome of each step of `saveApps` (encoding, writing the temporary file, renaming it
      over the target), with the new modification time when all succeed. */
  datatype SaveIo = EncodeFails | WriteFails | RenameFails | Saved(mtime: int)

  /** `saveApps`: on success the file holds exactly the records and the provider adopts them with
      the new modification time; on any failure neither the file nor the provider changes (a
      failed rename removes the temporary file first). */
  function Save(p: Provider, file: File, apps: seq<Record>, io: SaveIo, now: int): (r: Written)
    ensures io.Saved? ==>
      && r.result.Success? && r.file == Present(io.mtime, Readable(AppsList(apps)))
      && r.provider == p.(apps := apps, lastModified := io.mtime, lastChecked := now)
    ensures !io.Saved? ==> r.file == file && r.provider == p && r.result.Failure? && IsRuntime(r.result.error)
  {
    match io
    case EncodeFails => Written(p, file, Failure(EncodeFailed))
    case WriteFails => Written(p, file, Failure(WriteFailed))
    case RenameFails => Written(p, file, Failure(RenameFailed))
    case Saved(mtime) => Written(p.(apps := apps, lastModified := mtime, lastChecked := now),
                                 Present(mtime, Readable(AppsList(apps))), Success(()))
  }

  /** What a save wrote is what a later load reads back. */
  lemma SaveThenLoad(p: Provider, file: File, apps: seq<Record>, mtime: int, now: int, later: int)
    ensures var w := Save(p, file, apps, Saved(mtime), now);
      Load(w.provider, w.file, later) == Success(w.provider.(lastChecked := later)) &&
      Load(w.provider, w.file, later).value.apps == apps
  {
  }

  /** After a save, a refresh never reloads: the file is no newer than the snapshot. */
  lemma SaveThenRefresh(p: Provider, file: File, apps: seq<Record>, mtime: int, now: int, later: int)
    ensures var w := Save(p, file, apps, Saved(mtime), now);
      Refresh(w.provider, w.file, later).provider.apps == apps &&
      Refresh(w.provider, w.file, later).result.Success?
  {
  }

  /** Threads a refresh failure through an operation. */
  function Refreshed<T>(r: Answer<()>): Answer<T>
    requires r.result.Failure?
  {
    Answer(r.provider, Failure(r.result.error))
  }

  function WrittenFailure(r: Answer<()>, file: File): Written
    requires r.result.Failure?
  {
    Written(r.provider, file, Failure(r.result.error))
  }

  /** `addApp`: refresh, append the record in place, save. There is no uniqueness check, and since
      the append mutates the snapshot before the save, a failed save leaves the record in the
      snapshot though not in the file. */
  function AddApp(p: Provider, file: File, now: int, app: Record, io: SaveIo): (r: Written)
    ensures var refreshed := Refresh(p, file, now);
      refreshed.result.Success? ==>
        && r.provider.apps == refreshed.provider.apps + [app]
        && (io.Saved? <==> r.result.Success?)
        && (r.result.Success? ==> r.file == Present(io.mtime, Readable(AppsList(refreshed.provider.apps + [app]))))
        && (r.result.Failure? ==> r.file == file)
    ensures Refresh(p, file, now).result.Failure? ==> r.file == file && r.provider == Refresh(p, file, now).provider
  {
    var refreshed := Refresh(p, file, now);
    if refreshed.result.Failure? then WrittenFailure(refreshed, file)
    else
      var pushed := refreshed.provider.(apps := refreshed.provider.apps + [app]);
      Save(pushed, file, pushed.apps, io, now)
  }

  /** `updateApp`: the first record with that id is replaced by the given data with the id put
      first (`array_merge(['id' => $id], $app)`); every other record, and the count, is kept.
      An unknown id fails with nothing written. */
  function UpdateApp(p: Provider, file: File, now: int, id: string, data: Record, io: SaveIo): (r: Written)
    ensures var refreshed := Refresh(p, file, now);
      var apps := refreshed.provider.apps;
      refreshed.result.Success? ==>
        && (FirstIndex(apps, "id", id).None? ==> r == Written(refreshed.provider, file, Failure(AppNotFound(id))))
        && (FirstIndex(apps, "id", id).Some? && io.Saved? ==>
              var i := FirstIndex(apps, "id", id).value;
              && r.result.Success?
              && |r.provider.apps| == |apps|
              && r.provider.apps[i] == Merge(map["id" := Str(id)], data)
              && (forall j :: 0 <= j < |apps| && j != i ==> r.provider.apps[j] == apps[j])
              && r.file == Present(io.mtime, Readable(AppsList(r.provider.apps))))
        && (!io.Saved? ==> r.provider == refreshed.provider && r.file == file && r.result.Failure?)
  {
    var refreshed := Refresh(p, file, now);
    if refreshed.result.Failure? then WrittenFailure(refreshed, file)
    else
      match FirstIndex(refreshed.provider.apps, "id", id)
      case None => Written(refreshed.provider, file, Failure(AppNotFound(id)))
      case Some(i) =>
        var apps := refreshed.provider.apps[i := Merge(map["id" := Str(id)], data)];
        Save(refreshed.provider, file, apps, io, now)
  }

  /** Collection `reject`: the records whose id is not the given one, in order. Each kept
      record keeps its multiplicity. */
  function Reject(apps: seq<Record>, id: string): (r: seq<Record>)
    ensures |r| <= |apps|
    ensures forall j :: 0 <= j < |r| ==> !FieldIs(r[j], "id", id) && r[j] in apps
    ensures forall x :: x in apps && !FieldIs(x, "id", id) ==> x in r
    ensures |r| == |apps| <==> forall j :: 0 <= j < |apps| ==> !FieldIs(apps[j], "id", id)
  {
    if |apps| == 0 then []
    else
      var rest := Reject(apps[1..], id);
      if FieldIs(apps[0], "id", id) then rest else [apps[0]] + rest
  }

  /** `reject` keeps order: rejecting from two lists joined is rejecting from each and joining
      the results. With `Reject` of one record (kept or dropped), this pins the result down as
      the order-preserving filter. */
  lemma {:induction false} RejectDistributes(a: seq<Record>, b: seq<Record>, id: string)
    ensures Reject(a + b, id) == Reject(a, id) + Reject(b, id)
  {
    if |a| > 0 {
      assert (a + b)[1..] == a[1..] + b;
      RejectDistributes(a[1..], b, id);
    } else {
      assert a + b == b;
    }
  }

  /** `reject` keeps every other record as often as it occurs and drops every copy of the
      rejected ones. */
  lemma {:induction false} RejectCounts(apps: seq<Record>, id: string, x: Record)
    ensures multiset(Reject(apps, id))[x] == if FieldIs(x, "id", id) then 0 else multiset(apps)[x]
  {
    if |apps| > 0 {
      assert apps == [apps[0]] + apps[1..];
      RejectCounts(apps[1..], id, x);
    }
  }

  lemma RejectOne(x: Record, id: string)
    ensures Reject([x], id) == if FieldIs(x, "id", id) then [] else [x]
  {
    assert [x][1..] == [];
  }

  /** `deleteApp`: every record with that id is removed, failing when none was there. */
  function DeleteApp(p: Provider, file: File, now: int, id: string, io: SaveIo): (r: Written)
    ensures var refreshed := Refresh(p, file, now);
      var apps := refreshed.provider.apps;
      refreshed.result.Success? ==>
        && ((forall j :: 0 <= j < |apps| ==> !FieldIs(apps[j], "id", id)) ==>
              r == Written(refreshed.provider, file, Failure(AppNotFound(id))))
        && (r.result.Success? ==>
              && io.Saved? && r.provider.apps == Reject(apps, id)
              && r.file == Present(io.mtime, Readable(AppsList(Reject(apps, id)))))
        && (!io.Saved? ==> r.provider == refreshed.provider && r.file == file && r.result.Failure?)
        && (HasApp(apps, id) && io.Saved? ==>
              && r.result.Success? && r.provider.apps == Reject(apps, id)
              && r.file == Present(io.mtime, Readable(AppsList(Reject(apps, id)))))
    ensures Refresh(p, file, now).result.Failure? ==>
      r == Written(Refresh(p, file, now).provider, file, Failure(Refresh(p, file, now).result.error))
  {
    var refreshed := Refresh(p, file, now);
    if refreshed.result.Failure? then WrittenFailure(refreshed, file)
    else
      var kept := Reject(refreshed.provider.apps, id);
      if |kept| == |refreshed.provider.apps| then Written(refreshed.provider, file, Failure(AppNotFound(id)))
      else Save(refreshed.provider, file, kept, io, now)
  }

  /** Some record has this id. */
  predicate HasApp(apps: seq<Record>, id: string) {
    exists j :: 0 <= j < |apps| && FieldIs(apps[j], "id", id)
  }

  /** `exists`: whether the refreshed snapshot holds a record with this id. */
  function Exists(p: Provider, file: File, now: int, id: string): (r: Answer<bool>)
    ensures r.provider == Refresh(p, file, now).provider
    ensures r.result.Success? ==> (r.result.value <==> HasApp(r.provider.apps, id))
    ensures r.result.Failure? <==> Refresh(p, file, now).result.Failure?
  {
    var refreshed := Refresh(p, file, now);
    if refreshed.result.Failure? then Refreshed(refreshed)
    else Answer(refreshed.provider, Success(FirstIndex(refreshed.provider.apps, "id", id).Some?))
  }

  /** The collision `keyExists` looks for: a record with that key that is not the excluded id. */
  predicate KeyTaken(apps: seq<Record>, key: string, excludeId: Option<string>) {
    exists j :: 0 <= j < |apps| && FieldIs(apps[j], "key", key) &&
      !(excludeId.Some? && FieldIs(apps[j], "id", excludeId.value))
  }

  /** The closure `keyExists` passes to `contains`, applied record by record. */
  function AnyKey(apps: seq<Record>, key: string, excludeId: Option<string>): (b: bool)
    ensures b <==> KeyTaken(apps, key, excludeId)
  {
    if |apps| == 0 then false
    else
      var skip := excludeId.Some? && FieldIs(apps[0], "id", excludeId.value);
      var hit := !skip && FieldIs(apps[0], "key", key);
      var rest := AnyKey(apps[1..], key, excludeId);
      assert KeyTaken(apps, key, excludeId) <==> hit || KeyTaken(apps[1..], key, excludeId) by {
        if KeyTaken(apps[1..], key, excludeId) {
          var j :| 0 <= j < |apps[1..]| && FieldIs(apps[1..][j], "key", key) &&
            !(excludeId.Some? && FieldIs(apps[1..][j], "id", excludeId.value));
          assert apps[j + 1] == apps[1..][j];
        }
        if KeyTaken(apps, key, excludeId) && !hit {
          var j :| 0 <= j < |apps| && FieldIs(apps[j], "key", key) &&
            !(excludeId.Some? && FieldIs(apps[j], "id", excludeId.value));
          assert j > 0;
          assert apps[1..][j - 1] == apps[j];
        }
      }
      hit || rest
  }

  /** `keyExists`. */
  function KeyExists(p: Provider, file: File, now: int, key: string, excludeId: Option<string>): (r: Answer<bool>)
    ensures r.provider == Refresh(p, file, now).provider
    ensures r.result.Success? ==> (r.result.value <==> KeyTaken(r.provider.apps, key, excludeId))
    ensures r.result.Failure? <==> Refresh(p, file, now).result.Failure?
  {
    var refreshed := Refresh(p, file, now);
    if refreshed.result.Failure? then Refreshed(refreshed)
    else Answer(refreshed.provider, Success(AnyKey(refreshed.provider.apps, key, excludeId)))
  }

  /** A record keeping its own key does not collide with itself. */
  lemma OwnKeyIsFree(apps: seq<Record>, i: nat, key: string, id: string)
    requires i < |apps| && FieldIs(apps[i], "key", key) && FieldIs(apps[i], "id", id)
    requires forall j :: 0 <= j < |apps| && j != i ==> !FieldIs(apps[j], "key", key)
    ensures !KeyTaken(apps, key, Some(id))
    ensures KeyTaken(apps, key, None)
  {
  }

  /** A successful add is visible to `exists` afterwards, whenever it is asked. */
  lemma AddThenExists(p: Provider, file: File, now: int, app: Record, id: string, mtime: int, later: int)
    requires FieldIs(app, "id", id)
    requires AddApp(p, file, now, app, Saved(mtime)).result.Success?
    ensures var w := AddApp(p, file, now, app, Saved(mtime));
      Exists(w.provider, w.file, later, id).result == Success(true)
  {
    var w := AddApp(p, file, now, app, Saved(mtime));
    var apps := w.provider.apps;
    assert apps[|apps| - 1] == app;
    assert HasApp(apps, id);
  }

  /** After a successful delete, `exists` reports the id gone. */
  lemma DeleteThenGone(p: Provider, file: File, now: int, id: string, mtime: int, later: int)
    requires DeleteApp(p, file, now, id, Saved(mtime)).result.Success?
    ensures var w := DeleteApp(p, file, now, id, Saved(mtime));
      Exists(w.provider, w.file, later, id).result == Success(false)
  {
  }

  /** As written, a failed save after an add leaves the record in the snapshot but not in the
      file. */
  lemma FailedAddStillListed(p: Provider, file: File, now: int, app: Record, io: SaveIo)
    requires !io.Saved?
    requires Refresh(p, file, now).result.Success?
    ensures var w := AddApp(p, file, now, app, io);
      w.result.Failure? && w.file == file && app in w.provider.apps
  {
    var w := AddApp(p, file, now, app, io);
    assert w.provider.apps[|w.provider.apps| - 1] == app;
  }
}

=== FILE: gate.dfy ===
/** What an authentication middleware decides about a request: hand it on to the next handler,
    or stop it with a status and an error text. */
module Gate {
  datatype Gate = Next | Stop(status: int, error: string)
}

=== FILE: json.dfy ===
/** Decoded JSON values as PHP holds them after `json_decode($s, true)`: objects become
    string-keyed arrays, modelled here as maps (key order is not modelled). */
module Json {
  datatype Value =
    | Null
    | Bool(b: bool)
    | Int(i: int)
    | Str(s: string)
    | List(items: seq<Value>)
    | Object(fields: map<string, Value>)

  /** An application record, or any other string-keyed PHP array. */
  type Record = map<string, Value>

  /** `$r[$field] === $v` for a string `$v`: false when the field is absent or not a string. */
  predicate FieldIs(r: Record, field: string, v: string) {
    field in r && r[field] == Str(v)
  }

  /** `$r[$field] ?? $default`: null counts as absent. */
  function FieldOr(r: Record, field: string, default: Value): (v: Value)
    ensures field in r && r[field] != Null ==> v == r[field]
    ensures (field !in r || r[field] == Null) ==> v == default
  {
    if field in r && r[field] != Null then r[field] else default
  }

  /** A PHP array, list-shaped or string-keyed: the only values `array_merge` accepts. */
  predicate PhpArray(v: Value) {
    v.List? || v.Object?
  }

  /** `array_merge($a, $b)` on string-keyed arrays: every key of either, the right side winning. */
  function Merge(a: Record, b: Record): (r: Record)
    ensures r.Keys == a.Keys + b.Keys
    ensures forall k :: k in b ==> r[k] == b[k]
    ensures forall k :: k in a && k !in b ==> r[k] == a[k]
  {
    map k | k in a.Keys + b.Keys :: if k in b then b[k] else a[k]
  }
}

=== FILE: labels.dfy ===
/** Metric label sets and the canonical identity derived from them.

    A label set is a PHP associative array `array<string, string>`: an ordered sequence of
    key/value pairs whose keys are pairwise distinct. Identity ignores the order: the labels are
    key-sorted (`ksort`) before they are condensed into a digest. */
module Labels {
  import opened Text

  /** One label: (key, value). */
  type Label = (string, string)

  predicate DistinctKeys(ls: seq<Label>) {
    forall i, j :: 0 <= i < j < |ls| ==> ls[i].0 != ls[j].0
  }

  /** A PHP label array: keys are unique, insertion order is kept. */
  type LabelSet = ls: seq<Label> | DistinctKeys(ls) witness []

  /** Strict lexicographic order on strings by character code, the order `ksort` uses here. */
  predicate Less(a: string, b: string)
    decreases |a|
  {
    if |a| == 0 then |b| > 0
    else if |b| == 0 then false
    else a[0] < b[0] || (a[0] == b[0] && Less(a[1..], b[1..]))
  }

  lemma {:induction false} LessIrreflexive(a: string)
    ensures !Less(a, a)
    decreases |a|
  {
    if |a| > 0 {
      LessIrreflexive(a[1..]);
    }
  }

  lemma {:induction false} LessTransitive(a: string, b: string, c: string)
    requires Less(a, b) && Less(b, c)
    ensures Less(a, c)
    decreases |a|
  {
    if |a| > 0 && |b| > 0 && |c| > 0 && a[0] == b[0] && b[0] == c[0] {
      LessTransitive(a[1..], b[1..], c[1..]);
    }
  }

  lemma {:induction false} LessTotal(a: string, b: string)
    requires a != b
    ensures Less(a, b) || Less(b, a)
    decreases |a|
  {
    if |a| > 0 && |b| > 0 && a[0] == b[0] {
      assert a == [a[0]] + a[1..] && b == [b[0]] + b[1..];
      LessTotal(a[1..], b[1..]);
    }
  }

  lemma LessAsymmetric(a: string, b: string)
    requires Less(a, b)
    ensures !Less(b, a)
  {
    if Less(b, a) {
      LessTransitive(a, b, a);
      LessIrreflexive(a);
    }
  }

  /** Strictly increasing keys. */
  predicate SortedByKey(ls: seq<Label>) {
    forall i, j :: 0 <= i < j < |ls| ==> Less(ls[i].0, ls[j].0)
  }

  function Keys(ls: seq<Label>): set<string> {
    set i | 0 <= i < |ls| :: ls[i].0
  }

  /** Inserts one label into a key-sorted sequence. */
  function Insert(l: Label, ls: seq<Label>): seq<Label> {
    if |ls| == 0 then [l]
    else if !Less(ls[0].0, l.0) then [l] + ls
    else [ls[0]] + Insert(l, ls[1..])
  }

  /** PHP `ksort`: the labels ordered by key. */
  function SortByKey(ls: seq<Label>): seq<Label> {
    if |ls| == 0 then [] else Insert(ls[0], SortByKey(ls[1..]))
  }

  lemma {:induction false} InsertElements(l: Label, ls: seq<Label>)
    ensures multiset(Insert(l, ls)) == multiset(ls) + multiset{l}
  {
    if |ls| > 0 && Less(ls[0].0, l.0) {
      InsertElements(l, ls[1..]);
      assert ls == [ls[0]] + ls[1..];
    }
  }

  lemma {:induction false} SortElements(ls: seq<Label>)
    ensures multiset(SortByKey(ls)) == multiset(ls)
  {
    if |ls| > 0 {
      SortElements(ls[1..]);
      InsertElements(ls[0], SortByKey(ls[1..]));
      assert ls == [ls[0]] + ls[1..];
    }
  }

  lemma {:induction false} InsertSorted(l: Label, ls: seq<Label>)
    requires SortedByKey(ls)
    requires l.0 !in Keys(ls)
    ensures SortedByKey(Insert(l, ls))
  {
    if |ls| == 0 {
    } else if !Less(ls[0].0, l.0) {
      assert ls[0].0 in Keys(ls);
      LessTotal(l.0, ls[0].0);
      forall j | 0 < j < |ls|
        ensures Less(l.0, ls[j].0)
      {
        LessTransitive(l.0, ls[0].0, ls[j].0);
      }
    } else {
      var tail := ls[1..];
      assert Keys(tail) <= Keys(ls) by {
        forall k | k in Keys(tail) ensures k in Keys(ls) {
          var i :| 0 <= i < |tail| && tail[i].0 == k;
          assert ls[i + 1].0 == k;
        }
      }
      InsertSorted(l, tail);
      var ins := Insert(l, tail);
      InsertElements(l, tail);
      forall j | 0 <= j < |ins|
        ensures Less(ls[0].0, ins[j].0)
      {
        assert ins[j] in multiset(ins);
        if ins[j] != l {
          assert ins[j] in multiset(tail);
          var m :| 0 <= m < |tail| && tail[m] == ins[j];
          assert ls[m + 1] == ins[j];
        }
      }
    }
  }

  lemma {:induction false} SortedResult(ls: seq<Label>)
    requires DistinctKeys(ls)
    ensures SortedByKey(SortByKey(ls))
  {
    if |ls| > 0 {
      var tail := ls[1..];
      SortedResult(tail);
      SortElements(tail);
      var st := SortByKey(tail);
      forall i | 0 <= i < |st|
        ensures st[i].0 != ls[0].0
      {
        assert st[i] in multiset(tail);
        var m :| 0 <= m < |tail| && tail[m] == st[i];
        assert ls[m + 1] == st[i];
      }
      InsertSorted(ls[0], st);
    }
  }

  /** Two key-sorted sequences holding the same labels are the same sequence. */
  lemma {:induction false} SortedUnique(a: seq<Label>, b: seq<Label>)
    requires SortedByKey(a) && SortedByKey(b)
    requires multiset(a) == multiset(b)
    ensures a == b
    decreases |a|
  {
    if |a| > 0 {
      assert a[0] in multiset(b);
      assert |b| > 0;
      assert b[0] in multiset(a);
      if a[0] != b[0] {
        var i :| 0 <= i < |a| && a[i] == b[0];
        var j :| 0 <= j < |b| && b[j] == a[0];
        assert Less(a[0].0, b[0].0);
        assert Less(b[0].0, a[0].0);
        LessAsymmetric(a[0].0, b[0].0);
        assert false;
      }
      assert a == [a[0]] + a[1..] && b == [b[0]] + b[1..];
      assert multiset(a) == multiset{a[0]} + multiset(a[1..]);
      assert multiset(b) == multiset{b[0]} + multiset(b[1..]);
      assert multiset(a[1..]) == multiset(a) - multiset{a[0]};
      assert multiset(b[1..]) == multiset(b) - multiset{b[0]};
      SortedUnique(a[1..], b[1..]);
    } else {
      assert |multiset(b)| == 0;
    }
  }

  /** Reorderings of the same label set sort to the same sequence. */
  lemma SortIgnoresOrder(a: LabelSet, b: LabelSet)
    requires multiset(a) == multiset(b)
    ensures SortByKey(a) == SortByKey(b)
  {
    SortedResult(a);
    SortedResult(b);
    SortElements(a);
    SortElements(b);
    SortedUnique(SortByKey(a), SortByKey(b));
  }

  /** The condensed token for a key-sorted label sequence. It stands for
      `md5(json_encode($labels))`: a deterministic rendering of the sorted pairs, ending in `}`.
      Nothing in the model relies on it being collision-free. */
  function Digest(sorted: seq<Label>): (d: string)
    ensures |d| > 0 && d[|d| - 1] == '}'
  {
    "{" + Join(",", seq(|sorted|, i requires 0 <= i < |sorted| =>
      "\"" + sorted[i].0 + "\":\"" + sorted[i].1 + "\"")) + "}"
  }

  /** Two labels already in key order stay as they are. */
  lemma SortPair(a: Label, b: Label)
    requires Less(a.0, b.0)
    ensures SortByKey([a, b]) == [a, b]
  {
    assert [a, b][1..] == [b];
    assert SortByKey([b]) == [b] by { assert [b][1..] == []; }
    LessAsymmetric(a.0, b.0);
    assert Insert(a, [b]) == [a, b];
  }

  /** The digest of two labels, spelled out. */
  lemma DigestPair(a: Label, b: Label)
    ensures Digest([a, b]) == "{\"" + a.0 + "\":\"" + a.1 + "\",\"" + b.0 + "\":\"" + b.1 + "\"}"
  {
    var ls := [a, b];
    var parts := seq(|ls|, i requires 0 <= i < |ls| => "\"" + ls[i].0 + "\":\"" + ls[i].1 + "\"");
    assert parts == ["\"" + a.0 + "\":\"" + a.1 + "\"", "\"" + b.0 + "\":\"" + b.1 + "\""];
    assert parts[1..] == ["\"" + b.0 + "\":\"" + b.1 + "\""];
    assert Join(",", parts) == parts[0] + "," + parts[1];
  }

  /** The identity key of the in-memory store: the bare name for no labels, otherwise the name,
      a colon and the digest of the key-sorted labels. */
  function IdentityKey(name: string, labels: LabelSet): (k: string)
    ensures |labels| == 0 ==> k == name
    ensures |labels| > 0 ==> |k| > |name| + 1 && k[..|name| + 1] == name + ":"
  {
    if |labels| == 0 then name else name + ":" + Digest(SortByKey(labels))
  }

  /** Label arrays that hold the same pairs in a different order address the same sample. */
  lemma IdentityIgnoresOrder(name: string, a: LabelSet, b: LabelSet)
    requires multiset(a) == multiset(b)
    ensures IdentityKey(name, a) == IdentityKey(name, b)
  {
    SortIgnoresOrder(a, b);
    if |a| == 0 {
      assert |multiset(b)| == 0;
    } else {
      assert |multiset(a)| > 0;
    }
  }

  /** Samples whose names differ at some position inside both names never share a key. */
  lemma NamesApartKeysApart(n1: string, l1: LabelSet, n2: string, l2: LabelSet, i: nat)
    requires i < |n1| && i < |n2| && n1[i] != n2[i]
    ensures IdentityKey(n1, l1) != IdentityKey(n2, l2)
  {
    var k1 := IdentityKey(n1, l1);
    var k2 := IdentityKey(n2, l2);
    if |l1| > 0 {
      assert k1[i] == k1[..|n1| + 1][i];
    }
    if |l2| > 0 {
      assert k2[i] == k2[..|n2| + 1][i];
    }
    assert k1[i] == n1[i];
  }
}

=== FILE: listener.dfy ===
/** The event listener: each WebSocket server event is translated into one recorder call on the
    in-memory store. */
module Listener {
  import opened Wrappers
  import opened Labels
  import opened Samples
  import opened MemoryStore
  import Collector
  import opened Channels

  /** A message payload after `json_decode`: not valid JSON, or an object whose `channel` member
      is present and non-null (`isset`) or not. */
  datatype Payload = Malformed | Decoded(channel: Option<string>)

  /** The events the listener handles. A channel event carries the app ids of the channel's
      connections in order; a channel without connections is attributed to "unknown". */
  datatype Event =
    | MessageReceived(appId: string, message: Payload)
    | MessageSent(appId: string, message: Payload)
    | ChannelCreated(channel: string, connectionApps: seq<string>)
    | ChannelRemoved(channel: string, connectionApps: seq<string>)
    | ConnectionPruned(appId: string)

  datatype EventKind = MessageReceivedKind | MessageSentKind | ChannelCreatedKind | ChannelRemovedKind | ConnectionPrunedKind

  function KindOf(e: Event): EventKind {
    match e
    case MessageReceived(_, _) => MessageReceivedKind
    case MessageSent(_, _) => MessageSentKind
    case ChannelCreated(_, _) => ChannelCreatedKind
    case ChannelRemoved(_, _) => ChannelRemovedKind
    case ConnectionPruned(_) => ConnectionPrunedKind
  }

  /** `subscribe`: the handler method registered for each event class. */
  const Subscriptions: map<EventKind, string> := map[
    MessageReceivedKind := "handleMessageReceived",
    MessageSentKind := "handleMessageSent",
    ChannelCreatedKind := "handleChannelCreated",
    ChannelRemovedKind := "handleChannelRemoved",
    ConnectionPrunedKind := "handleConnectionPruned"
  ]

  /** Exactly five events are subscribed, every event the listener models has a registered
      handler, and no two kinds share a handler. */
  lemma EveryEventIsSubscribed(e: Event, f: Event)
    ensures |Subscriptions| == 5
    ensures KindOf(e) in Subscriptions
    ensures Subscriptions[KindOf(e)] == Subscriptions[KindOf(f)] <==> KindOf(e) == KindOf(f)
  {
    var a := Subscriptions[KindOf(e)];
    var b := Subscriptions[KindOf(f)];
    if KindOf(e) != KindOf(f) {
      assert a[6..9] != b[6..9] || a[6..] != b[6..];
    }
  }

  /** `determineChannelTypeFromMessage`: the payload's channel classified, and public for a
      malformed payload or one without a channel. */
  function MessageChannelType(p: Payload): (t: ChannelType)
    ensures p.Decoded? && p.channel.Some? ==> t == Classify(p.channel.value)
    ensures (p.Malformed? || p.channel.None?) ==> t == Public
  {
    match p
    case Decoded(Some(name)) => Classify(name)
    case _ => Public
  }

  /** The app a channel event is attributed to: the first connection's app, else "unknown". */
  function ChannelAppId(connectionApps: seq<string>): (id: string)
    ensures |connectionApps| > 0 ==> id == connectionApps[0]
    ensures |connectionApps| == 0 ==> id == "unknown"
  {
    if |connectionApps| > 0 then connectionApps[0] else "unknown"
  }

  /** Runs the registered handler on the store. */
  function Handle(st: Store, e: Event): (r: Store)
    ensures e.MessageReceived? ==>
      Collector.CountedOnce(st, r, Collector.MessagesReceived,
        Collector.ChannelTypeLabels(e.appId, TypeName(MessageChannelType(e.message))))
    ensures e.MessageSent? ==>
      Collector.CountedOnce(st, r, Collector.MessagesSent,
        Collector.ChannelTypeLabels(e.appId, TypeName(MessageChannelType(e.message))))
    ensures (e.ChannelCreated? || e.ChannelRemoved?) ==> r.counters == st.counters
    ensures e.ChannelCreated? ==>
      var g := IdentityKey(Collector.ChannelsActive,
        Collector.ChannelLabels(ChannelAppId(e.connectionApps), TypeName(Classify(e.channel))));
      ValueAt(r.gauges, g) == ValueAt(st.gauges, g) + 1 && SameExcept(r.gauges, st.gauges, g)
    ensures e.ChannelRemoved? ==>
      var g := IdentityKey(Collector.ChannelsActive,
        Collector.ChannelLabels(ChannelAppId(e.connectionApps), TypeName(Classify(e.channel))));
      && ValueAt(r.gauges, g) == (if ValueAt(st.gauges, g) >= 1 then ValueAt(st.gauges, g) - 1 else 0)
      && SameExcept(r.gauges, st.gauges, g)
    ensures e.ConnectionPruned? ==>
      var c := IdentityKey(Collector.ConnectionsClosed, Collector.ClosedLabels(e.appId, "pruned"));
      var g := IdentityKey(Collector.ConnectionsTotal, Collector.AppLabels(e.appId));
      && ValueAt(r.counters, c) == ValueAt(st.counters, c) + 1 && SameExcept(r.counters, st.counters, c)
      && ValueAt(r.gauges, g) == (if ValueAt(st.gauges, g) >= 1 then ValueAt(st.gauges, g) - 1 else 0)
      && SameExcept(r.gauges, st.gauges, g)
  {
    match e
    case MessageReceived(appId, message) =>
      Collector.MessageReceived(st, appId, TypeName(MessageChannelType(message)))
    case MessageSent(appId, message) =>
      Collector.MessageSent(st, appId, TypeName(MessageChannelType(message)))
    case ChannelCreated(channel, apps) =>
      Collector.ChannelCreated(st, ChannelAppId(apps), TypeName(Classify(channel)))
    case ChannelRemoved(channel, apps) =>
      Collector.ChannelRemoved(st, ChannelAppId(apps), TypeName(Classify(channel)))
    case ConnectionPruned(appId) =>
      Collector.ConnectionClosed(st, appId, "pruned")
  }

  lemma UntouchedValue(a: Table, b: Table, k: string, other: string)
    requires SameExcept(a, b, k) && other != k
    ensures ValueAt(a, other) == ValueAt(b, other)
  {
    assert Lookup(a, other) == Lookup(b, other);
  }

  lemma CountedElsewhere(st: Store, r: Store, name: string, labels: LabelSet, other: string)
    requires Collector.CountedOnce(st, r, name, labels) && other != IdentityKey(name, labels)
    ensures ValueAt(r.counters, other) == ValueAt(st.counters, other)
  {
    UntouchedValue(r.counters, st.counters, IdentityKey(name, labels), other);
  }

  /** No handled event raises an app's connections-created counter: only connection opening,
      which the listener does not handle, does. */
  lemma NoEventCountsConnections(st: Store, e: Event, appId: string)
    ensures var c := IdentityKey(Collector.ConnectionsCreated, Collector.AppLabels(appId));
      ValueAt(Handle(st, e).counters, c) == ValueAt(st.counters, c)
  {
    var c := IdentityKey(Collector.ConnectionsCreated, Collector.AppLabels(appId));
    match e
    case MessageReceived(a, m) =>
      var l := Collector.ChannelTypeLabels(a, TypeName(MessageChannelType(m)));
      NamesApartKeysApart(Collector.MessagesReceived, l, Collector.ConnectionsCreated, Collector.AppLabels(appId), 7);
      CountedElsewhere(st, Handle(st, e), Collector.MessagesReceived, l, c);
    case MessageSent(a, m) =>
      var l := Collector.ChannelTypeLabels(a, TypeName(MessageChannelType(m)));
      NamesApartKeysApart(Collector.MessagesSent, l, Collector.ConnectionsCreated, Collector.AppLabels(appId), 7);
      CountedElsewhere(st, Handle(st, e), Collector.MessagesSent, l, c);
    case ChannelCreated(_, _) =>
    case ChannelRemoved(_, _) =>
    case ConnectionPruned(a) =>
      var l := Collector.ClosedLabels(a, "pruned");
      NamesApartKeysApart(Collector.ConnectionsClosed, l, Collector.ConnectionsCreated, Collector.AppLabels(appId), 20);
      UntouchedValue(Handle(st, e).counters, st.counters, IdentityKey(Collector.ConnectionsClosed, l), c);
  }

  /** A channel event touches only a channel gauge, never an app's open-connection gauge. */
  lemma ChannelEventKeepsConnections(st: Store, e: Event, appId: string)
    requires e.ChannelCreated? || e.ChannelRemoved?
    ensures var g := IdentityKey(Collector.ConnectionsTotal, Collector.AppLabels(appId));
      ValueAt(Handle(st, e).gauges, g) == ValueAt(st.gauges, g)
  {
    var g := IdentityKey(Collector.ConnectionsTotal, Collector.AppLabels(appId));
    var l := Collector.ChannelLabels(ChannelAppId(e.connectionApps), TypeName(Classify(e.channel)));
    NamesApartKeysApart(Collector.ChannelsActive, l, Collector.ConnectionsTotal, Collector.AppLabels(appId), 8);
    UntouchedValue(Handle(st, e).gauges, st.gauges, IdentityKey(Collector.ChannelsActive, l), g);
  }

  /** No handled event raises an app's open-connection gauge; a pruned connection lowers it
      (a negative gauge is lifted to 0). */
  lemma NoEventOpensConnections(st: Store, e: Event, appId: string)
    ensures var g := IdentityKey(Collector.ConnectionsTotal, Collector.AppLabels(appId));
      ValueAt(Handle(st, e).gauges, g) <= ValueAt(st.gauges, g) ||
      (ValueAt(st.gauges, g) < 0 && ValueAt(Handle(st, e).gauges, g) == 0)
  {
    var r := Handle(st, e);
    var g := IdentityKey(Collector.ConnectionsTotal, Collector.AppLabels(appId));
    match e
    case MessageReceived(_, _) =>
    case MessageSent(_, _) =>
    case ChannelCreated(_, _) =>
      ChannelEventKeepsConnections(st, e, appId);
    case ChannelRemoved(_, _) =>
      ChannelEventKeepsConnections(st, e, appId);
    case ConnectionPruned(a) =>
      var own := IdentityKey(Collector.ConnectionsTotal, Collector.AppLabels(a));
      if own != g {
        UntouchedValue(r.gauges, st.gauges, own, g);
      }
  }
}

=== FILE: memory_store.dfy ===
/** The single-process metrics store: counters and gauges in two separate insertion-ordered
    tables keyed by identity key. Every mutator is a pure transition from store to store. */
module MemoryStore {
  import opened Wrappers
  import opened Labels
  import opened Samples

  datatype Store = Store(counters: Table, gauges: Table)

  const Empty: Store := Store(EmptyTable, EmptyTable)

  /** Nothing stored under any key other than `k` differs between the two tables. */
  ghost predicate SameExcept(a: Table, b: Table, k: string) {
    forall k' :: k' != k ==> Lookup(a, k') == Lookup(b, k')
  }

  /** Adds `value` to the counter, creating it at 0 first. The stored name and labels are the
      ones given when the sample was created. */
  function Increment(st: Store, name: string, labels: LabelSet := [], value: int := 1): (r: Store)
    ensures r.gauges == st.gauges
    ensures var k := IdentityKey(name, labels);
      && k in r.counters.entries
      && ValueAt(r.counters, k) == ValueAt(st.counters, k) + value
      && SameExcept(r.counters, st.counters, k)
      && (k in st.counters.entries ==>
            r.counters.entries[k].name == st.counters.entries[k].name &&
            r.counters.entries[k].labels == st.counters.entries[k].labels)
      && (k !in st.counters.entries ==>
            r.counters.entries[k].name == name && r.counters.entries[k].labels == labels)
    ensures value >= 0 ==> forall k :: ValueAt(r.counters, k) >= ValueAt(st.counters, k)
  {
    var k := IdentityKey(name, labels);
    var s := if k in st.counters.entries then st.counters.entries[k] else Sample(name, labels, 0);
    Store(Put(st.counters, k, s.(value := s.value + value)), st.gauges)
  }

  /** Sets the gauge: value, labels and name are all overwritten (last write wins). */
  function Gauge(st: Store, name: string, value: int, labels: LabelSet := []): (r: Store)
    ensures r.counters == st.counters
    ensures var k := IdentityKey(name, labels);
      && Lookup(r.gauges, k) == Some(Sample(name, labels, value))
      && SameExcept(r.gauges, st.gauges, k)
  {
    var k := IdentityKey(name, labels);
    Store(st.counters, Put(st.gauges, k, Sample(name, labels, value)))
  }

  /** Adds `value` to the gauge, creating it at 0 first. */
  function IncrementGauge(st: Store, name: string, labels: LabelSet := [], value: int := 1): (r: Store)
    ensures r.counters == st.counters
    ensures var k := IdentityKey(name, labels);
      && k in r.gauges.entries
      && ValueAt(r.gauges, k) == ValueAt(st.gauges, k) + value
      && SameExcept(r.gauges, st.gauges, k)
      && (k in st.gauges.entries ==>
            r.gauges.entries[k].name == st.gauges.entries[k].name &&
            r.gauges.entries[k].labels == st.gauges.entries[k].labels)
      && (k !in st.gauges.entries ==>
            r.gauges.entries[k].name == name && r.gauges.entries[k].labels == labels)
  {
    var k := IdentityKey(name, labels);
    var s := if k in st.gauges.entries then st.gauges.entries[k] else Sample(name, labels, 0);
    Store(st.counters, Put(st.gauges, k, s.(value := s.value + value)))
  }

  /** Subtracts `value` from the gauge, creating it at 0 first, and floors the result at 0. */
  function DecrementGauge(st: Store, name: string, labels: LabelSet := [], value: int := 1): (r: Store)
    ensures r.counters == st.counters
    ensures var k := IdentityKey(name, labels);
      && k in r.gauges.entries
      && ValueAt(r.gauges, k) >= 0
      && (ValueAt(st.gauges, k) - value >= 0 ==> ValueAt(r.gauges, k) == ValueAt(st.gauges, k) - value)
      && (ValueAt(st.gauges, k) - value < 0 ==> ValueAt(r.gauges, k) == 0)
      && SameExcept(r.gauges, st.gauges, k)
      && (k in st.gauges.entries ==>
            r.gauges.entries[k].name == st.gauges.entries[k].name &&
            r.gauges.entries[k].labels == st.gauges.entries[k].labels)
      && (k !in st.gauges.entries ==>
            r.gauges.entries[k].name == name && r.gauges.entries[k].labels == labels)
  {
    var k := IdentityKey(name, labels);
    var s := if k in st.gauges.entries then st.gauges.entries[k] else Sample(name, labels, 0);
    var lowered := s.value - value;
    Store(st.counters, Put(st.gauges, k, s.(value := if lowered < 0 then 0 else lowered)))
  }

  /** All counters, in the order they were first created. */
  function GetCounters(st: Store): (r: seq<Sample>)
    ensures |r| == |st.counters.entries|
    ensures forall k :: k in st.counters.entries ==> st.counters.entries[k] in r
    ensures forall s :: s in r ==> exists k :: k in st.counters.entries && st.counters.entries[k] == s
  {
    Snapshot(st.counters)
  }

  /** All gauges, in the order they were first created. */
  function GetGauges(st: Store): (r: seq<Sample>)
    ensures |r| == |st.gauges.entries|
    ensures forall k :: k in st.gauges.entries ==> st.gauges.entries[k] in r
    ensures forall s :: s in r ==> exists k :: k in st.gauges.entries && st.gauges.entries[k] == s
  {
    Snapshot(st.gauges)
  }

  /** Forgets every counter and gauge. */
  function Clear(st: Store): (r: Store)
    ensures |GetCounters(r)| == 0 && |GetGauges(r)| == 0
  {
    Empty
  }

  /** `n` default increments of the same counter. */
  function IncrementTimes(st: Store, name: string, labels: LabelSet, n: nat): Store {
    if n == 0 then st else Increment(IncrementTimes(st, name, labels, n - 1), name, labels)
  }

  /** n default increments add n; starting from an empty store the counter reads n. */
  lemma {:induction false} RepeatedIncrement(st: Store, name: string, labels: LabelSet, n: nat)
    ensures var k := IdentityKey(name, labels);
      ValueAt(IncrementTimes(st, name, labels, n).counters, k) == ValueAt(st.counters, k) + n
  {
    if n > 0 {
      RepeatedIncrement(st, name, labels, n - 1);
    }
  }

  /** Increments of one counter accumulate additively, whatever order the labels are given in
      (1 + 1 + 5 gives 7 on a fresh counter). */
  lemma IncrementsAccumulate(st: Store, name: string, a: LabelSet, b: LabelSet, x: int, y: int)
    requires multiset(a) == multiset(b)
    ensures var k := IdentityKey(name, a);
      var r := Increment(Increment(st, name, a, x), name, b, y);
      && ValueAt(r.counters, k) == ValueAt(st.counters, k) + x + y
      && (k !in st.counters.entries ==> r.counters.entries[k].labels == a)
  {
    IdentityIgnoresOrder(name, a, b);
  }

  /** Incrementing a present sample through a reordered label array changes its value only. */
  lemma PermutedIncrementKeepsSample(st: Store, name: string, a: LabelSet, b: LabelSet, v: int)
    requires multiset(a) == multiset(b)
    requires IdentityKey(name, a) in st.counters.entries
    ensures var k := IdentityKey(name, a);
      var old_ := st.counters.entries[k];
      Increment(st, name, b, v).counters.entries[k] == old_.(value := old_.value + v)
  {
    IdentityIgnoresOrder(name, a, b);
  }

  /** A later `gauge` call for the same identity replaces an earlier one completely. */
  lemma GaugeLastWriteWins(st: Store, name: string, a: LabelSet, b: LabelSet, x: int, y: int)
    requires multiset(a) == multiset(b)
    ensures Gauge(Gauge(st, name, x, a), name, y, b) == Gauge(st, name, y, b)
  {
    IdentityIgnoresOrder(name, a, b);
  }

  /** Incrementing a non-negative gauge by d and then decrementing it by d restores it. */
  lemma GaugeUpDownRestores(st: Store, name: string, labels: LabelSet, d: nat)
    requires ValueAt(st.gauges, IdentityKey(name, labels)) >= 0
    ensures var k := IdentityKey(name, labels);
      ValueAt(DecrementGauge(IncrementGauge(st, name, labels, d), name, labels, d).gauges, k)
        == ValueAt(st.gauges, k)
  {
  }
}

=== FILE: metrics_auth.dfy ===
/** Access control for the metrics endpoint: a request passes when its client address is in a
    non-empty allowlist, or when its bearer token matches the configured one. With no token
    configured the token check lets everything through. */
module MetricsAuth {
  import opened Wrappers
  import opened Text
  import opened Gate

  datatype Request = Request(ip: Option<string>, bearer: Option<string>)

  datatype Config = Config(allowedIps: seq<string>, token: Option<string>)

  /** `isIpAllowed`: strict membership in the allowlist; an empty list admits no address. */
  function IpAllowed(c: Config, req: Request): (b: bool)
    ensures |c.allowedIps| == 0 ==> !b
    ensures b <==> exists j :: 0 <= j < |c.allowedIps| && req.ip == Some(c.allowedIps[j])
  {
    |c.allowedIps| > 0 && req.ip.Some? && req.ip.value in c.allowedIps
  }

  /** `isTokenValid`: an empty configured token accepts every request; otherwise a non-empty
      bearer token must equal it. */
  function TokenValid(c: Config, req: Request): (b: bool)
    ensures EmptyValue(c.token) ==> b
    ensures !EmptyValue(c.token) ==> (b <==> req.bearer == c.token)
  {
    if EmptyValue(c.token) then true
    else if EmptyValue(req.bearer) then false
    else c.token.value == req.bearer.value
  }

  /** `isAuthorized`: the address check first, then the token check. */
  function Authorized(c: Config, req: Request): (b: bool)
    ensures IpAllowed(c, req) ==> b
    ensures !EmptyValue(c.token) && EmptyValue(req.bearer) ==> (b <==> IpAllowed(c, req))
  {
    IpAllowed(c, req) || TokenValid(c, req)
  }

  /** `handle`: an unauthorized request is answered 401 `Unauthorized` and goes no further. */
  function Handle(c: Config, req: Request): (g: Gate)
    ensures g.Next? <==> Authorized(c, req)
    ensures g.Stop? ==> g == Stop(401, "Unauthorized")
  {
    if Authorized(c, req) then Next else Stop(401, "Unauthorized")
  }

  /** The whole decision in one statement: a request passes exactly when its address is listed,
      no token is configured, or it carries exactly the configured token. */
  lemma PassesIff(c: Config, req: Request)
    ensures Handle(c, req).Next? <==>
      || (req.ip.Some? && req.ip.value in c.allowedIps)
      || EmptyValue(c.token)
      || (c.token.Some? && req.bearer == c.token)
  {
    if req.ip.Some? && req.ip.value in c.allowedIps {
      assert |c.allowedIps| > 0;
    }
  }

  /** Without a configured token, the check fails open: any request passes. */
  lemma FailsOpen(c: Config, req: Request)
    requires c.token == None || c.token == Some("")
    ensures Handle(c, req) == Next
  {
  }
}

=== FILE: metrics_endpoint.dfy ===
/** The metrics endpoint. Every scrape wipes the in-memory store and fills it afresh: server
    information gauges, then per-app gauges from polling each configured app over the Pusher
    HTTP API, then the up flag and the cross-app totals. The body is the exporter's text.

    The Pusher client is outside the model: what each app's requests returned is an input
    (`Poll`), as are the configuration flags and version strings. */
module MetricsEndpoint {
  import opened Wrappers
  import opened Text
  import opened Labels
  import opened Samples
  import opened MemoryStore
  import Collector
  import opened Channels
  import Exporter

  const Up := "reverb_up"
  const ConnectionsCurrent := "reverb_connections_current"
  const ChannelsCurrent := "reverb_channels_current"
  const AppsConfigured := "reverb_apps_configured"

  const ContentType := "text/plain; version=0.0.4; charset=utf-8"
  const CacheControl := "no-cache, no-store, must-revalidate"

  /** The `/connections` reply: falsy (`None`) or an object whose `connections` may be absent. */
  datatype ConnectionsReply = ConnectionsReply(count: Option<int>)

  /** The `/channels` reply: falsy (`None`) or an object whose `channels` may be unset; the
      channel names are the keys of that object. */
  datatype ChannelsReply = ChannelsReply(names: Option<seq<string>>)

  /** What polling one app produced: an exception from the client, or the two replies (the
      second request is only made when the first reply is truthy). */
  datatype Poll = Threw | Answered(connections: Option<ConnectionsReply>, channels: Option<ChannelsReply>)

  datatype Probe = Probe(appId: string, poll: Poll)

  datatype AppMetrics = AppMetrics(connections: int, channels: Tally)

  /** The channel names a poll listed, or none. */
  function ListedNames(p: Poll): seq<string> {
    if p.Answered? && p.connections.Some? && p.channels.Some? && p.channels.value.names.Some?
    then p.channels.value.names.value
    else []
  }

  /** `fetchAppMetrics` inside `addReverbMetrics`' try block: no metrics when the client threw
      or the connections reply was falsy; otherwise the connection count (0 when absent) and
      the per-type tally of the listed channels. */
  function FetchAppMetrics(p: Poll): (m: Option<AppMetrics>)
    ensures m.Some? <==> p.Answered? && p.connections.Some?
    ensures m.Some? ==> m.value.connections == p.connections.value.count.GetOr(0)
    ensures m.Some? ==> m.value.channels.Total() == |ListedNames(p)|
    ensures m.Some? ==> forall t :: m.value.channels.Get(t) == multiset(Classified(ListedNames(p)))[t]
  {
    match p
    case Threw => None
    case Answered(None, _) => None
    case Answered(Some(reply), _) =>
      var names := ListedNames(p);
      TallyCountsAll(names);
      assert forall t :: TallyOf(names).Get(t) == multiset(Classified(names))[t] by {
        forall t { TallyCountsEachType(names, t); }
      }
      Some(AppMetrics(reply.count.GetOr(0), TallyOf(names)))
  }

  function ConnectionsKey(appId: string): string {
    IdentityKey(Collector.ConnectionsTotal, Collector.AppLabels(appId))
  }

  function ChannelKey(appId: string, t: ChannelType): string {
    IdentityKey(Collector.ChannelsActive, Collector.ChannelLabels(appId, TypeName(t)))
  }

  function ChannelKeys(appId: string, types: seq<ChannelType>): set<string> {
    set t | t in types :: ChannelKey(appId, t)
  }

  /** The two labels of a channel gauge are already in key order, so its key is the name
      followed by the two pairs in the order given. */
  lemma ChannelKeyShape(appId: string, ty: string)
    ensures IdentityKey(Collector.ChannelsActive, Collector.ChannelLabels(appId, ty)) ==
      Collector.ChannelsActive + ":{\"app_id\":\"" + appId + "\",\"type\":\"" + ty + "\"}"
  {
    SortPair(("app_id", appId), ("type", ty));
    DigestPair(("app_id", appId), ("type", ty));
  }

  /** Channel gauges of one app for different types never share a key. */
  lemma ChannelKeysApart(appId: string, t: ChannelType, u: ChannelType)
    requires t != u
    ensures ChannelKey(appId, t) != ChannelKey(appId, u)
  {
    ChannelKeyShape(appId, TypeName(t));
    ChannelKeyShape(appId, TypeName(u));
    TypeNamesDiffer(t, u);
    var head := Collector.ChannelsActive + ":{\"app_id\":\"" + appId + "\",\"type\":\"";
    var a := TypeName(t);
    var b := TypeName(u);
    assert ChannelKey(appId, t) == head + a + "\"}";
    assert ChannelKey(appId, u) == head + b + "\"}";
  }

  lemma UntouchedLookup(a: Table, b: Table, k: string, other: string)
    requires SameExcept(a, b, k) && other != k
    ensures Lookup(a, other) == Lookup(b, other)
  {
  }

  /** The inner loop over the channel counts: one channel gauge per type, set to its count. */
  function ChannelGauges(st: Store, appId: string, tally: Tally, types: seq<ChannelType>): (r: Store)
    requires Distinct(types)
    ensures r.counters == st.counters
    ensures forall t :: t in types ==> ValueAt(r.gauges, ChannelKey(appId, t)) == tally.Get(t)
    ensures forall k :: k !in ChannelKeys(appId, types) ==> Lookup(r.gauges, k) == Lookup(st.gauges, k)
    decreases |types|
  {
    if |types| == 0 then st
    else
      var t0 := types[0];
      var s := Gauge(st, Collector.ChannelsActive, tally.Get(t0), Collector.ChannelLabels(appId, TypeName(t0)));
      assert Distinct(types[1..]) by {
        forall i, j | 0 <= i < j < |types[1..]| ensures types[1..][i] != types[1..][j] {
          assert types[1..][i] == types[i + 1] && types[1..][j] == types[j + 1];
        }
      }
      var r := ChannelGauges(s, appId, tally, types[1..]);
      assert ChannelKey(appId, t0) !in ChannelKeys(appId, types[1..]) by {
        forall t | t in types[1..] ensures ChannelKey(appId, t) != ChannelKey(appId, t0) {
          assert t != t0;
          ChannelKeysApart(appId, t, t0);
        }
      }
      assert forall k :: k !in ChannelKeys(appId, types) ==> Lookup(r.gauges, k) == Lookup(st.gauges, k) by {
        forall k | k !in ChannelKeys(appId, types) ensures Lookup(r.gauges, k) == Lookup(st.gauges, k) {
          assert k != ChannelKey(appId, t0);
          assert k !in ChannelKeys(appId, types[1..]);
          UntouchedLookup(s.gauges, st.gauges, ChannelKey(appId, t0), k);
        }
      }
      r
  }

  /** Keys of the per-app gauges: everything the app loop may write. */
  predicate PerAppKey(k: string) {
    StartsWith(k, Collector.ConnectionsTotal) || StartsWith(k, Collector.ChannelsActive)
  }

  lemma TypesAreDistinct()
    ensures Distinct(Types)
  {
  }

  lemma EveryTypeListed(t: ChannelType)
    ensures t in Types
  {
    assert Types[0] == Public && Types[1] == Private && Types[2] == Presence && Types[3] == Encrypted;
  }

  /** The gauges one answering app contributes: its connection count and one channel count
      per type, in the order public, private, presence, encrypted. No other gauge moves. */
  function AppGauges(st: Store, appId: string, m: AppMetrics): (r: Store)
    ensures r.counters == st.counters
    ensures ValueAt(r.gauges, ConnectionsKey(appId)) == m.connections
    ensures forall t :: ValueAt(r.gauges, ChannelKey(appId, t)) == m.channels.Get(t)
    ensures forall k :: k != ConnectionsKey(appId) && k !in ChannelKeys(appId, Types) ==>
      Lookup(r.gauges, k) == Lookup(st.gauges, k)
  {
    var s := Gauge(st, Collector.ConnectionsTotal, m.connections, Collector.AppLabels(appId));
    TypesAreDistinct();
    assert ConnectionsKey(appId) !in ChannelKeys(appId, Types) by {
      forall t | t in Types ensures ChannelKey(appId, t) != ConnectionsKey(appId) {
        NamesApartKeysApart(Collector.ChannelsActive, Collector.ChannelLabels(appId, TypeName(t)),
          Collector.ConnectionsTotal, Collector.AppLabels(appId), 8);
      }
    }
    forall t ensures t in Types {
      EveryTypeListed(t);
    }
    var r := ChannelGauges(s, appId, m.channels, Types);
    assert forall k :: k != ConnectionsKey(appId) && k !in ChannelKeys(appId, Types) ==>
      Lookup(r.gauges, k) == Lookup(st.gauges, k) by {
      forall k | k != ConnectionsKey(appId) && k !in ChannelKeys(appId, Types)
        ensures Lookup(r.gauges, k) == Lookup(st.gauges, k)
      {
        UntouchedLookup(s.gauges, st.gauges, ConnectionsKey(appId), k);
      }
    }
    r
  }

  lemma KeyStartsWithName(name: string, labels: LabelSet)
    ensures StartsWith(IdentityKey(name, labels), name)
  {
    var k := IdentityKey(name, labels);
    if |labels| > 0 {
      assert k[..|name|] == k[..|name| + 1][..|name|];
    }
  }

  /** An app's gauges only touch per-app keys. */
  lemma AppGaugesStayPerApp(st: Store, appId: string, m: AppMetrics, k: string)
    requires !PerAppKey(k)
    ensures Lookup(AppGauges(st, appId, m).gauges, k) == Lookup(st.gauges, k)
  {
    KeyStartsWithName(Collector.ConnectionsTotal, Collector.AppLabels(appId));
    assert k != ConnectionsKey(appId);
    forall t | t in Types ensures k != ChannelKey(appId, t) {
      KeyStartsWithName(Collector.ChannelsActive, Collector.ChannelLabels(appId, TypeName(t)));
    }
  }

  /** Whether polling this app yielded metrics. */
  predicate AnyAnswered(probes: seq<Probe>) {
    exists i :: 0 <= i < |probes| && FetchAppMetrics(probes[i].poll).Some?
  }

  function AnsweredConnections(p: Poll): int {
    match FetchAppMetrics(p)
    case Some(m) => m.connections
    case None => 0
  }

  /** The connections reported by every app that answered. */
  function SumConnections(probes: seq<Probe>): int {
    if |probes| == 0 then 0 else AnsweredConnections(probes[0].poll) + SumConnections(probes[1..])
  }

  /** Every channel name listed by an app that answered, app after app. */
  function ListedChannels(probes: seq<Probe>): seq<string> {
    if |probes| == 0 then [] else ListedNames(probes[0].poll) + ListedChannels(probes[1..])
  }

  lemma {:induction false} SumConnectionsSnoc(a: seq<Probe>, p: Probe)
    ensures SumConnections(a + [p]) == SumConnections(a) + AnsweredConnections(p.poll)
  {
    if |a| > 0 {
      assert (a + [p])[1..] == a[1..] + [p];
      SumConnectionsSnoc(a[1..], p);
    } else {
      assert (a + [p])[1..] == [];
    }
  }

  lemma {:induction false} ListedChannelsSnoc(a: seq<Probe>, p: Probe)
    ensures ListedChannels(a + [p]) == ListedChannels(a) + ListedNames(p.poll)
  {
    if |a| > 0 {
      assert (a + [p])[1..] == a[1..] + [p];
      ListedChannelsSnoc(a[1..], p);
    } else {
      assert (a + [p])[1..] == [];
    }
  }

  lemma AnyAnsweredSnoc(init: seq<Probe>, last: Probe)
    ensures AnyAnswered(init + [last]) <==> AnyAnswered(init) || FetchAppMetrics(last.poll).Some?
  {
    var probes := init + [last];
    if AnyAnswered(init) {
      var i :| 0 <= i < |init| && FetchAppMetrics(init[i].poll).Some?;
      assert probes[i] == init[i];
    }
    if FetchAppMetrics(last.poll).Some? {
      assert probes[|init|] == last;
    }
    if AnyAnswered(probes) && !FetchAppMetrics(last.poll).Some? {
      var i :| 0 <= i < |probes| && FetchAppMetrics(probes[i].poll).Some?;
      assert init[i] == probes[i];
    }
  }

  /** The state of the loop over the apps. */
  datatype Scan = Scan(store: Store, up: bool, connections: int, channels: nat)

  /** One iteration: an app that yields no metrics is skipped; otherwise its gauges are
      written, the flag is raised and its numbers are added to the totals. */
  function Step(s: Scan, p: Probe): (r: Scan)
    ensures FetchAppMetrics(p.poll).None? ==> r == s
    ensures FetchAppMetrics(p.poll).Some? ==>
      && r.up
      && r.connections == s.connections + FetchAppMetrics(p.poll).value.connections
      && r.channels == s.channels + |ListedNames(p.poll)|
      && r.store.counters == s.store.counters
    ensures forall k :: !PerAppKey(k) ==> Lookup(r.store.gauges, k) == Lookup(s.store.gauges, k)
  {
    match FetchAppMetrics(p.poll)
    case None => s
    case Some(m) =>
      var r := Scan(AppGauges(s.store, p.appId, m), true, s.connections + m.connections, s.channels + m.channels.Total());
      assert forall k :: !PerAppKey(k) ==> Lookup(r.store.gauges, k) == Lookup(s.store.gauges, k) by {
        forall k | !PerAppKey(k) ensures Lookup(r.store.gauges, k) == Lookup(s.store.gauges, k) {
          AppGaugesStayPerApp(s.store, p.appId, m, k);
        }
      }
      r
  }

  /** The loop of `addReverbMetrics` over the apps in order; an app whose poll threw or whose
      connections reply was falsy is skipped. */
  function ScanAll(st: Store, probes: seq<Probe>): (r: Scan)
    ensures r.store.counters == st.counters
    decreases |probes|
  {
    if |probes| == 0 then Scan(st, false, 0, 0)
    else Step(ScanAll(st, probes[..|probes| - 1]), probes[|probes| - 1])
  }

  /** After the loop the flag records whether any app answered. */
  lemma {:induction false} ScanAllFlag(st: Store, probes: seq<Probe>)
    ensures ScanAll(st, probes).up <==> AnyAnswered(probes)
    decreases |probes|
  {
    if |probes| > 0 {
      var init := probes[..|probes| - 1];
      var last := probes[|probes| - 1];
      assert probes == init + [last];
      ScanAllFlag(st, init);
      AnyAnsweredSnoc(init, last);
    }
  }

  /** After the loop the totals sum the answering apps' connections and listed channels. */
  lemma {:induction false} ScanAllTotals(st: Store, probes: seq<Probe>)
    ensures ScanAll(st, probes).connections == SumConnections(probes)
    ensures ScanAll(st, probes).channels == |ListedChannels(probes)|
    decreases |probes|
  {
    if |probes| > 0 {
      var init := probes[..|probes| - 1];
      var last := probes[|probes| - 1];
      assert probes == init + [last];
      ScanAllTotals(st, init);
      SumConnectionsSnoc(init, last);
      ListedChannelsSnoc(init, last);
    }
  }

  /** The loop leaves the counters alone, writes only per-app gauges, and writes nothing at
      all when no app answered. */
  lemma {:induction false} ScanAllKeepsOthers(st: Store, probes: seq<Probe>)
    ensures ScanAll(st, probes).store.counters == st.counters
    ensures !ScanAll(st, probes).up ==> ScanAll(st, probes).store == st
    ensures forall k :: !PerAppKey(k) ==> Lookup(ScanAll(st, probes).store.gauges, k) == Lookup(st.gauges, k)
    decreases |probes|
  {
    if |probes| > 0 {
      ScanAllKeepsOthers(st, probes[..|probes| - 1]);
    }
  }

  /** The three gauges written after the app loop have distinct names. */
  lemma ScalarNamesApart()
    ensures Up != ConnectionsCurrent && Up != ChannelsCurrent && ConnectionsCurrent != ChannelsCurrent
  {
    assert Up[7] != ConnectionsCurrent[7] && Up[7] != ChannelsCurrent[7];
    assert ConnectionsCurrent[8] != ChannelsCurrent[8];
  }

  /** The two cross-app totals, written when some app answered. */
  function WriteTotals(st: Store, connections: int, channels: nat): (r: Store)
    ensures r.counters == st.counters
    ensures Lookup(r.gauges, ConnectionsCurrent) == Some(Sample(ConnectionsCurrent, [], connections))
    ensures Lookup(r.gauges, ChannelsCurrent) == Some(Sample(ChannelsCurrent, [], channels))
    ensures forall k :: k != ConnectionsCurrent && k != ChannelsCurrent ==> Lookup(r.gauges, k) == Lookup(st.gauges, k)
  {
    var withConnections := Gauge(st, ConnectionsCurrent, connections);
    var r := Gauge(withConnections, ChannelsCurrent, channels);
    ScalarNamesApart();
    UntouchedLookup(r.gauges, withConnections.gauges, ChannelsCurrent, ConnectionsCurrent);
    r
  }

  /** `addReverbMetrics`: the per-app gauges, then the up flag (1 exactly when some app
      answered), then, only when up, the total connections and the total listed channels. */
  function AddReverbMetrics(st: Store, probes: seq<Probe>): (r: Store)
    ensures r.counters == st.counters
    ensures Lookup(r.gauges, Up) == Some(Sample(Up, [], if AnyAnswered(probes) then 1 else 0))
    ensures AnyAnswered(probes) ==>
      && Lookup(r.gauges, ConnectionsCurrent) == Some(Sample(ConnectionsCurrent, [], SumConnections(probes)))
      && Lookup(r.gauges, ChannelsCurrent) == Some(Sample(ChannelsCurrent, [], |ListedChannels(probes)|))
    ensures !AnyAnswered(probes) ==> SameExcept(r.gauges, st.gauges, Up)
    ensures forall k :: !PerAppKey(k) && k != Up && k != ConnectionsCurrent && k != ChannelsCurrent ==>
      Lookup(r.gauges, k) == Lookup(st.gauges, k)
  {
    var s := ScanAll(st, probes);
    ScanAllFlag(st, probes);
    ScanAllTotals(st, probes);
    ScanAllKeepsOthers(st, probes);
    var flagged := Gauge(s.store, Up, if s.up then 1 else 0);
    if s.up then
      ScalarNamesApart();
      WriteTotals(flagged, s.connections, s.channels)
    else
      flagged
  }

  function ScalingMode(scalingEnabled: bool): (mode: string)
    ensures mode == "cluster" <==> scalingEnabled
    ensures mode == "standalone" <==> !scalingEnabled
  {
    if scalingEnabled then "cluster" else "standalone"
  }

  function ServerInfoLabels(version: string, phpVersion: string, scalingEnabled: bool): LabelSet {
    [("version", version), ("php_version", phpVersion), ("scaling_mode", ScalingMode(scalingEnabled))]
  }

  /** `addServerInfoMetrics`: the info gauge at 1 with the framework version, the PHP version and
      the scaling mode as labels, and the number of configured apps. Nothing else moves. */
  function AddServerInfoMetrics(st: Store, scalingEnabled: bool, appCount: nat, version: string, phpVersion: string): (r: Store)
    ensures r.counters == st.counters
    ensures var labels := ServerInfoLabels(version, phpVersion, scalingEnabled);
      Lookup(r.gauges, IdentityKey(Collector.ServerInfo, labels)) == Some(Sample(Collector.ServerInfo, labels, 1))
    ensures Lookup(r.gauges, AppsConfigured) == Some(Sample(AppsConfigured, [], appCount))
    ensures forall k :: k != AppsConfigured && k != IdentityKey(Collector.ServerInfo, ServerInfoLabels(version, phpVersion, scalingEnabled)) ==>
      Lookup(r.gauges, k) == Lookup(st.gauges, k)
  {
    var labels := ServerInfoLabels(version, phpVersion, scalingEnabled);
    var s := Gauge(st, Collector.ServerInfo, 1, labels);
    var r := Gauge(s, AppsConfigured, appCount);
    NamesApartKeysApart(Collector.ServerInfo, labels, AppsConfigured, [], 7);
    UntouchedLookup(r.gauges, s.gauges, AppsConfigured, IdentityKey(Collector.ServerInfo, labels));
    r
  }

  /** The store an enabled scrape leaves behind. It takes no prior store: the scrape starts by
      clearing it, so nothing recorded before survives. */
  function Scrape(scalingEnabled: bool, probes: seq<Probe>, version: string, phpVersion: string): (r: Store)
    ensures |GetCounters(r)| == 0
    ensures Lookup(r.gauges, AppsConfigured) == Some(Sample(AppsConfigured, [], |probes|))
    ensures Lookup(r.gauges, Up) == Some(Sample(Up, [], if AnyAnswered(probes) then 1 else 0))
    ensures AnyAnswered(probes) ==>
      && Lookup(r.gauges, ConnectionsCurrent) == Some(Sample(ConnectionsCurrent, [], SumConnections(probes)))
      && Lookup(r.gauges, ChannelsCurrent) == Some(Sample(ChannelsCurrent, [], |ListedChannels(probes)|))
    ensures !AnyAnswered(probes) ==> Lookup(r.gauges, ConnectionsCurrent).None? && Lookup(r.gauges, ChannelsCurrent).None?
  {
    var info := AddServerInfoMetrics(Empty, scalingEnabled, |probes|, version, phpVersion);
    var filled := AddReverbMetrics(info, probes);
    assert filled.counters == Empty.counters;
    assert |GetCounters(filled)| == 0;
    AppsConfiguredSurvives(info, probes);
    assert Lookup(filled.gauges, AppsConfigured) == Some(Sample(AppsConfigured, [], |probes|));
    DownLeavesNoTotals(info, probes, scalingEnabled, version, phpVersion);
    filled
  }

  /** The apps-configured gauge is neither a per-app gauge nor one of the gauges written after
      the app loop. */
  lemma AppsConfiguredApart()
    ensures !PerAppKey(AppsConfigured)
    ensures AppsConfigured != Up && AppsConfigured != ConnectionsCurrent && AppsConfigured != ChannelsCurrent
  {
    assert AppsConfigured[7] != Collector.ConnectionsTotal[7];
    assert AppsConfigured[7] != Collector.ChannelsActive[7];
    assert AppsConfigured[7] != Up[7] && AppsConfigured[7] != ConnectionsCurrent[7] && AppsConfigured[7] != ChannelsCurrent[7];
  }

  lemma AppsConfiguredSurvives(info: Store, probes: seq<Probe>)
    ensures Lookup(AddReverbMetrics(info, probes).gauges, AppsConfigured) == Lookup(info.gauges, AppsConfigured)
  {
    AppsConfiguredApart();
  }

  /** The totals are neither the info gauge nor the apps-configured gauge. */
  lemma TotalsNotInServerInfo(version: string, phpVersion: string, scalingEnabled: bool)
    ensures var info := IdentityKey(Collector.ServerInfo, ServerInfoLabels(version, phpVersion, scalingEnabled));
      ConnectionsCurrent != info && ChannelsCurrent != info
    ensures ConnectionsCurrent != AppsConfigured && ChannelsCurrent != AppsConfigured
  {
    var labels := ServerInfoLabels(version, phpVersion, scalingEnabled);
    NamesApartKeysApart(ConnectionsCurrent, [], Collector.ServerInfo, labels, 7);
    NamesApartKeysApart(ChannelsCurrent, [], Collector.ServerInfo, labels, 7);
    AppsConfiguredApart();
  }

  lemma DownLeavesNoTotals(info: Store, probes: seq<Probe>, scalingEnabled: bool, version: string, phpVersion: string)
    requires info == AddServerInfoMetrics(Empty, scalingEnabled, |probes|, version, phpVersion)
    ensures !AnyAnswered(probes) ==>
      Lookup(AddReverbMetrics(info, probes).gauges, ConnectionsCurrent).None? &&
      Lookup(AddReverbMetrics(info, probes).gauges, ChannelsCurrent).None?
  {
    if AnyAnswered(probes) {
      return;
    }
    var filled := AddReverbMetrics(info, probes);
    TotalsNotInServerInfo(version, phpVersion, scalingEnabled);
    ScalarNamesApart();
    UntouchedLookup(filled.gauges, info.gauges, Up, ConnectionsCurrent);
    UntouchedLookup(filled.gauges, info.gauges, Up, ChannelsCurrent);
  }

  datatype Response = Response(status: int, body: string, headers: seq<(string, string)>, store: Store)

  /** `__invoke`. Disabled: 503 with a fixed message and the store untouched. Enabled: the store
      is cleared first. When listing the apps then raises (`listed` is None: the registry could
      not be refreshed), the request ends in a 500 and the store stays empty. Otherwise it is
      refilled, so the reply holds no counters and does not depend on what the store held
      before; the body is the exporter's text for it, which is never the no-metrics comment
      because the server gauges are always present. */
  function Invoke(enabled: bool, st: Store, scalingEnabled: bool, listed: Option<seq<Probe>>, version: string, phpVersion: string): (r: Response)
    ensures !enabled ==> r.status == 503 && r.body == "Metrics disabled" && r.store == st
    ensures enabled && listed.None? ==> r.status == 500 && |GetCounters(r.store)| == 0 && |GetGauges(r.store)| == 0
    ensures enabled && listed.Some? ==> r.status == 200 && r.store == Scrape(scalingEnabled, listed.value, version, phpVersion)
    ensures enabled && listed.Some? ==> r.body == Exporter.ExportStore(r.store) && StartsWith(r.body, "# HELP ")
    ensures enabled && listed.Some? ==> ("Content-Type", ContentType) in r.headers && ("Cache-Control", CacheControl) in r.headers
  {
    if !enabled then Response(503, "Metrics disabled", [], st)
    else
      var cleared := Clear(st);
      match listed
      case None => Response(500, "", [], cleared)
      case Some(probes) =>
        var filled := AddReverbMetrics(AddServerInfoMetrics(cleared, scalingEnabled, |probes|, version, phpVersion), probes);
        assert filled == Scrape(scalingEnabled, probes, version, phpVersion);
        assert Up in filled.gauges.entries;
        Response(200, Exporter.ExportStore(filled), [("Content-Type", ContentType), ("Cache-Control", CacheControl)], filled)
  }
}

=== FILE: redis_store.dfy ===
/** The shared metrics store on Redis, with Redis itself modelled as plain maps: numeric string
    values, JSON label records and key sets. A single sequential client is modelled.

    Keys: `prefix + type + ":" + name + ":" + hash` for a value, the same plus `":labels"` for
    its label record, and `prefix + type + "_keys"` for the set tracking a kind's value keys.
    The lemmas at the end show that these three families never collide, which is why keeping
    their values in separate maps loses nothing. */
module RedisStore {
  import opened Wrappers
  import opened Text
  import opened Labels
  import opened Samples

  datatype Kind = CounterKind | GaugeKind

  function TypeName(k: Kind): string {
    match k
    case CounterKind => "counter"
    case GaugeKind => "gauge"
  }

  /** The decoded `{labels, name}` JSON stored beside each value. */
  datatype LabelRecord = LabelRecord(labels: LabelSet, name: string)

  datatype Db = Db(values: map<string, int>, records: map<string, LabelRecord>, sets: map<string, set<string>>)

  const EmptyDb := Db(map[], map[], map[])

  /** `buildLabelHash`: "default" for no labels, else the digest of the key-sorted labels. */
  function LabelHash(labels: LabelSet): (h: string)
    ensures |h| > 0 && (h[|h| - 1] == 't' || h[|h| - 1] == '}')
  {
    if |labels| == 0 then "default" else Digest(SortByKey(labels))
  }

  function ValueKey(prefix: string, kind: Kind, name: string, labels: LabelSet): string {
    prefix + TypeName(kind) + ":" + name + ":" + LabelHash(labels)
  }

  function LabelsKey(prefix: string, kind: Kind, name: string, labels: LabelSet): string {
    ValueKey(prefix, kind, name, labels) + ":labels"
  }

  function TrackerKey(prefix: string, kind: Kind): string {
    prefix + TypeName(kind) + "_keys"
  }

  /** `smembers`, with an absent set read as empty. */
  function Members(db: Db, key: string): set<string> {
    if key in db.sets then db.sets[key] else {}
  }

  /** `get` of a numeric key, with an absent key read as 0. */
  function NumberAt(db: Db, key: string): int {
    if key in db.values then db.values[key] else 0
  }

  /** The three commands every writer ends with: the value (`set`, `incrby` or `incrbyfloat`),
      the `{labels, name}` record (`set`) and the tracker entry (`sadd`). */
  function Write(db: Db, prefix: string, kind: Kind, name: string, labels: LabelSet, v: int): Db {
    var vk := ValueKey(prefix, kind, name, labels);
    var tk := TrackerKey(prefix, kind);
    Db(db.values[vk := v],
       db.records[LabelsKey(prefix, kind, name, labels) := LabelRecord(labels, name)],
       db.sets[tk := Members(db, tk) + {vk}])
  }

  /** The sample read back for a tracked key: a missing label record gives no labels and an
      empty name. */
  function SampleAt(db: Db, key: string): (s: Sample)
    requires key in db.values
    ensures s.value == db.values[key]
    ensures key + ":labels" in db.records ==>
      s.name == db.records[key + ":labels"].name && s.labels == db.records[key + ":labels"].labels
    ensures key + ":labels" !in db.records ==> s.name == "" && s.labels == []
  {
    var lk := key + ":labels";
    if lk in db.records then Sample(db.records[lk].name, db.records[lk].labels, db.values[key])
    else Sample("", [], db.values[key])
  }

  /** `getMetrics`: the tracked keys of one kind that hold a value, each with its value and
      the name and labels of its record, or `""` and no labels when the record is missing. */
  function GetMetrics(db: Db, prefix: string, kind: Kind): (m: map<string, Sample>)
    ensures forall k :: k in m <==> k in Members(db, TrackerKey(prefix, kind)) && k in db.values
    ensures forall k :: k in m ==> m[k].value == db.values[k]
    ensures forall k :: k in m && k + ":labels" in db.records ==>
      m[k].name == db.records[k + ":labels"].name && m[k].labels == db.records[k + ":labels"].labels
    ensures forall k :: k in m && k + ":labels" !in db.records ==> m[k].name == "" && m[k].labels == []
  {
    map k | k in Members(db, TrackerKey(prefix, kind)) && k in db.values :: SampleAt(db, k)
  }

  function GetCounters(db: Db, prefix: string): map<string, Sample> {
    GetMetrics(db, prefix, CounterKind)
  }

  function GetGauges(db: Db, prefix: string): map<string, Sample> {
    GetMetrics(db, prefix, GaugeKind)
  }

  /** Two listings that agree at every key but `key`. */
  ghost predicate SameListingExcept(after: map<string, Sample>, before: map<string, Sample>, key: string) {
    forall k :: k != key ==> (k in after <==> k in before) && (k in after ==> after[k] == before[k])
  }

  /** Every key a tracker set holds is a value key of the tracker's own kind. The writers keep
      this, and it is what keeps a counter write out of the gauge listing. */
  ghost predicate Sound(db: Db, prefix: string) {
    forall kind: Kind, k :: k in Members(db, TrackerKey(prefix, kind)) ==> StartsWith(k, prefix + TypeName(kind) + ":")
  }

  lemma EmptyIsSound(prefix: string)
    ensures Sound(EmptyDb, prefix)
  {
  }

  lemma SuffixCancels(a: string, b: string, suffix: string)
    requires a + suffix == b + suffix
    ensures a == b
  {
    assert |a| == |b|;
    assert a == (a + suffix)[..|a|];
    assert b == (b + suffix)[..|b|];
  }

  lemma TrackersApart(prefix: string, a: Kind, b: Kind)
    requires a != b
    ensures TrackerKey(prefix, a) != TrackerKey(prefix, b)
  {
    assert TrackerKey(prefix, a)[|prefix|] == TypeName(a)[0];
    assert TrackerKey(prefix, b)[|prefix|] == TypeName(b)[0];
  }

  /** A write is read back through `getMetrics` of its kind as the sample it wrote, and no other
      sample of that kind changes. */
  lemma {:induction false} WriteReadBack(db: Db, prefix: string, kind: Kind, name: string, labels: LabelSet, v: int)
    ensures var vk := ValueKey(prefix, kind, name, labels);
      var after := GetMetrics(Write(db, prefix, kind, name, labels, v), prefix, kind);
      && vk in after && after[vk] == Sample(name, labels, v)
      && SameListingExcept(after, GetMetrics(db, prefix, kind), vk)
  {
    var vk := ValueKey(prefix, kind, name, labels);
    var r := Write(db, prefix, kind, name, labels, v);
    var after := GetMetrics(r, prefix, kind);
    var before := GetMetrics(db, prefix, kind);
    assert vk + ":labels" in r.records;
    forall k | k != vk
      ensures (k in after <==> k in before) && (k in after ==> after[k] == before[k])
    {
      if k + ":labels" == vk + ":labels" {
        SuffixCancels(k, vk, ":labels");
      }
    }
  }

  /** In a sound store, a write of one kind leaves the listing of the other kind as it was, and
      the store stays sound. */
  lemma {:induction false} WriteKeepsSound(db: Db, prefix: string, kind: Kind, name: string, labels: LabelSet, v: int)
    ensures Sound(db, prefix) ==> Sound(Write(db, prefix, kind, name, labels, v), prefix)
  {
    if Sound(db, prefix) {
      var r := Write(db, prefix, kind, name, labels, v);
      KeyStartsWithType(prefix, kind, name, labels);
      forall t: Kind, k | k in Members(r, TrackerKey(prefix, t))
        ensures StartsWith(k, prefix + TypeName(t) + ":")
      {
        if t != kind {
          TrackersApart(prefix, t, kind);
        }
      }
    }
  }

  /** In a sound store, a key tracked for one kind is never a value key of the other. */
  lemma TrackedKeyOfOtherKind(db: Db, prefix: string, kind: Kind, name: string, labels: LabelSet, other: Kind, k: string)
    requires Sound(db, prefix) && other != kind
    requires k in Members(db, TrackerKey(prefix, other))
    ensures k != ValueKey(prefix, kind, name, labels)
  {
    var vk := ValueKey(prefix, kind, name, labels);
    KeyStartsWithType(prefix, kind, name, labels);
    assert StartsWith(k, prefix + TypeName(other) + ":");
    assert k[|prefix|] == (prefix + TypeName(other) + ":")[|prefix|] == TypeName(other)[0];
    assert vk[|prefix|] == (prefix + TypeName(kind) + ":")[|prefix|] == TypeName(kind)[0];
  }

  lemma {:induction false} WriteLeavesOtherKind(db: Db, prefix: string, kind: Kind, name: string, labels: LabelSet, v: int, other: Kind)
    ensures Sound(db, prefix) && other != kind ==>
      GetMetrics(Write(db, prefix, kind, name, labels, v), prefix, other) == GetMetrics(db, prefix, other)
  {
    if Sound(db, prefix) && other != kind {
      var vk := ValueKey(prefix, kind, name, labels);
      var r := Write(db, prefix, kind, name, labels, v);
      TrackersApart(prefix, other, kind);
      var ok := TrackerKey(prefix, other);
      assert Members(r, ok) == Members(db, ok);
      var after := GetMetrics(r, prefix, other);
      var before := GetMetrics(db, prefix, other);
      forall k | k in Members(db, ok)
        ensures k in after <==> k in before
        ensures k in after ==> after[k] == before[k]
      {
        TrackedKeyOfOtherKind(db, prefix, kind, name, labels, other, k);
        if k + ":labels" == vk + ":labels" {
          SuffixCancels(k, vk, ":labels");
        }
      }
      assert after.Keys == before.Keys;
    }
  }

  /** `increment`: `incrby` on the counter (absent counts as 0), then the label record and the
      tracker. Read back, the counter shows the sum with the name and the labels of this latest
      call (the record is rewritten on every call); no other counter changes, and in a sound
      store no gauge either. */
  function Increment(db: Db, prefix: string, name: string, labels: LabelSet := [], value: int := 1): (r: Db)
    ensures var vk := ValueKey(prefix, CounterKind, name, labels);
      var before := GetCounters(db, prefix);
      var after := GetCounters(r, prefix);
      && vk in after && after[vk] == Sample(name, labels, NumberAt(db, vk) + value)
      && SameListingExcept(after, before, vk)
    ensures Sound(db, prefix) ==> Sound(r, prefix) && GetGauges(r, prefix) == GetGauges(db, prefix)
  {
    var v := NumberAt(db, ValueKey(prefix, CounterKind, name, labels)) + value;
    WriteReadBack(db, prefix, CounterKind, name, labels, v);
    WriteKeepsSound(db, prefix, CounterKind, name, labels, v);
    WriteLeavesOtherKind(db, prefix, CounterKind, name, labels, v, GaugeKind);
    Write(db, prefix, CounterKind, name, labels, v)
  }

  /** `gauge`: `set` of the absolute value, then the label record and the tracker. Read back,
      the gauge shows exactly the given value, name and labels whatever it held; no other gauge
      changes, and in a sound store no counter either. */
  function Gauge(db: Db, prefix: string, name: string, value: int, labels: LabelSet := []): (r: Db)
    ensures var vk := ValueKey(prefix, GaugeKind, name, labels);
      var after := GetGauges(r, prefix);
      && vk in after && after[vk] == Sample(name, labels, value)
      && SameListingExcept(after, GetGauges(db, prefix), vk)
    ensures Sound(db, prefix) ==> Sound(r, prefix) && GetCounters(r, prefix) == GetCounters(db, prefix)
  {
    WriteReadBack(db, prefix, GaugeKind, name, labels, value);
    WriteKeepsSound(db, prefix, GaugeKind, name, labels, value);
    WriteLeavesOtherKind(db, prefix, GaugeKind, name, labels, value, CounterKind);
    Write(db, prefix, GaugeKind, name, labels, value)
  }

  /** `incrementGauge`: `incrbyfloat` on the gauge (absent counts as 0), then the label record
      and the tracker. Read back, a listed gauge grows by the delta; no other gauge changes, and
      in a sound store no counter either. */
  function IncrementGauge(db: Db, prefix: string, name: string, labels: LabelSet := [], value: int := 1): (r: Db)
    ensures var vk := ValueKey(prefix, GaugeKind, name, labels);
      var before := GetGauges(db, prefix);
      var after := GetGauges(r, prefix);
      && vk in after && after[vk] == Sample(name, labels, NumberAt(db, vk) + value)
      && SameListingExcept(after, before, vk)
    ensures Sound(db, prefix) ==> Sound(r, prefix) && GetCounters(r, prefix) == GetCounters(db, prefix)
  {
    var v := NumberAt(db, ValueKey(prefix, GaugeKind, name, labels)) + value;
    WriteReadBack(db, prefix, GaugeKind, name, labels, v);
    WriteKeepsSound(db, prefix, GaugeKind, name, labels, v);
    WriteLeavesOtherKind(db, prefix, GaugeKind, name, labels, v, CounterKind);
    Write(db, prefix, GaugeKind, name, labels, v)
  }

  /** `decrementGauge`: reads the current gauge (absent counts as 0) and stores
      `max(0, current - value)`. Read back, the gauge is never negative, and a listed gauge that
      stays positive drops by exactly the delta; no other gauge changes, and in a sound store no
      counter either. */
  function DecrementGauge(db: Db, prefix: string, name: string, labels: LabelSet := [], value: int := 1): (r: Db)
    ensures var vk := ValueKey(prefix, GaugeKind, name, labels);
      var before := GetGauges(db, prefix);
      var after := GetGauges(r, prefix);
      && vk in after && after[vk].name == name && after[vk].labels == labels
      && after[vk].value == (if NumberAt(db, vk) - value > 0 then NumberAt(db, vk) - value else 0)
      && after[vk].value >= 0
      && (vk in before && before[vk].value - value > 0 ==> after[vk].value == before[vk].value - value)
      && SameListingExcept(after, before, vk)
    ensures Sound(db, prefix) ==> Sound(r, prefix) && GetCounters(r, prefix) == GetCounters(db, prefix)
  {
    var vk := ValueKey(prefix, GaugeKind, name, labels);
    var current := NumberAt(db, vk);
    var v := if current - value > 0 then current - value else 0;
    WriteReadBack(db, prefix, GaugeKind, name, labels, v);
    WriteKeepsSound(db, prefix, GaugeKind, name, labels, v);
    WriteLeavesOtherKind(db, prefix, GaugeKind, name, labels, v, CounterKind);
    Write(db, prefix, GaugeKind, name, labels, v)
  }

  /** The keys `clear` deletes: every tracked key, its label record, and both trackers. */
  function ClearedKeys(db: Db, prefix: string): set<string> {
    var tracked := Members(db, TrackerKey(prefix, CounterKind)) + Members(db, TrackerKey(prefix, GaugeKind));
    tracked + (set k | k in tracked :: k + ":labels") + {TrackerKey(prefix, CounterKind), TrackerKey(prefix, GaugeKind)}
  }

  /** `clear`: `del` of every tracked key and its label record, then of both trackers. Nothing
      else is touched, and afterwards neither kind reports any sample. */
  function Clear(db: Db, prefix: string): (r: Db)
    ensures |GetCounters(r, prefix)| == 0 && |GetGauges(r, prefix)| == 0
    ensures forall k :: k in Members(db, TrackerKey(prefix, CounterKind)) ==> k !in r.values && k + ":labels" !in r.records
    ensures forall k :: k in Members(db, TrackerKey(prefix, GaugeKind)) ==> k !in r.values && k + ":labels" !in r.records
    ensures TrackerKey(prefix, CounterKind) !in r.sets && TrackerKey(prefix, GaugeKind) !in r.sets
    ensures forall k :: k in ClearedKeys(db, prefix) ==> k !in r.values && k !in r.records && k !in r.sets
    ensures forall k :: k !in ClearedKeys(db, prefix) && k in db.values ==> k in r.values && r.values[k] == db.values[k]
    ensures forall k :: k !in ClearedKeys(db, prefix) && k in db.records ==> k in r.records && r.records[k] == db.records[k]
    ensures forall k :: k !in ClearedKeys(db, prefix) && k in db.sets ==> k in r.sets && r.sets[k] == db.sets[k]
  {
    var gone := ClearedKeys(db, prefix);
    var r := Db(db.values - gone, db.records - gone, db.sets - gone);
    assert GetCounters(r, prefix) == map[];
    assert GetGauges(r, prefix) == map[];
    r
  }

  /** Reordered label arrays address the same Redis key. */
  lemma KeyIgnoresOrder(prefix: string, kind: Kind, name: string, a: LabelSet, b: LabelSet)
    requires multiset(a) == multiset(b)
    ensures ValueKey(prefix, kind, name, a) == ValueKey(prefix, kind, name, b)
  {
    SortIgnoresOrder(a, b);
    if |a| == 0 {
      assert |multiset(b)| == 0;
    } else {
      assert |multiset(b)| > 0;
    }
  }

  lemma KeyStartsWithType(prefix: string, kind: Kind, name: string, labels: LabelSet)
    ensures var k := ValueKey(prefix, kind, name, labels);
      |k| > |prefix| + |TypeName(kind)| &&
      k[..|prefix| + |TypeName(kind)| + 1] == prefix + TypeName(kind) + ":"
  {
    var k := ValueKey(prefix, kind, name, labels);
    assert k == (prefix + TypeName(kind) + ":") + (name + ":" + LabelHash(labels));
  }

  /** A counter and a gauge never share a value key. */
  lemma KindsNeverShareKey(prefix: string, n1: string, l1: LabelSet, n2: string, l2: LabelSet)
    ensures ValueKey(prefix, CounterKind, n1, l1) != ValueKey(prefix, GaugeKind, n2, l2)
  {
    KeyStartsWithType(prefix, CounterKind, n1, l1);
    KeyStartsWithType(prefix, GaugeKind, n2, l2);
    var a := ValueKey(prefix, CounterKind, n1, l1);
    var b := ValueKey(prefix, GaugeKind, n2, l2);
    assert a[|prefix|] == 'c';
    assert b[|prefix|] == 'g';
  }

  /** A value key is never a label-record key: the former ends in the hash, the latter in "s". */
  lemma ValueKeyIsNotLabelsKey(prefix: string, k1: Kind, n1: string, l1: LabelSet, k2: Kind, n2: string, l2: LabelSet)
    ensures ValueKey(prefix, k1, n1, l1) != LabelsKey(prefix, k2, n2, l2)
  {
    var a := ValueKey(prefix, k1, n1, l1);
    var b := LabelsKey(prefix, k2, n2, l2);
    var h := LabelHash(l1);
    assert a == (prefix + TypeName(k1) + ":" + n1 + ":") + h;
    assert a[|a| - 1] == h[|h| - 1];
    assert b[|b| - 1] == 's';
  }

  /** A tracker key is never a value key nor a label-record key. */
  lemma TrackerKeyIsDistinct(prefix: string, t: Kind, k: Kind, n: string, l: LabelSet)
    ensures TrackerKey(prefix, t) != ValueKey(prefix, k, n, l)
    ensures TrackerKey(prefix, t) != LabelsKey(prefix, k, n, l)
  {
    KeyStartsWithType(prefix, k, n, l);
    var tk := TrackerKey(prefix, t);
    var vk := ValueKey(prefix, k, n, l);
    var lk := LabelsKey(prefix, k, n, l);
    assert tk == prefix + (TypeName(t) + "_keys");
    assert lk[..|vk|] == vk;
    var i := |prefix| + |TypeName(k)|;
    if t == k {
      assert tk[i] == '_';
      assert vk[i] == ':';
      assert lk[i] == ':';
    } else {
      assert tk[|prefix|] != vk[|prefix|];
      assert lk[|prefix|] == vk[|prefix|];
    }
  }
}

=== FILE: samples.dfy ===
/** Metric samples and the insertion-ordered tables that hold them.

    A store keeps each kind of metric in a PHP array keyed by identity key. Such an array is a
    finite map that also remembers insertion order: assigning to a present key keeps its
    position, assigning to a new key appends it. */
module Samples {
  import opened Wrappers
  import opened Labels

  /** One stored sample: the metric name, the labels as first given, and the value. */
  datatype Sample = Sample(name: string, labels: LabelSet, value: int)

  predicate Distinct<T(==)>(s: seq<T>) {
    forall i, j :: 0 <= i < j < |s| ==> s[i] != s[j]
  }

  datatype RawTable = RawTable(order: seq<string>, entries: map<string, Sample>) {
    /** The order lists every key exactly once. */
    predicate Valid() {
      Distinct(order) && entries.Keys == set k | k in order
    }
  }

  type Table = t: RawTable | t.Valid() witness RawTable([], map[])

  const EmptyTable: Table := RawTable([], map[])

  function Lookup(t: Table, k: string): Option<Sample> {
    if k in t.entries then Some(t.entries[k]) else None
  }

  /** The stored value, with an absent sample read as 0 (PHP creates it at 0 before updating). */
  function ValueAt(t: Table, k: string): int {
    if k in t.entries then t.entries[k].value else 0
  }

  /** PHP `$table[$k] = $s`. */
  function Put(t: Table, k: string, s: Sample): (r: Table)
    ensures r.entries == t.entries[k := s]
    ensures k in t.entries ==> r.order == t.order
    ensures k !in t.entries ==> r.order == t.order + [k]
  {
    if k in t.entries then RawTable(t.order, t.entries[k := s])
    else RawTable(t.order + [k], t.entries[k := s])
  }

  lemma {:induction false} DistinctLength<T>(s: seq<T>)
    requires Distinct(s)
    ensures |set x | x in s| == |s|
  {
    if |s| > 0 {
      var tail := s[1..];
      DistinctLength(tail);
      assert (set x | x in s) == (set x | x in tail) + {s[0]};
      assert s[0] !in (set x | x in tail);
    }
  }

  /** The samples of a table in insertion order (PHP `foreach` over the array). */
  function Snapshot(t: Table): (r: seq<Sample>)
    ensures |r| == |t.order| == |t.entries|
    ensures forall i :: 0 <= i < |r| ==> r[i] == t.entries[t.order[i]]
    ensures forall k :: k in t.entries ==> t.entries[k] in r
  {
    DistinctLength(t.order);
    var r := seq(|t.order|, i requires 0 <= i < |t.order| => t.entries[t.order[i]]);
    assert forall k :: k in t.entries ==> t.entries[k] in r by {
      forall k | k in t.entries ensures t.entries[k] in r {
        var i :| 0 <= i < |t.order| && t.order[i] == k;
        assert r[i] == t.entries[k];
      }
    }
    r
  }
}

=== FILE: text.dfy ===
/** String helpers shared by the model: prefixes, `implode`, PHP's integer-to-string cast and
    PHP truthiness of strings. */
module Text {
  import opened Wrappers

  /** PHP `str_starts_with($s, $prefix)`. */
  predicate StartsWith(s: string, prefix: string) {
    |prefix| <= |s| && s[..|prefix|] == prefix
  }

  /** PHP `implode($sep, $parts)`. */
  function Join(sep: string, parts: seq<string>): string {
    if |parts| == 0 then ""
    else if |parts| == 1 then parts[0]
    else parts[0] + sep + Join(sep, parts[1..])
  }

  lemma {:induction false} JoinStartsWithFirst(sep: string, parts: seq<string>)
    requires |parts| > 0
    ensures StartsWith(Join(sep, parts), parts[0])
  {
    if |parts| > 1 {
      var j := Join(sep, parts);
      assert j == parts[0] + (sep + Join(sep, parts[1..]));
      assert j[..|parts[0]|] == parts[0];
    }
  }

  /** A string PHP treats as false: `""` and `"0"` (so `empty()` holds of them). */
  predicate Falsy(s: string) {
    s == "" || s == "0"
  }

  /** PHP `empty($v)` for a nullable string: null, `""` or `"0"`. */
  predicate EmptyValue(v: Option<string>) {
    v.None? || Falsy(v.value)
  }

  /** The characters PHP's `trim` strips by default. */
  predicate TrimmedChar(c: char) {
    c == ' ' || c == '\t' || c == '\n' || c == '\r' || c == '\0' || c == '\U{B}'
  }

  /** `trim($s) === ''`. */
  predicate Blank(s: string) {
    forall i :: 0 <= i < |s| ==> TrimmedChar(s[i])
  }

  predicate IsDigit(c: char) {
    '0' <= c <= '9'
  }

  function DigitChar(d: nat): (c: char)
    requires d < 10
    ensures IsDigit(c)
  {
    "0123456789"[d]
  }

  function DigitValue(c: char): (d: nat)
    requires IsDigit(c)
    ensures d < 10
  {
    (c as int - '0' as int) as nat
  }

  lemma DigitRoundTrip(d: nat)
    requires d < 10
    ensures DigitValue(DigitChar(d)) == d
  {
  }

  /** Decimal digits of a natural number, most significant first, no leading zeros. */
  function NatToString(n: nat): (s: string)
    ensures |s| > 0
    ensures forall i :: 0 <= i < |s| ==> IsDigit(s[i])
    ensures |s| > 1 ==> s[0] != '0'
  {
    if n < 10 then [DigitChar(n)] else NatToString(n / 10) + [DigitChar(n % 10)]
  }

  /** PHP `(string) $n` for an integer. */
  function IntToString(n: int): (s: string)
    ensures |s| > 0
    ensures s[0] == '-' <==> n < 0
  {
    if n < 0 then "-" + NatToString(-n) else NatToString(n)
  }

  /** The value of a non-empty run of decimal digits. */
  function DigitsValue(s: string): nat
    requires forall i :: 0 <= i < |s| ==> IsDigit(s[i])
  {
    if |s| == 0 then 0 else DigitsValue(s[..|s| - 1]) * 10 + DigitValue(s[|s| - 1])
  }

  /** Reads back an optionally signed decimal integer; `None` for anything else. */
  function ParseInt(s: string): Option<int> {
    if |s| > 1 && s[0] == '-' && (forall i :: 1 <= i < |s| ==> IsDigit(s[i])) then
      Some(-(DigitsValue(s[1..]) as int))
    else if |s| > 0 && (forall i :: 0 <= i < |s| ==> IsDigit(s[i])) then
      Some(DigitsValue(s))
    else
      None
  }

  lemma {:induction false} NatRoundTrip(n: nat)
    ensures DigitsValue(NatToString(n)) == n
  {
    if n >= 10 {
      var s := NatToString(n);
      var hi := NatToString(n / 10);
      assert s == hi + [DigitChar(n % 10)];
      assert s[..|s| - 1] == hi;
      NatRoundTrip(n / 10);
      DigitRoundTrip(n % 10);
    } else {
      DigitRoundTrip(n);
    }
  }

  /** The decimal rendering of an integer reads back as the same integer. */
  lemma IntRoundTrip(n: int)
    ensures ParseInt(IntToString(n)) == Some(n)
  {
    var s := IntToString(n);
    if n < 0 {
      NatRoundTrip(-n);
      assert s[1..] == NatToString(-n);
    } else {
      NatRoundTrip(n);
      assert !IsDigit('-');
    }
  }
}

=== FILE: update_request.dfy ===
/** Validation of an application update: the field rules as a table read by a small rule
    interpreter, and the key-uniqueness check that runs after them. The outcome is the set of
    field paths that carry an error; an empty set lets the update through. */
module UpdateRequest {
  import opened Wrappers
  import opened Text
  import opened Json
  import opened FileProvider

  datatype Rule = Nullable | IsString | IsInteger | IsBoolean | IsArray | Min(n: int) | Max(n: int) | OneOf(choices: seq<string>)

  /** A top-level input field, or a field inside a top-level array (`options.port`). */
  datatype Field = Top(name: string) | Nested(parent: string, name: string)

  /** Where an error is reported: on a field, or on one element of `allowed_origins` (by its
      index or key). */
  datatype ErrorKey = OnField(f: Field) | OnOrigin(element: string)

  /** The dotted path Laravel reports an error under. */
  function Path(e: ErrorKey): string {
    match e
    case OnField(Top(n)) => n
    case OnField(Nested(p, n)) => p + "." + n
    case OnOrigin(k) => "allowed_origins." + k
  }

  const KeyError := OnField(Top("key"))

  /** The rules of every field. Each one is `sometimes`: it applies only when the field is
      present, which `Lookup` expresses. */
  const FieldRules: seq<(Field, seq<Rule>)> := [
    (Top("name"), [IsString, Max(255)]),
    (Top("key"), [IsString, Min(16), Max(255)]),
    (Top("secret"), [IsString, Min(32), Max(255)]),
    (Top("allowed_origins"), [IsArray]),
    (Top("enable_client_messages"), [IsBoolean]),
    (Top("max_connections"), [Nullable, IsInteger, Min(1)]),
    (Top("max_message_size"), [IsInteger, Min(1), Max(10000000)]),
    (Top("options"), [IsArray]),
    (Nested("options", "host"), [IsString]),
    (Nested("options", "port"), [IsInteger, Min(1), Max(65535)]),
    (Nested("options", "scheme"), [IsString, OneOf(["http", "https"])]),
    (Nested("options", "useTLS"), [IsBoolean]),
    (Nested("options", "ping_interval"), [IsInteger, Min(1), Max(3600)]),
    (Nested("options", "activity_timeout"), [IsInteger, Min(1), Max(3600)])
  ]

  /** The input's value for a field, if present. A nested field is present only inside an
      object-valued parent. */
  function Lookup(input: Record, f: Field): Option<Value> {
    match f
    case Top(n) => if n in input then Some(input[n]) else None
    case Nested(p, n) =>
      if p in input && input[p].Object? && n in input[p].fields then Some(input[p].fields[n]) else None
  }

  /** The size `min`/`max` compare: the number itself under a numeric rule, the element count of
      an array, otherwise the string length. */
  function Size(v: Value, numeric: bool): int {
    match v
    case Int(i) => if numeric then i else |IntToString(i)|
    case Str(s) => |s|
    case List(items) => |items|
    case Object(fields) => |fields|
    case Bool(b) => if b then 1 else 0
    case Null => 0
  }

  /** The values the `boolean` rule accepts. */
  predicate Booleanish(v: Value) {
    v == Bool(true) || v == Bool(false) || v == Int(0) || v == Int(1) || v == Str("0") || v == Str("1")
  }

  predicate RuleFails(r: Rule, v: Value, numeric: bool) {
    match r
    case Nullable => false
    case IsString => !v.Str?
    case IsInteger => !v.Int?
    case IsBoolean => !Booleanish(v)
    case IsArray => !(v.List? || v.Object?)
    case Min(n) => Size(v, numeric) < n
    case Max(n) => Size(v, numeric) > n
    case OneOf(choices) => !(v.Str? && v.s in choices)
  }

  /** A present field fails when some rule rejects it; a null under `nullable` is not checked. */
  predicate FieldFails(input: Record, f: Field, rules: seq<Rule>) {
    match Lookup(input, f)
    case None => false
    case Some(v) =>
      !(Nullable in rules && v == Null) &&
      exists i :: 0 <= i < |rules| && RuleFails(rules[i], v, IsInteger in rules)
  }

  /** `allowed_origins.*` must be strings: one error per offending element. */
  function OriginErrors(input: Record): set<ErrorKey> {
    if "allowed_origins" !in input then {}
    else match input["allowed_origins"]
      case List(items) => set i | 0 <= i < |items| && !items[i].Str? :: OnOrigin(NatToString(i))
      case Object(fields) => set k | k in fields && !fields[k].Str? :: OnOrigin(k)
      case _ => {}
  }

  /** The errors the rules raise. */
  function RuleErrors(input: Record): set<ErrorKey> {
    (set i | 0 <= i < |FieldRules| && FieldFails(input, FieldRules[i].0, FieldRules[i].1) :: OnField(FieldRules[i].0))
      + OriginErrors(input)
  }

  /** `filled`: present and not an empty string. Only null and a string that trims to nothing
      count as empty; an array (even an empty one), a number and a boolean are always filled. */
  predicate Filled(input: Record, name: string) {
    name in input &&
      match input[name]
      case Null => false
      case Str(s) => !Blank(s)
      case _ => true
  }

  /** The string `keyExists(string $key, ...)` receives: a string as it is, an integer or a
      boolean converted as PHP's coercive typing does (`true` is "1", `false` is ""), and
      nothing for an array, which raises a `TypeError` at the call. */
  function KeyText(v: Value): (t: Option<string>)
    ensures t.None? <==> v.List? || v.Object? || v.Null?
    ensures v.Str? ==> t == Some(v.s)
    ensures v.Int? ==> t == Some(IntToString(v.i))
  {
    match v
    case Str(s) => Some(s)
    case Int(i) => Some(IntToString(i))
    case Bool(b) => Some(if b then "1" else "")
    case _ => None
  }

  /** The full validation: the rule errors, plus an error on `key` when a filled key is already
      used by an app other than the one being updated. The hook runs after the rules whatever
      they found, so it also runs for a key that failed the `string` rule: a number or boolean
      is looked up as its text, and an array makes the call raise. The lookup may refresh the
      provider, and a failed refresh propagates. */
  function Validate(p: Provider, file: File, now: int, routeId: string, input: Record): (r: Answer<set<ErrorKey>>)
    ensures !Filled(input, "key") ==> r == Answer(p, Success(RuleErrors(input)))
    ensures Filled(input, "key") && KeyText(input["key"]).None? ==> r == Answer(p, Failure(ArgumentType))
    ensures Filled(input, "key") && KeyText(input["key"]).Some? ==>
      && r.provider == Refresh(p, file, now).provider
      && (r.result.Failure? <==> Refresh(p, file, now).result.Failure?)
    ensures r.result.Success? ==> RuleErrors(input) <= r.result.value <= RuleErrors(input) + {KeyError}
    ensures Filled(input, "key") && KeyText(input["key"]).Some? && r.result.Success? ==>
      (KeyError in r.result.value <==>
        KeyError in RuleErrors(input) || KeyTaken(r.provider.apps, KeyText(input["key"]).value, Some(routeId)))
  {
    var errors := RuleErrors(input);
    if Filled(input, "key") then
      match KeyText(input["key"])
      case None => Answer(p, Failure(ArgumentType))
      case Some(key) =>
        var taken := KeyExists(p, file, now, key, Some(routeId));
        match taken.result
        case Failure(e) => Answer(taken.provider, Failure(e))
        case Success(b) => Answer(taken.provider, Success(if b then errors + {KeyError} else errors))
    else Answer(p, Success(errors))
  }

  /** A key sent as an array, even an empty one, is filled, so the hook hands it to
      `keyExists(string ...)`, which raises: validation fails instead of reporting errors. */
  lemma ArrayKeyFails(p: Provider, file: File, now: int, routeId: string, input: Record)
    requires "key" in input && (input["key"].List? || input["key"].Object?)
    ensures Validate(p, file, now, routeId, input) == Answer(p, Failure(ArgumentType))
  {
  }

  /** The top-level fields that have rules. */
  const TopFields: set<string> :=
    {"name", "key", "secret", "allowed_origins", "enable_client_messages", "max_connections", "max_message_size", "options"}

  /** The keys inside `options` that have rules of their own. */
  const OptionFields: set<string> := {"host", "port", "scheme", "useTLS", "ping_interval", "activity_timeout"}

  /** The option keys are exactly the ones the rule table names under `options`. */
  lemma OptionFieldsAreRuled(o: string)
    ensures o in OptionFields <==> exists i :: 0 <= i < |FieldRules| && FieldRules[i].0 == Nested("options", o)
  {
    if o in OptionFields {
      var i := if o == "host" then 8 else if o == "port" then 9 else if o == "scheme" then 10
        else if o == "useTLS" then 11 else if o == "ping_interval" then 12 else 13;
      assert FieldRules[i].0 == Nested("options", o);
    }
  }

  /** The validated data: the present top-level ruled fields. An array under `options` has
      rules for some of its keys, so it is rebuilt from those keys alone, and it is left out
      altogether when none of them is present; any other non-null value there has no such key.
      `allowed_origins` has a rule for every element, so it comes through whole. */
  function Validated(input: Record): (r: Record)
    ensures forall k :: k in TopFields && k != "options" ==> (k in r <==> k in input)
    ensures forall k :: k in r && k != "options" ==> k in TopFields && r[k] == input[k]
    ensures "options" !in input ==> "options" !in r
    ensures "options" in input && input["options"] == Null ==> "options" in r && r["options"] == Null
    ensures "options" in input && input["options"] != Null ==>
      && ("options" in r <==> input["options"].Object? && input["options"].fields.Keys * OptionFields != {})
      && ("options" in r ==>
            && r["options"].Object?
            && r["options"].fields.Keys == input["options"].fields.Keys * OptionFields
            && forall o :: o in r["options"].fields ==> r["options"].fields[o] == input["options"].fields[o])
    ensures "id" !in r
  {
    var plain := map k | k in input.Keys * (TopFields - {"options"}) :: input[k];
    if "options" !in input then plain
    else match input["options"]
      case Null => plain["options" := Null]
      case Object(fields) =>
        if fields.Keys * OptionFields == {} then plain
        else plain["options" := Object(map o | o in fields.Keys * OptionFields :: fields[o])]
      case _ => plain
  }

  /** A field carries an error exactly when it fails its rules. */
  lemma FieldErrorIff(input: Record, i: int)
    requires 0 <= i < |FieldRules|
    ensures OnField(FieldRules[i].0) in RuleErrors(input) <==> FieldFails(input, FieldRules[i].0, FieldRules[i].1)
  {
    if OnField(FieldRules[i].0) in RuleErrors(input) {
      assert OnField(FieldRules[i].0) !in OriginErrors(input);
      var j :| 0 <= j < |FieldRules| && FieldFails(input, FieldRules[j].0, FieldRules[j].1) &&
        FieldRules[j].0 == FieldRules[i].0;
      RuleFieldsDistinct(i, j);
    }
  }

  /** No field has two rule lists. */
  lemma RuleFieldsDistinct(i: int, j: int)
    requires 0 <= i < |FieldRules| && 0 <= j < |FieldRules|
    requires FieldRules[i].0 == FieldRules[j].0
    ensures i == j
  {
    FieldPosition(i);
    FieldPosition(j);
  }

  /** The position of a field in the rule table, read off its name. */
  function Position(f: Field): int {
    match f
    case Top(n) =>
      if n == "name" then 0 else if n == "key" then 1 else if n == "secret" then 2
      else if n == "allowed_origins" then 3 else if n == "enable_client_messages" then 4
      else if n == "max_connections" then 5 else if n == "max_message_size" then 6
      else if n == "options" then 7 else -1
    case Nested(_, n) =>
      if n == "host" then 8 else if n == "port" then 9 else if n == "scheme" then 10
      else if n == "useTLS" then 11 else if n == "ping_interval" then 12
      else if n == "activity_timeout" then 13 else -1
  }

  lemma FieldPosition(i: int)
    requires 0 <= i < |FieldRules|
    ensures Position(FieldRules[i].0) == i
  {
  }

  /** With every rule `sometimes`, an empty update is valid. */
  lemma EmptyInputIsValid()
    ensures RuleErrors(map[]) == {}
  {
    forall i | 0 <= i < |FieldRules| ensures !FieldFails(map[], FieldRules[i].0, FieldRules[i].1) {
    }
  }

  /** Whether a field's error is raised, given the value it holds. */
  lemma FieldVerdict(input: Record, i: int, v: Value)
    requires 0 <= i < |FieldRules| && Lookup(input, FieldRules[i].0) == Some(v)
    ensures OnField(FieldRules[i].0) in RuleErrors(input) <==>
      !(Nullable in FieldRules[i].1 && v == Null) &&
      exists k :: 0 <= k < |FieldRules[i].1| && RuleFails(FieldRules[i].1[k], v, IsInteger in FieldRules[i].1)
  {
    FieldErrorIff(input, i);
  }

  /** A string key must be 16 to 255 characters long. */
  lemma KeyLength(input: Record, s: string)
    requires "key" in input && input["key"] == Str(s)
    ensures OnField(Top("key")) in RuleErrors(input) <==> !(16 <= |s| <= 255)
  {
    FieldVerdict(input, 1, Str(s));
    var rules := FieldRules[1].1;
    if |s| < 16 { assert RuleFails(rules[1], Str(s), false); }
    if |s| > 255 { assert RuleFails(rules[2], Str(s), false); }
  }

  /** A string secret must be 32 to 255 characters long. */
  lemma SecretLength(input: Record, s: string)
    requires "secret" in input && input["secret"] == Str(s)
    ensures OnField(Top("secret")) in RuleErrors(input) <==> !(32 <= |s| <= 255)
  {
    FieldVerdict(input, 2, Str(s));
    var rules := FieldRules[2].1;
    if |s| < 32 { assert RuleFails(rules[1], Str(s), false); }
    if |s| > 255 { assert RuleFails(rules[2], Str(s), false); }
  }

  /** A string name may be at most 255 characters long. */
  lemma NameLength(input: Record, s: string)
    requires "name" in input && input["name"] == Str(s)
    ensures OnField(Top("name")) in RuleErrors(input) <==> |s| > 255
  {
    FieldVerdict(input, 0, Str(s));
    if |s| > 255 { assert RuleFails(FieldRules[0].1[1], Str(s), false); }
  }

  /** `max_connections` is null or an integer of at least 1. */
  lemma MaxConnectionsRange(input: Record)
    requires "max_connections" in input
    ensures OnField(Top("max_connections")) in RuleErrors(input) <==>
      !(input["max_connections"] == Null || (input["max_connections"].Int? && input["max_connections"].i >= 1))
  {
    var v := input["max_connections"];
    FieldVerdict(input, 5, v);
    var rules := FieldRules[5].1;
    if !v.Int? { assert RuleFails(rules[1], v, true); }
    else if v.i < 1 { assert RuleFails(rules[2], v, true); }
  }

  /** `max_message_size` is an integer from 1 to 10,000,000. */
  lemma MaxMessageSizeRange(input: Record)
    requires "max_message_size" in input
    ensures OnField(Top("max_message_size")) in RuleErrors(input) <==>
      !(input["max_message_size"].Int? && 1 <= input["max_message_size"].i <= 10000000)
  {
    var v := input["max_message_size"];
    FieldVerdict(input, 6, v);
    var rules := FieldRules[6].1;
    if !v.Int? { assert RuleFails(rules[0], v, true); }
    else if v.i < 1 { assert RuleFails(rules[1], v, true); }
    else if v.i > 10000000 { assert RuleFails(rules[2], v, true); }
  }

  /** The nested options that hold an integer with an upper bound: the port and the two
      intervals, each listed with its position among the rules and its bound. */
  lemma OptionRange(input: Record, i: int, name: string, bound: int, v: Value)
    requires (i, name, bound) in {(9, "port", 65535), (12, "ping_interval", 3600), (13, "activity_timeout", 3600)}
    requires "options" in input && input["options"].Object? && name in input["options"].fields
    requires v == input["options"].fields[name]
    ensures OnField(Nested("options", name)) in RuleErrors(input) <==> !(v.Int? && 1 <= v.i <= bound)
  {
    assert FieldRules[i].0 == Nested("options", name);
    assert FieldRules[i].1 == [IsInteger, Min(1), Max(bound)];
    FieldVerdict(input, i, v);
    var rules := FieldRules[i].1;
    if !v.Int? { assert RuleFails(rules[0], v, true); }
    else if v.i < 1 { assert RuleFails(rules[1], v, true); }
    else if v.i > bound { assert RuleFails(rules[2], v, true); }
  }

  /** `options.scheme` is `http` or `https`. */
  lemma SchemeChoice(input: Record)
    requires "options" in input && input["options"].Object? && "scheme" in input["options"].fields
    ensures OnField(Nested("options", "scheme")) in RuleErrors(input) <==>
      input["options"].fields["scheme"] !in {Str("http"), Str("https")}
  {
    var v := input["options"].fields["scheme"];
    FieldVerdict(input, 10, v);
    var rules := FieldRules[10].1;
    if v !in {Str("http"), Str("https")} { assert RuleFails(rules[1], v, false); }
  }

  /** An app sending back its own (well-formed) key passes validation: the uniqueness check
      skips the app being updated. */
  lemma OwnKeyPasses(p: Provider, file: File, now: int, id: string, key: string, j: nat)
    requires 16 <= |key| <= 255
    requires var apps := Refresh(p, file, now).provider.apps;
      && j < |apps| && FieldIs(apps[j], "key", key) && FieldIs(apps[j], "id", id)
      && forall k :: 0 <= k < |apps| && k != j ==> !FieldIs(apps[k], "key", key)
    requires Validate(p, file, now, id, map["key" := Str(key)]).result.Success?
    ensures Validate(p, file, now, id, map["key" := Str(key)]).result == Success({})
  {
    var input := map["key" := Str(key)];
    KeyLength(input, key);
    forall i | 0 <= i < |FieldRules| && i != 1 ensures !FieldFails(input, FieldRules[i].0, FieldRules[i].1) {
    }
    FieldErrorIff(input, 1);
    assert RuleErrors(input) == {};
    OwnKeyIsFree(Refresh(p, file, now).provider.apps, j, key, id);
  }
}

=== FILE: wrappers.dfy ===
/** Optional values and results with an error, standing for PHP's nullable values and exceptions. */
module Wrappers {

  /** A value that may be absent (PHP `null`). */
  datatype Option<+T> = None | Some(value: T) {

    /** The value, or `default` when absent (PHP's `??`). */
    function GetOr(default: T): T {
      match this
      case Some(v) => v
      case None => default
    }
  }

  /** The outcome of an operation that may throw: a value or the exception raised. */
  datatype Result<+T, +E> = Success(value: T) | Failure(error: E) {

    predicate IsFailure() {
      Failure?
    }

    function PropagateFailure<U>(): Result<U, E>
      requires Failure?
    {
      Failure(error)
    }

    function Extract(): T
      requires Success?
    {
      value
    }
  }
}
